=== FILE: README.md ===
# Casi Casi — a Dafny model of the game rules

Casi Casi is a trivia game about numbers. A question has a secret whole-number
answer (`respuesta`) and an accepted range (`rango_min`..`rango_max`). Players type a
number and earn points by how close it is. This project models the parts of the
repository that decide the game:

- **the online room server** (`server/index.js`): rooms of at most two players in a
  plain-object registry; host-only start; answers scored 100/50/25/0; turns that
  rotate modulo the player count; game over after the last round; players that
  disconnect;
- **the local round hooks**:
  - the classic round: proximity tiers plus a time bonus on a 30-second clock;
  - the plus/minus round: a guess budget of 5 to 20, with `+`/`-` hints on a
    10-second clock;
  - the older all-in-one engine (`useGameEngine.ts`), with its own tiers, dice
    budget and forced wildcard round;
- **the orchestrator and player statistics**: each player plays all their rounds in
  turn; scores are floored at zero; every player gets +100 at the end; the high
  score is kept;
- **question selection**: unplayed questions first, the whole pool once all are
  played;
- **the countdown** hook, as a step function;
- **record coercion**: `isQuestion` and `coerceQuestion`, with the ECMAScript
  `parseInt`, `ToString`, `toUpperCase` and truthiness they depend on;
- **the numeric input fields**: thousands grouping with `.`, length caps, and
  delete;
- **the setup screen's roster editing**;
- **the question database browser's page controls**.

Each event handler is one pure transition over an immutable record. A React
handler reads the state its render captured, and the model passes that snapshot
explicitly wherever it matters. Randomness is a parameter: room ids, question picks,
dice, the guess budget and the avatar shuffle. A random index into a list is a
`nat` taken modulo the list's length, and a lemma shows that every index can be
reached. When the server crashes, the model returns `Crash`. This covers a
`TypeError` thrown in a socket listener, such as reading a property of `null` or
of `undefined`, which ends the Node process.

Facts about the online server that the model keeps as the code has them:

- Room codes are not checked for collisions. A new room stored under an existing
  code replaces the old room (`server/index.js` lines 60-66).
- `submit-answer` has no check on who sends it or on the screen (lines 94-120).
- The server writes nothing to disk; the question bank is read once at start-up.
- The online game has five rounds, and an answer scores 100, 50, 25 or 0 points
  (lines 49 and 99-104). The online server has no time bonus.

Modules:

- `Wrappers`, `GameTypes`, `Arith`;
- `JsText`: ECMAScript `parseInt`, trimming, `toUpperCase`;
- `JsObject`: `for...in` key order and the names every object inherits;
- `Countdown`, `Players`, `QuestionPool`, `ClassicRound`, `PlusminusRound`,
  `Orchestrator`, `GameEngine`;
- `QuestionValidation`, `NumberFormat`, `SetupScreen`, `Pagination`;
- `RoomServer`.

## Model

| member | source | states |
|---|---|---|
| Countdown.New | src/hooks/useCountdown.ts:3-5 | a new clock is stopped, shows its initial value, and is within 0..initial |
| Countdown.Start | src/hooks/useCountdown.ts:27-30 | `start` runs the clock from its initial value |
| Countdown.Pause | src/hooks/useCountdown.ts:32-34 | `pause` stops the clock and keeps the time shown |
| Countdown.Reset | src/hooks/useCountdown.ts:36-39 | `reset` stops the clock back at its initial value |
| Countdown.Step | src/hooks/useCountdown.ts:12-25 | a tick keeps the clock within 0..initial; it fires `onTimeout` exactly when a running clock shows 0, and then stops; otherwise it lowers a running clock by one; a stopped clock is unchanged |
| Countdown.RunAfterStart | src/hooks/useCountdown.ts:12-30 | after `start`, n ticks show max(initial − n, 0); the clock still runs iff n ≤ initial; `onTimeout` has fired once after more than initial ticks and never before |
| Countdown.RunFrom | src/hooks/useCountdown.ts:12-25 | the same count-down from any running clock |
| Countdown.Run | src/hooks/useCountdown.ts:12-25 | over any number of ticks the initial value is kept, a valid clock stays valid, a stopped clock never changes, and `onTimeout` fires at most once, after which the clock is stopped |
| Countdown.RunStopped | src/hooks/useCountdown.ts:13-24 | a stopped clock never changes and never fires |
| Players.NoPlayers | src/hooks/usePlayers.ts:8-10 | the hook starts with no players, index 0 |
| Players.SetInitialPlayers | src/hooks/usePlayers.ts:13-16 | the given roster, with the first player to move |
| Players.AdvanceToNextPlayer | src/hooks/usePlayers.ts:34-36 | the index goes up by one with no wrap-around; the roster is unchanged |
| Players.ResetPlayers | src/hooks/usePlayers.ts:39-42 | an empty roster, index 0 |
| Players.ClampScore | src/hooks/usePlayers.ts:22-23 | the result is never negative and never below its input; it equals the input or is 0 |
| Players.Bump | src/hooks/usePlayers.ts:25-27 | exactly the named hit counter goes up by one |
| Players.ApplyResult | src/hooks/usePlayers.ts:22-27 | score moved by the change and floored at 0; time used added; one counter bumped; name and avatar kept |
| Players.UpdatePlayerStats | src/hooks/usePlayers.ts:19-31 | only the current player changes; the roster keeps its length and the index stays |
| Players.ApplyAllTotals | src/hooks/usePlayers.ts:19-31 | over a run of results the floor only adds points: the final score is ≥ 0 and ≥ start + Σ changes, and equal to that sum when no running total dips below 0; time and hit totals add up exactly |
| QuestionPool.Unplayed | src/hooks/useQuestions.ts:13 | exactly the pool's questions whose text is not in the played list |
| QuestionPool.Candidates | src/hooks/useQuestions.ts:13-16 | the unplayed questions while there are any, otherwise the whole pool; never empty for a non-empty pool |
| QuestionPool.SelectNewQuestion | src/hooks/useQuestions.ts:10-23 | `null` exactly while loading or for an empty pool; otherwise a question of the pool, unplayed if any is unplayed, and the played list grows by exactly its text |
| QuestionPool.SelectionReachesEveryCandidate | src/hooks/useQuestions.ts:13-19 | every unplayed question, and every question once all are played, is drawn by some random value |
| QuestionPool.DrawsAreDistinct | src/hooks/useQuestions.ts:10-23 | successive draws never repeat a text while the pool has unplayed texts |
| QuestionPool.ResetPlayedQuestions | src/hooks/useQuestions.ts:25-27 | the played list is emptied (with `QuestionPool.ResetRestoresPool`, every question is a candidate again) |
| QuestionPool.ResetRestoresPool | src/hooks/useQuestions.ts:25-27 | after `resetPlayedQuestions` every question of the pool is a candidate again |
| ClassicRound.ParseAnswer | src/hooks/useClassicRound.ts:36 | an answer without dots reads as `parseInt` of itself; a readable answer holds a digit; an answer of digits and dots that holds a digit reads as the number its digits spell with the dots dropped, so "1.23" reads as 123 |
| ClassicRound.DotlessDigits | src/hooks/useClassicRound.ts:36 | dropping the dots from digits and dots leaves digits that `parseInt` reads whole |
| ClassicRound.NewClassicRound | src/hooks/useClassicRound.ts:10-26 | no question, an empty answer, and a stopped 30-second clock |
| ClassicRound.ClassicTimeoutReport | src/hooks/useClassicRound.ts:18-20 | a timeout costs 20 points, counts as wrong, uses the full 30 seconds and earns no bonus |
| ClassicRound.ClassicTier | src/hooks/useClassicRound.ts:40-62 | exact iff the answer equals `respuesta`, and only exact is worth 150; correct iff it is inside the inclusive range but not exact, worth 50; otherwise 15, 10 or 5 when the distance is within 20%, 30% or 40% of `respuesta`, and 0 beyond; the bonus is earned iff the base is positive |
| ClassicRound.ScoreClassicAnswer | src/hooks/useClassicRound.ts:31-65 | timeUsed = 30 − clock; exact iff the answer reads as `respuesta`, correct iff it reads as another number inside the range; an unreadable answer gives −25, wrong, no bonus; a readable answer earns its tier's base plus the seconds left when the tier earns a bonus, with the tier's category |
| ClassicRound.HandleClassicAnswer | src/hooks/useClassicRound.ts:28-66 | without a question nothing is reported; otherwise the scored report of the typed answer at the current clock |
| ClassicRound.ClassicNextQuestion | src/hooks/useClassicRound.ts:68-76 | nothing changes without a drawable question; otherwise the drawn question is shown, the answer cleared, and the clock restarted at 30 |
| ClassicRound.ClassicStep | src/hooks/useClassicRound.ts:18-26 | the round reports exactly when its clock runs out, and the report is the timeout report |
| ClassicRound.ClassicReportBounds | src/hooks/useClassicRound.ts:31-65 | with 0..30 seconds left a report is worth −25..180, and 180 only for an exact answer at once |
| ClassicRound.CloserTierNeverLower | src/hooks/useClassicRound.ts:51-62 | outside the range, a closer answer never earns a lower tier |
| ClassicRound.CloserNeverScoresLess | src/hooks/useClassicRound.ts:41-65 | at the same clock, a closer answer outside the range never scores less |
| ClassicRound.ParseAnswerOfFormatted | src/hooks/useClassicRound.ts:36 | the number the input field shows for n reads back as n |
| ClassicRound.ExactAnswerScores | src/hooks/useClassicRound.ts:36-65 | typing the secret number exactly scores 150 plus the seconds left, as an exact hit |
| PlusminusRound.NewPlusminusRound | src/hooks/usePlusminusRound.ts:11-27 | no question, no guesses, no hint, and a stopped 10-second clock |
| PlusminusRound.GuessBudget | src/hooks/usePlusminusRound.ts:85 | the budget lies in 5..20 |
| PlusminusRound.StartPlusminusRound | src/hooks/usePlusminusRound.ts:80-92 | a drawn question with a budget in 5..20 that is also the initial budget; the hint cleared; the clock running from 10; nothing changes without a question |
| PlusminusRound.PlusminusNextQuestion | src/hooks/usePlusminusRound.ts:94-103 | as written: two draws, both recorded as played, and the second one is shown |
| PlusminusRound.PlusminusNextQuestionIntended | src/hooks/usePlusminusRound.ts:94-103 | one draw, shown and recorded |
| PlusminusRound.NextQuestionHidesADraw | src/hooks/usePlusminusRound.ts:94-103 | as written, a question is marked played although it was never shown |
| PlusminusRound.SpendGuess | src/hooks/usePlusminusRound.ts:47-76 | a miss costs exactly one guess and clears the answer; it loses iff that was the last guess, and otherwise restarts the clock |
| PlusminusRound.HandlePlusminusGuess | src/hooks/usePlusminusRound.ts:40-78 | no-op without a question; the round ends iff the guess is exact, worth 75 + 25·guessesLeft with bonus 25·guessesLeft; otherwise one guess fewer and a loss iff none remain; hint `+` below the secret, `-` above, none if unreadable |
| PlusminusRound.PlusminusTick | src/hooks/usePlusminusRound.ts:29-38 | a timeout spends a guess with no hint, or loses on the last guess; other ticks spend nothing; a tick never ends the round with a win |
| PlusminusRound.Play | src/hooks/usePlusminusRound.ts:40-78 | a run of guesses keeps the question; while it goes on, every guess was a miss and each cost exactly one guess; a round ends only in an exact hit |
| PlusminusRound.BudgetEndsRound | src/hooks/usePlusminusRound.ts:40-78 | a round never outlasts its budget: as many answers as guesses end it |
| PlusminusRound.FirstGuessWins | src/hooks/usePlusminusRound.ts:40-92 | typing the secret at once wins the whole budget as bonus |
| Orchestrator.NewGame | src/hooks/useGameOrchestrator.ts:13-14 | setup screen, 10 rounds, classic mode, no players |
| Orchestrator.OnRoundEnd | src/hooks/useGameOrchestrator.ts:47-55 | shows the answer, remembers the report, and applies it to the current player's statistics |
| Orchestrator.OnPlusminusLose | src/hooks/useGameOrchestrator.ts:60-63 | a lost plus/minus round is a wrong answer worth 0 that used 10 seconds: the player's score does not move, or is floored to 0, and their wrong count goes up by one |
| Orchestrator.MaxScore | src/hooks/useGameOrchestrator.ts:103 | the highest score, which some player reaches |
| Orchestrator.FirstWithScore | src/hooks/useGameOrchestrator.ts:105 | the first player whose score equals the given one |
| Orchestrator.RecordHighScore | src/hooks/useGameOrchestrator.ts:103-109 | replaced iff none exists or the best final score is strictly higher, named after the first player with that score; it never decreases |
| Orchestrator.AddFinalBonus | src/hooks/useGameOrchestrator.ts:100 | every player gets exactly +100, unfloored, and nothing else changes |
| Orchestrator.AdvanceGameFrom | src/hooks/useGameOrchestrator.ts:92-131 | before the round count: same player, next round; at the last player: +100 for everyone, high score, game over; otherwise: next player from the first round with the played list cleared |
| Orchestrator.InitializeGameFrom | src/hooks/useGameOrchestrator.ts:146-165 | every player starts at 100 points with no time used; the first player is up; played list cleared; turn-switch screen |
| Orchestrator.AdvanceGameAsWritten | src/hooks/useGameOrchestrator.ts:111-122 | as written: the same advance as `Orchestrator.AdvanceGame` except that a new player's turn starts at round 1 instead of 0 |
| Orchestrator.AdvanceGame | src/hooks/useGameOrchestrator.ts:92-131 | game over exactly at the last round of the last player, with +100 for everyone and no new question; otherwise a question is drawn on the playing screen: the next round of the same player, or round 0 of the next player with nothing played |
| Orchestrator.InitializeGameAsWritten | src/hooks/useGameOrchestrator.ts:146-165 | as written: the game `Orchestrator.InitializeGame` sets up, but at round 1 |
| Orchestrator.InitializeGame | src/hooks/useGameOrchestrator.ts:146-165 | round 0, turn-switch screen, first player, nothing played; every player at 100 points with no time used, keeping name and avatar |
| Orchestrator.StartScores | src/hooks/useGameOrchestrator.ts:150-155 | score 100 and time 0 for each player, all else kept |
| Orchestrator.HandleReset | src/hooks/useGameOrchestrator.ts:175-182 | back to setup with no players, round 0, and nothing played; the high score is kept |
| Orchestrator.AdvanceMovesOneQuestion | src/hooks/useGameOrchestrator.ts:92-131 | each advance moves exactly one question on, in the order "all of player 0's rounds, then player 1's"; the last one ends the game |
| Orchestrator.GameEndsAfterEveryQuestion | src/hooks/useGameOrchestrator.ts:92-131 | from any question on show (never the setup, turn-switch or game-over screen), the game ends after exactly as many advances as questions remain |
| Orchestrator.AdvancesWithinTurn | src/hooks/useGameOrchestrator.ts:124-130 | below the round count, advancing keeps the player and counts rounds up |
| Orchestrator.TurnHasOneQuestionLess | src/hooks/useGameOrchestrator.ts:111-122 | as written, a turn entered by the player switch holds one question fewer than the round count |
| Orchestrator.TurnHasEveryQuestion | src/hooks/useGameOrchestrator.ts:111-130 | with turns starting at round 0, a turn entered by the player switch (its first question on show) holds exactly the round count |
| Orchestrator.LeaveTurnSwitch | src/hooks/useGameOrchestrator.ts:163-172 | leaving the turn-switch screen shows the turn's first question (screen `Playing`) and changes nothing else; any other screen is kept |
| Orchestrator.FirstTurnHasEveryQuestion | src/hooks/useGameOrchestrator.ts:146-172 | the first turn, from `InitializeGame` through the turn-switch exit, holds exactly the round count, is handed to player 1 after it, and the game ends after one advance per question of every player |
| Orchestrator.FirstTurnSkipsARound | src/App.tsx:31 | as written, with `advanceGame` as the turn-switch exit, the first player's first question is at round 2 and the turn hands over after `numberOfRounds - 2` questions |
| GameEngine.NewEngine | src/hooks/useGameEngine.ts:6-26 | setup screen, 5 rounds, classic mode, no question, wildcard unplayed |
| GameEngine.Die | src/hooks/useGameEngine.ts:65-66 | a die shows 1..6 |
| GameEngine.Draw | src/hooks/useGameEngine.ts:49-59 | no question for an empty pool; otherwise a question of the pool, unplayed if any is, shown and recorded |
| GameEngine.StartPlusminusRound | src/hooks/useGameEngine.ts:61-73 | the plus/minus screen with a budget of two dice (2..12), no hint, a 10-second clock, and the wildcard marked played |
| GameEngine.NextQuestion | src/hooks/useGameEngine.ts:75-87 | the answer is cleared and the clock set to 30; classic shows the question; plus/minus starts a plus/minus round |
| GameEngine.LegacyTier | src/hooks/useGameEngine.ts:143-166 | exact iff equal, and only exact is worth 150; correct iff inside the range but not exact, worth 50; otherwise 15, 10 or 5 when the distance is within 10%, 20% or 30% of `respuesta`, and 0 with no bonus beyond |
| GameEngine.LegacyReport | src/hooks/useGameEngine.ts:132-170 | a timeout costs 20, an unreadable answer 25; exact iff the answer equals `respuesta`; timeUsed = 30 − timer; a readable answer earns its legacy tier's base plus the seconds left when the tier earns a bonus |
| GameEngine.LegacyTierNarrower | src/hooks/useGameEngine.ts:155-166 | the legacy tier's base never exceeds the modular hook's for the same number; both give the same category, and for exact and in-range answers the same tier |
| GameEngine.LegacyNeverAwardsMore | src/hooks/useGameEngine.ts:128-170 | for the same answer and clock, the legacy engine never awards more than the modular hook, with the same category |
| GameEngine.HandleAnswer | src/hooks/useGameEngine.ts:128-189 | a no-op unless the screen is playing with a question; otherwise the current player takes the floored result, the answer is shown, and the advance is scheduled |
| GameEngine.LosePlusminus | src/hooks/useGameEngine.ts:191-209 | a loss costs 50 in classic and 10 in plus/minus, floored at 0; only the current player changes; the advance is scheduled |
| GameEngine.WinPoints | src/hooks/useGameEngine.ts:232-238 | a win is worth 250 in classic (the wildcard), otherwise 75 + 5·guessesLeft |
| GameEngine.WinPlusminus | src/hooks/useGameEngine.ts:230-255 | the win is added to the current player's score without a floor, with its time; the advance is scheduled |
| GameEngine.MissPlusminus | src/hooks/useGameEngine.ts:217-226 | a miss loses iff it was the last guess; otherwise one guess fewer, the answer cleared, and the clock back at 10 |
| GameEngine.HandlePlusminusGuess | src/hooks/useGameEngine.ts:211-268 | no-op without a question; an exact guess wins; an unreadable guess keeps the hint; a wrong guess hints `+` below the secret and `-` above |
| GameEngine.HandlePlusminusTimeout | src/hooks/useGameEngine.ts:270-279 | only on the plus/minus screen; a guess is spent with the hint cleared, or, on the last guess, the round is lost exactly as `GameEngine.LosePlusminus` |
| GameEngine.Tick | src/hooks/useGameEngine.ts:284-305 | while playing, the clock counts down and at 0 a timeout is answered; the plus/minus clock counts down and at 0 calls the plus/minus timeout; on other screens nothing happens |
| GameEngine.AdvanceGameAsWritten | src/hooks/useGameEngine.ts:89-126 | as written: at game over the +100 goes to the snapshot's players; before it, the players are untouched and the advance is `GameEngine.AdvanceGame`; the last round's score is left as it is |
| GameEngine.AdvanceGame | src/hooks/useGameEngine.ts:89-126 | at game over the +100 goes to the players as they are by then; before it, the players are untouched; the last round's score is left as it is |
| GameEngine.ThenAdvanceAsWritten | src/hooks/useGameEngine.ts:184-255 | as written: a handler that scheduled nothing is final; its delayed callback clears the last round's score and advances, ending the game with +100 on the players the handler saw |
| GameEngine.ThenAdvance | src/hooks/useGameEngine.ts:184-255 | the same callback with the +100 on the players the handler left |
| GameEngine.Budget | src/hooks/useGameEngine.ts:217-279 | the guesses a budget allows: at least one, and the budget itself when positive |
| GameEngine.MissesSpendBudget | src/hooks/useGameEngine.ts:191-279 | a run of misses and timeouts ends the round exactly when the budget is spent; until then only guesses are spent; at the end the current player loses 50 (wildcard) or 10 (plus/minus), floored at 0, and no one else changes |
| GameEngine.MissStep | src/hooks/useGameEngine.ts:191-279 | one timeout or miss ends the round exactly when it spends the budget's last guess, and then loses the round; otherwise it spends one guess and changes no player |
| GameEngine.AdvanceGameWith | src/hooks/useGameEngine.ts:89-126 | classic with the wildcard unplayed at the last round starts the wildcard round; otherwise the next round, the next player from round 0 with the wildcard reset, or +100 for everyone and game over |
| GameEngine.LastResultLost | src/hooks/useGameEngine.ts:96-111 | as written, a final plus/minus win is overwritten by the +100 bonus computed from stale players |
| GameEngine.LastResultKept | src/hooks/useGameEngine.ts:96-111 | with the bonus added to the current players, the final win counts |
| GameEngine.WildcardBeforeTurnEnds | src/hooks/useGameEngine.ts:90-93 | in classic mode the wildcard round is played before the player's turn ends, and the player and round stay the same |
| GameEngine.DealAvatars | src/hooks/useGameEngine.ts:317-321 | every player starts at 100 points with the shuffled avatar at index mod 5 |
| GameEngine.ShuffleKeepsAvatars | src/hooks/useGameEngine.ts:308-315 | a shuffle of the five avatars holds only those avatars |
| GameEngine.DealtAvatarsListed | src/hooks/useGameEngine.ts:315-321 | every avatar dealt is one of the five |
| GameEngine.InitializeGame | src/hooks/useGameEngine.ts:307-334 | every player starts at 100 with one of the five avatars, keeping name and time used; first player, round 0; the first question comes from the pool |
| GameEngine.HandleReset | src/hooks/useGameEngine.ts:336-342 | back to setup with no players, round 0, and the wildcard unplayed; the played list and the high score are kept |
| QuestionValidation.OptionalString | src/utils/questionValidation.ts:21 | `?.toString()` is absent exactly for `null` and `undefined`, and a string gives itself |
| QuestionValidation.OrElse | src/utils/questionValidation.ts:33-38 | an absent or empty string yields the fallback |
| QuestionValidation.IsQuestion | src/utils/questionValidation.ts:4-15 | it throws exactly for `null` and `undefined` |
| QuestionValidation.IsQuestionIff | src/utils/questionValidation.ts:4-15 | `isQuestion` holds iff the value is an object whose eight fields all have their declared types |
| QuestionValidation.CoerceQuestion | src/utils/questionValidation.ts:18-40 | `null` iff the value is not an object, the text is missing or empty, or `respuesta` does not parse; otherwise the parsed answer, range bounds defaulting to answer ± 10, category defaulting to "Sin Categoría", `informacion` and `fuente` to "", and `activa` upper-cased with default "SI" |
| QuestionValidation.Fill | src/utils/questionValidation.ts:30-39 | the built record keeps the text and the answer; it defaults the range to answer ± 10, the category to "Sin Categoría", `informacion` and `fuente` to "" (an empty value also takes the default) |
| QuestionValidation.Active | src/utils/questionValidation.ts:38 | `activa` is the upper-cased value when that is non-empty, and "SI" otherwise |
| QuestionValidation.ToJs | src/utils/questionValidation.ts:4-15 | a question's JSON record is an object |
| QuestionValidation.WrittenRecordIsQuestion | src/utils/questionValidation.ts:4-15 | the record of any question passes `isQuestion` |
| QuestionValidation.ParseValueReadsString | src/utils/questionValidation.ts:24-28 | reading a field is `parseInt` of its string form |
| QuestionValidation.SingletonReadsAsElement | src/utils/questionValidation.ts:21-24 | a one-element array that is not `[null]` or `[undefined]` reads as its element's string form |
| QuestionValidation.SingletonArraysCoerce | src/utils/questionValidation.ts:18-25 | a record whose text and answer are one-element arrays fails `isQuestion` but coerces, keeping the text and the number inside |
| QuestionValidation.CoerceWritten | src/utils/questionValidation.ts:18-40 | coercing the record of a settled question gives the question back |
| QuestionValidation.CoercedIsSettled | src/utils/questionValidation.ts:18-40 | every coerced question is settled |
| QuestionValidation.CoerceIdempotent | src/utils/questionValidation.ts:18-40 | coercing twice is coercing once |
| QuestionValidation.CoerceKeepsTypedNumbers | src/utils/questionValidation.ts:18-40 | a record that passes `isQuestion` with a text keeps its answer and bounds |
| JsText.Trim | src/components/SetupScreen.tsx:68 | `trim()` is the part of the string between its leading and trailing white space, and neither end of it is white space |
| JsText.TrimEmptyIff | src/components/SetupScreen.tsx:68 | `trim()` is empty iff the string is all white space |
| JsText.ParseInt | server/index.js:100 | NaN exactly when no digit follows the white space and an optional sign; a negative result needs a leading `-`; a readable text holds a digit |
| JsText.ParseIntShow | server/index.js:100 | `parseInt(String(n), 10)` is n, also with leading white space and a non-digit after it |
| JsText.ParseIntSkipsWhiteSpace | server/index.js:100 | leading white space does not change what `parseInt` reads |
| JsText.ParseIntStopsAtSeparator | server/index.js:100 | `parseInt("1.234", 10)` is 1 |
| JsText.ParseIntNaN | src/utils/questionValidation.ts:24-25 | text with no digit after an optional sign is NaN |
| JsText.UpperChar | src/utils/questionValidation.ts:38 | "SS" exactly for ß, otherwise one character: ASCII and Latin-1 lower-case letters (U+00E0 to U+00FE except ÷) go to the capital 32 below, µ to Greek capital mu (U+039C), ÿ to U+0178; every other character is unchanged |
| JsText.ToUpper | src/utils/questionValidation.ts:38 | every character of the result is its own upper case |
| JsText.ToUpperSingle | src/utils/questionValidation.ts:38 | upper-casing one character is `UpperChar` of it |
| JsText.ToUpperConcat | src/utils/questionValidation.ts:38 | upper-casing distributes over concatenation: it works character by character |
| JsText.ToUpperIdempotent | src/utils/questionValidation.ts:38 | upper-casing twice is upper-casing once |
| JsObject.KeysWhere | server/index.js:154 | exactly the keys that are (or are not) array indices |
| JsObject.Sort | server/index.js:154 | a permutation of the index keys in ascending numeric order |
| JsObject.InsertAddsOne | server/index.js:154 | inserting a key into a sorted run adds exactly that key |
| JsObject.IterationOrder | server/index.js:154 | the `for...in` order of the registry visits exactly its keys, and after the index keys come the other keys in creation order |
| JsObject.IndexKeysComeFirst | server/index.js:154 | array-index keys come first, in numeric order, and then the other keys |
| JsObject.KeysWhereConcat | server/index.js:154 | selecting the index keys, or the other keys, of two runs of created keys is selecting from each run in turn |
| JsObject.FilterKeepsOrder | server/index.js:154 | two selected keys keep their relative order, each placed right after the selected keys created before it |
| JsObject.NonIndexKeysKeepOrder | server/index.js:154 | two keys that are not array indices are visited after every index key, in the order they were created |
| NumberFormat.FormatNumber | src/hooks/useNumpadInput.ts:10-12 | only digits and dots; the digits of the input, in order; grouped as 1–3 digits, then `.ddd` groups |
| NumberFormat.GroupIsRegexReplace | src/hooks/useNumpadInput.ts:11 | grouping from the right is the global replacement of `\B(?=(\d{3})+(?!\d))` read left to right |
| NumberFormat.WellGroupedUnique | src/hooks/useNumpadInput.ts:11 | only one well-grouped text shows a given run of digits |
| NumberFormat.FormatNumberCharacterised | src/hooks/useNumpadInput.ts:10-12 | the output is exactly the well-grouped text whose digits are the input's |
| NumberFormat.FormatNumberIdempotent | src/hooks/useNumpadInput.ts:10-12 | formatting twice is formatting once |
| NumberFormat.FormatNumberLength | src/hooks/useNumpadInput.ts:17 | the formatted text is at most 12 long iff it holds at most 9 digits |
| NumberFormat.NumpadInputChange | src/hooks/useNumpadInput.ts:14-20 | the field changes iff the typed text holds at most 9 digits, which is when its formatted text fits in 12 characters, and then to that text |
| NumberFormat.NumpadDigit | src/hooks/useNumpadInput.ts:22-28 | on a formatted field a key is taken iff fewer than 12 digits show; the result is well grouped, with the key's digits appended |
| NumberFormat.NumpadDelete | src/hooks/useNumpadInput.ts:30-32 | the field loses exactly its last character |
| NumberFormat.DeleteThenDigit | src/hooks/useNumpadInput.ts:22-32 | deleting the last digit then pressing a key shows what typing that key instead would have shown |
| NumberFormat.NumpadDigitBound | src/hooks/useNumpadInput.ts:22-28 | key presses never make the field show more than 12 digits |
| NumberFormat.PlayerInputDigit | src/components/PlayerInput.tsx:32-38 | as written: a key is taken iff the value without `,` is shorter than 9, and the result is re-formatted |
| NumberFormat.PlayerInputDigitStopsAtSeven | src/components/PlayerInput.tsx:32-38 | as written, the keypad stops at seven digits, because the dots count toward the cap |
| NumberFormat.PlayerInputDigitIntended | src/components/PlayerInput.tsx:32-38 | the intended guard on the value without `.`, re-formatted |
| NumberFormat.PlayerInputDigitIntendedCap | src/components/PlayerInput.tsx:32-38 | with the intended guard the field takes keys while it shows fewer than nine digits, and appends the digit |
| SetupScreen.BlankPlayer | src/components/SetupScreen.tsx:29 | a new player has no name, 100 points, and zeroed counters |
| SetupScreen.NewSetup | src/components/SetupScreen.tsx:28-32 | one blank player with the first avatar, 10 rounds (one of 5/10/15), classic mode |
| SetupScreen.IndexIn | src/components/SetupScreen.tsx:42 | `indexOf`: the first position of the avatar, or −1 exactly when it is absent |
| SetupScreen.Cycle | src/components/SetupScreen.tsx:41-52 | the next or previous avatar is always one of the list |
| SetupScreen.AvatarChange | src/components/SetupScreen.tsx:41-52 | only that player's avatar moves, cyclically; from an unknown avatar "next" gives the first and "previous" the ninth |
| SetupScreen.CycleFromUnlisted | src/components/SetupScreen.tsx:42-48 | an unlisted entry counts as position −1: "next" gives the first and "previous" the second to last |
| SetupScreen.AddPlayer | src/components/SetupScreen.tsx:54-59 | below four players a blank player with avatar `len mod 10` is appended; otherwise nothing changes |
| SetupScreen.RemovePlayer | src/components/SetupScreen.tsx:61-66 | with more than one player exactly that entry is removed and the others keep their order; otherwise nothing changes |
| SetupScreen.SetName | src/components/SetupScreen.tsx:35-39 | only that player's name changes |
| SetupScreen.ChooseRounds | src/components/SetupScreen.tsx:137-141 | the round count is one of 5, 10, 15 |
| SetupScreen.CanStartIff | src/components/SetupScreen.tsx:68 | the game can start iff no name is all white space |
| SetupScreen.EditsKeepValid | src/components/SetupScreen.tsx:54-66 | every edit keeps one to four players and an offered round count |
| SetupScreen.AvatarsDistinct | src/components/SetupScreen.tsx:13-24 | the ten avatars are all different |
| SetupScreen.CycleRestores | src/components/SetupScreen.tsx:41-52 | in a list without repeats, one step and a step back restore a listed entry |
| SetupScreen.AvatarStepRestores | src/components/SetupScreen.tsx:41-52 | "next" then "previous", or the reverse, gives a listed avatar back and leaves the setup unchanged |
| Pagination.TotalPages | db/static/script.js:246 | the page count is the least t with 25·t ≥ records |
| Pagination.RowIndex | db/static/script.js:58 | the row's index divided by 25 is its page − 1, and the remainder is its position |
| Pagination.RowIndexInjective | db/static/script.js:58 | two rows share an index iff they are the same page and position |
| Pagination.PageWindow | db/static/script.js:264-269 | 1 ≤ start ≤ end ≤ total with min(5, total) buttons; the window holds a current page inside 1..total, and ends at the last page when the current one is past it |
| Pagination.PageRange | db/static/script.js:281-287 | the buttons for pages lo..hi, in order; only the current page's button is disabled |
| Pagination.Leading | db/static/script.js:271-279 | page 1 shows iff start > 1; the leading "..." shows iff start > 2 |
| Pagination.Trailing | db/static/script.js:289-297 | the last page shows iff end < total; the trailing "..." shows iff end < total − 1 |
| Pagination.RenderPagination | db/static/script.js:244-300 | for any current page: nothing iff there is at most one page; Previous is disabled iff on page 1, and Next iff on the last page |
| Pagination.RenderedItemsReadAsAllPages | db/static/script.js:244-300 | the controls run from page 1 to the last page in order; each "..." stands for at least one page; the one disabled button is the current page |
| Pagination.StalePageDisablesNothing | db/static/script.js:244-300 | a current page past the last one (kept by the refetch after a delete, line 155) still renders every page in order, with no button disabled |
| Pagination.WindowAtEdges | db/static/script.js:264-269 | with five or more pages the window is pages 1–5 near the start, the last five near the end, and current ± 2 in between |
| RoomServer.Available | server/index.js:35 | exactly the questions whose id is not excluded |
| RoomServer.GetNewQuestion | server/index.js:34-38 | `null` iff every question's id is excluded; otherwise a question of the bank whose id is not excluded |
| RoomServer.EveryAvailableQuestionCanBeDrawn | server/index.js:34-38 | every question that is not excluded is drawn by some random value |
| RoomServer.MissingIdsAllowOneQuestion | server/index.js:35 | with no ids in the bank, `undefined` excludes every question after the first draw |
| RoomServer.Find | server/index.js:71 | `rooms[roomId]` is an own room iff stored; it is an inherited value iff the name belongs to `Object.prototype` |
| RoomServer.FindPlayer | server/index.js:86 | the first player with the socket's id, if any |
| RoomServer.CreateRoomOf | server/index.js:59-68 | a room whose only player is the creator, as host with 0 points and no game, replacing any room stored under that id |
| RoomServer.JoinRoomOf | server/index.js:70-81 | an inherited name crashes; a stored room with fewer than two players takes the joiner as non-host with 0 points; otherwise nothing changes and the join is refused |
| RoomServer.InitialGameState | server/index.js:41-53 | an empty bank has no first question; otherwise playing, index 0, round 1 of 5, 30 seconds, and the drawn question's id as the only used one |
| RoomServer.StartGameOf | server/index.js:84-91 | only the room's host starts a game, replacing any running one; it crashes iff the name is inherited or the host starts with an empty bank; otherwise nothing changes |
| RoomServer.ScoreAnswer | server/index.js:99-104 | 100 iff exact, 50 within 5, 25 within 10, else 0; NaN scores 0; CASI_CASI iff exact, CASI iff within 10 but not exact |
| RoomServer.CloserAnswerNeverScoresLess | server/index.js:99-104 | a closer answer never scores less, and an unreadable one scores least |
| RoomServer.SeparatedAnswerReadsAsFirstGroup | server/index.js:100 | "1.234" is scored as 1 |
| RoomServer.SubmitAnswerOf | server/index.js:94-120 | no room or no game is a no-op; only the current player's score changes, by the points; the result is shown; an index past the roster crashes |
| RoomServer.NextGame | server/index.js:123-148 | the next index is (i + 1) mod n, and the round goes up iff it is 0; past the last round the game is over with index and question kept; otherwise an unused question is drawn and its id appended |
| RoomServer.NextStateCountsTurns | server/index.js:128-140 | each `next-state` moves one turn on; the game is over exactly after the last player's turn of the last round |
| RoomServer.NextStateOf | server/index.js:123-148 | no room or no game is a no-op; it crashes iff the bank has no unused question |
| RoomServer.FirstRoomWith | server/index.js:154-165 | the first room in key order that holds the socket |
| RoomServer.PlayerIndex | server/index.js:156 | `findIndex`: the first position with the socket's id |
| RoomServer.DisconnectOf | server/index.js:151-167 | the first room holding the socket loses that player, and it is deleted iff it is left empty; every other room is untouched |
| RoomServer.GeneratedIdIsOwnKey | server/index.js:60 | a generated room id is never `__proto__` |
| RoomServer.Handle | server/index.js:55-167 | no event changes the question bank; creating a room and disconnecting never crash; a join crashes only on an inherited name, a start only on an inherited name or an empty bank |
| RoomServer.Step | server/index.js:55-167 | the server as written: joining or starting a room named after an `Object.prototype` property that is not stored crashes; every other event behaves as with own-property lookup |
| RoomServer.StepIntended | server/index.js:55-167 | with own-property lookup, creating, joining and disconnecting never crash, and a start crashes only on an empty bank |
| RoomServer.InheritedRoomNameCrashes | server/index.js:70-91 | joining "constructor" or starting "toString" ends the server |
| RoomServer.OwnLookupNeverCrashesOnRoomNames | server/index.js:70-91 | with own-property lookup, joining never crashes, and starting crashes only for the host with an empty bank |
| RoomServer.StepKeepsValid | server/index.js:59-167 | every event keeps 1–2 players per room, room keys matching key order, and no question repeated in a game |
| RoomServer.HandleKeepsValid | server/index.js:59-167 | the same, with or without inherited names |
| RoomServer.LeavingOnOwnTurnCrashesNextAnswer | server/index.js:151-167 | a guest who leaves on their own turn leaves the turn index at 1 in a one-player room, so the host's next answer ends the server |

The input field of `src/components/PlayerInput.tsx` uses the same `formatNumber`
(lines 17-21), `handleInputChange` (lines 23-30) and `handleDelete` (lines 40-42)
as `useNumpadInput.ts`. These are `NumberFormat.FormatNumber`,
`NumberFormat.NumpadInputChange` and `NumberFormat.NumpadDelete`.

## Left out

- Transport: Socket.IO, Express, CORS, `server.listen`, the broadcasts and the
  console logs. A broadcast changes no state.
- Loading the question bank from disk, `process.exit`, `fetch`, and the JSON parse
  of uploaded files. The bank is a parameter. The legacy engine filters
  `activa === 'SI'` when it loads questions (`useGameEngine.ts` line 41). That
  pool is a parameter of `GameEngine.NewEngine`.
- `Math.random`: room ids, picks, dice, the guess budget and the avatar shuffle
  are parameters. A room id is constrained to the at most five base-36 characters
  the generator yields.
- Floating point:
  - `parseFloat` followed by `Math.round` is read as integer `parseInt`. The input
    fields only ever hold digits and dots.
  - The percentage tiers are read over the rationals as integer inequalities, for
    example `5·diff ≤ respuesta`. IEEE rounding at an exact boundary may differ.
  - JSON numbers are integers.
- React scheduling: effects, `setTimeout` delays, and the effect that clears the
  last result on the answer screen (`useGameOrchestrator.ts` lines 134-143).
  - Each handler is one atomic step.
  - A delayed callback of the legacy engine runs right after the handler that
    scheduled it, with the state that handler's render captured.
  - The orchestrator's first-question effect (lines 168-172) and its round hooks'
    `nextQuestion` are not wired into `Orchestrator.AdvanceGameFrom`. Which question
    is shown belongs to the round modules.
- localStorage persistence of the high score. Only the "replace if strictly
  greater" rule is kept.
- The Flask database app, and all of `db/static/script.js` except the page
  controls and the row index.
- Presentational components, which have no rules. The online-screen result
  mapping and the duplicate `formatNumber` copies in the game screens are the same
  code as the modelled ones.
- The turn-switch exit. TurnSwitcher (src/components/TurnSwitcher.tsx:4-18) takes
  only the player and never calls the `onTurnSwitchComplete` callback that
  src/App.tsx:31 passes it, so the local game stays on the turn-switch screen after
  setup. The model leaves that screen with `Orchestrator.LeaveTurnSwitch`, the step
  the first-question effect (useGameOrchestrator.ts:168-172) expects. Wiring the
  exit to `advanceGame`, as App.tsx passes, would skip a round
  (`Orchestrator.FirstTurnSkipsARound`).
- Orchestrator.TurnHasEveryQuestion: covers a turn whose first question is on show.
  Advancing straight from the turn-switch screen shows no question there, so that
  start is not covered; the first turn is covered through the turn-switch exit by
  `Orchestrator.FirstTurnHasEveryQuestion`.
- RoomServer.CreateRoomOf: requires `roomId != "__proto__"`. Assigning that key sets
  the object's prototype instead of storing a room. The generated ids are at most
  five characters long, so they never meet it (`RoomServer.GeneratedIdIsOwnKey`).
- RoomServer.NextStateOf: requires a stored room to have a player. Rooms are
  deleted as soon as they are empty, so every reachable server meets this.
- Players.UpdatePlayerStats: requires the index to name a player. Past the end the
  hook would spread `undefined` into a new entry.
- Orchestrator.OnRoundEnd and Orchestrator.OnPlusminusLose: require the index to
  name a player, as above.
- GameEngine.HandleAnswer, GameEngine.LosePlusminus, GameEngine.WinPlusminus,
  GameEngine.MissPlusminus, GameEngine.HandlePlusminusGuess,
  GameEngine.HandlePlusminusTimeout and GameEngine.Tick: require the index to name
  a player when a score would be written, as above.
- Pagination.PageWindow: requires at least one page, which `renderPagination`
  guarantees by returning early when there is at most one.
- JsText.UpperChar: follows `toUpperCase` only in the Latin-1 range (up to
  U+00FF) and leaves every other character unchanged, because the full Unicode
  case table is out of scope. `JsText.ToUpper` and `QuestionValidation.Active`
  inherit this.
- QuestionValidation.CoerceQuestion: an object's own properties other than the
  question's fields are not modelled. JSON can give an object its own
  non-callable `toString` (`{"pregunta": {"toString": 1}, "respuesta": 5}`), and
  then `obj.pregunta?.toString()` (questionValidation.ts:21) or `parseInt` (line 24)
  throws a TypeError that escapes the uploader. The model reads such a value as any
  other object: "[object Object]" and no number.
- QuestionValidation.ParseValueReadsString: `ToString` of a number is its plain
  decimal form. JavaScript writes numbers of 1e21 or more in exponent form, so
  `parseInt` would read only the leading digit. The JSON numbers of the bank are
  far smaller.
- GameEngine.InitializeGame: requires the shuffle to be a permutation of the five
  avatars. This is what `Array.prototype.sort` with any comparator returns.

## Findings

| source | as written | input that shows it | evidently intended | confidence | as-written member | corrected member |
|---|---|---|---|---|---|---|
| src/components/PlayerInput.tsx:33-34 | `handleDigit` removes `,` before comparing the length with 9, but the separator is `.` | the field shows "1.234.567" (9 characters with the dots) and the key "8" is ignored | remove the `.` separators, so up to nine digits can be typed | not executed | NumberFormat.PlayerInputDigitStopsAtSeven | NumberFormat.PlayerInputDigitIntendedCap |
| src/hooks/useGameOrchestrator.ts:117 | the next player's turn starts with `setRound(1)`, while the turn ends when `round + 1 >= numberOfRounds` | with the default 10 rounds every player after the first answers 9 questions. The first turn also starts at round 1 (line 160), on the turn-switch screen, whose exit is not wired; wired to `advanceGame` as src/App.tsx:31 passes it, the first player would answer 8 (`Orchestrator.FirstTurnSkipsARound`) | a turn holds as many questions as the chosen round count, as in the legacy engine, which starts every turn at round 0 | not executed | Orchestrator.TurnHasOneQuestionLess | Orchestrator.TurnHasEveryQuestion |
| src/hooks/usePlusminusRound.ts:95-102 | `nextQuestion` draws a question, then `startPlusminusRound` draws again and shows the second one | with an empty played list, both draws are recorded as played but only the second question is shown | one draw per question | not executed | PlusminusRound.NextQuestionHidesADraw | PlusminusRound.PlusminusNextQuestionIntended |
| src/hooks/useGameEngine.ts:98-99 | at game over the +100 bonus is added to the players captured by the delayed `advanceGame`, overwriting the result just credited | a single player wins the last plus/minus round: the win's points are lost and only +100 remains | add the bonus to the players as they are at that moment | not executed | GameEngine.LastResultLost | GameEngine.LastResultKept |
| server/index.js:19 | `rooms` is a plain `{}`, so `rooms[roomId]` finds the names inherited from `Object.prototype` | `join-room` with room id "constructor" reads `players.length` of a function's `undefined` property and the server stops | look rooms up as own properties only (`Object.hasOwn`, or a `Map`) | not executed | RoomServer.InheritedRoomNameCrashes | RoomServer.OwnLookupNeverCrashesOnRoomNames |

=== FILE: arith.dfy ===
/** Facts about `%` and `*` on integers that the turn and cycle arithmetic of the
    game relies on, each stated once and kept small for the solver. */
module Arith {

  /** A position inside a cycle is its own remainder. */
  lemma ModSmall(x: int, len: int)
    requires 0 <= x < len
    ensures x % len == x
  {
  }

  lemma ModSelf(len: int)
    requires len > 0
    ensures len % len == 0
  {
  }

  /** Going once around a cycle returns to the same position. */
  lemma ModPlusLength(x: int, len: int)
    requires 0 <= x < len
    ensures (x + len) % len == x
  {
    assert x + len == 1 * len + x;
  }

  lemma MulMono(a: int, b: int, w: int)
    requires a <= b && w >= 0
    ensures a * w <= b * w
  {
  }

  lemma StrictMul(a: int, b: int, n: int)
    requires 0 <= a < b && n > 0
    ensures a * n + n <= b * n
  {
    MulMono(a + 1, b, n);
    assert (a + 1) * n == a * n + n;
  }
}

=== FILE: classic_round.dfy ===
/** One classic round (src/hooks/useClassicRound.ts): a 30-second clock, a typed
    answer, and proximity tiers that decide the points. The hook keeps its own
    played-question list. */
module ClassicRound {
  import opened Wrappers
  import opened JsText
  import opened NumberFormat
  import opened GameTypes
  import opened Countdown
  import QuestionPool

  const ClassicSeconds: nat := 30

  datatype ClassicRound = ClassicRound(
    question: Option<Question>,
    answer: string,
    clock: Clock,
    played: seq<string>)

  /** The hook's first render: no question, empty answer, the clock stopped at 30. */
  function NewClassicRound(): (s: ClassicRound)
    ensures s.question.None? && s.answer == "" && s.played == []
    ensures s.clock == Countdown.New(ClassicSeconds)
  {
    ClassicRound(None, "", Countdown.New(ClassicSeconds), [])
  }

  /** `Math.round(parseFloat(answer.replace(/\./g, '')))` on what the numeric inputs
      produce: the separators dropped, then the leading integer read. */
  function ParseAnswer(answer: string): (r: Option<int>)
    ensures '.' !in answer ==> r == ParseInt(answer)
    ensures r.Some? ==> exists i :: 0 <= i < |answer| && IsDigit(answer[i])
    ensures DigitsAndDots(answer) ==> AllDigits(Without(answer, '.'))
    ensures DigitsAndDots(answer) && Without(answer, '.') != "" ==>
      r == Some(DigitsValue(Without(answer, '.')) as int)
  {
    if '.' !in answer then
      WithoutAbsent(answer, '.');
      DotlessDigits(answer);
      ParseInt(answer)
    else
      var r := ParseInt(Without(answer, '.'));
      assert r.Some? ==> exists x :: x in answer && IsDigit(x);
      DotlessDigits(answer);
      r
  }

  /** Every character is a digit or a dot: what the numpad can type. */
  predicate DigitsAndDots(answer: string) {
    forall i :: 0 <= i < |answer| ==> IsDigit(answer[i]) || answer[i] == '.'
  }

  /** Removing the dots from digits and dots leaves a digit string that `parseInt` reads whole. */
  lemma DotlessDigits(answer: string)
    ensures DigitsAndDots(answer) ==> AllDigits(Without(answer, '.'))
    ensures DigitsAndDots(answer) && Without(answer, '.') != "" ==>
      ParseInt(Without(answer, '.')) == Some(DigitsValue(Without(answer, '.')) as int)
  {
    var ds := Without(answer, '.');
    if DigitsAndDots(answer) {
      assert AllDigits(ds) by {
        forall i | 0 <= i < |ds| ensures IsDigit(ds[i]) {
          assert ds[i] in ds;
        }
      }
      if ds != "" {
        ParseIntOfDigits(ds, "");
        assert ds + "" == ds;
      }
    }
  }

  /** The report of `handleClassicTimeout`. */
  function ClassicTimeoutReport(): (r: RoundReport)
    ensures r.points == -20 && r.category == WrongHits && r.timeBonus == 0
    ensures r.timeUsed == ClassicSeconds
  {
    RoundReport(-20, WrongHits, 30, 0)
  }

  /** `|a - b|`. */
  function Distance(a: int, b: int): (d: nat)
    ensures d == a - b || d == b - a
  {
    if a >= b then a - b else b - a
  }

  /** The base points of a parsed answer and whether they earn the time bonus.
      `diff <= respuesta * 0.20` (and 0.30, 0.40) is read over the rationals:
      `5 * diff <= respuesta`, `10 * diff <= 3 * respuesta`, `5 * diff <= 2 * respuesta`. */
  datatype Tier = Tier(base: int, category: Category, earnsBonus: bool)

  function ClassicTier(q: Question, n: int): (t: Tier)
    ensures t.category == ExactHits <==> n == q.respuesta
    ensures t.category == CorrectHits <==> n != q.respuesta && q.rangoMin <= n <= q.rangoMax
    ensures t.base in {150, 50, 15, 10, 5, 0}
    ensures t.earnsBonus <==> t.base > 0
    ensures t.category == WrongHits ==> t.base <= 15
    ensures t.base == 150 <==> t.category == ExactHits
    ensures t.category == CorrectHits ==> t.base == 50
    ensures t.category == WrongHits && 5 * Distance(n, q.respuesta) <= q.respuesta ==> t.base == 15
    ensures (t.category == WrongHits && q.respuesta < 5 * Distance(n, q.respuesta)
             && 10 * Distance(n, q.respuesta) <= 3 * q.respuesta) ==> t.base == 10
    ensures (t.category == WrongHits && 3 * q.respuesta < 10 * Distance(n, q.respuesta)
             && 5 * Distance(n, q.respuesta) <= 2 * q.respuesta) ==> t.base == 5
    ensures t.category == WrongHits && 2 * q.respuesta < 5 * Distance(n, q.respuesta) ==> t.base == 0 && !t.earnsBonus
  {
    var diff := Distance(n, q.respuesta);
    if n == q.respuesta then Tier(150, ExactHits, true)
    else if q.rangoMin <= n <= q.rangoMax then Tier(50, CorrectHits, true)
    else if 5 * diff <= q.respuesta then Tier(15, WrongHits, true)
    else if 10 * diff <= 3 * q.respuesta then Tier(10, WrongHits, true)
    else if 5 * diff <= 2 * q.respuesta then Tier(5, WrongHits, true)
    else Tier(0, WrongHits, false)
  }

  /** The report `handleClassicAnswer` hands on, for a question, the typed answer and
      the seconds left on the clock. */
  function ScoreClassicAnswer(q: Question, answer: string, timer: int): (r: RoundReport)
    ensures r.timeUsed == ClassicSeconds - timer
    ensures r.category == ExactHits <==> ParseAnswer(answer) == Some(q.respuesta)
    ensures r.category == CorrectHits <==>
      ParseAnswer(answer).Some? && ParseAnswer(answer).value != q.respuesta
      && q.rangoMin <= ParseAnswer(answer).value <= q.rangoMax
    ensures ParseAnswer(answer).None? ==> r.points == -25 && r.category == WrongHits && r.timeBonus == 0
    ensures r.timeBonus == 0 || r.timeBonus == timer
    ensures r.points - r.timeBonus in {-25, 0, 5, 10, 15, 50, 150}
    ensures ParseAnswer(answer).Some? ==>
      var t := ClassicTier(q, ParseAnswer(answer).value);
      r.category == t.category && r.timeBonus == (if t.earnsBonus then timer else 0)
      && r.points == t.base + r.timeBonus
  {
    match ParseAnswer(answer)
    case None => RoundReport(-25, WrongHits, ClassicSeconds - timer, 0)
    case Some(n) =>
      var t := ClassicTier(q, n);
      var bonus := if t.earnsBonus then timer else 0;
      RoundReport(t.base + bonus, t.category, ClassicSeconds - timer, bonus)
  }

  /** `handleClassicAnswer`: nothing without a question, otherwise the scored report
      of the current answer at the current clock. */
  function HandleClassicAnswer(s: ClassicRound): (r: Option<RoundReport>)
    ensures r.None? <==> s.question.None?
    ensures r.Some? ==> r.value == ScoreClassicAnswer(s.question.value, s.answer, s.clock.timer)
  {
    match s.question
    case None => None
    case Some(q) => Some(ScoreClassicAnswer(q, s.answer, s.clock.timer))
  }

  /** `nextQuestion`: draw from the hook's own played list; on success the answer is
      cleared and the clock restarts at 30; with nothing to draw, nothing changes. */
  function ClassicNextQuestion(s: ClassicRound, pool: seq<Question>, loading: bool, pick: nat): (r: ClassicRound)
    ensures loading || |pool| == 0 ==> r == s
    ensures !loading && |pool| > 0 ==>
      r.question.Some? && r.question.value in pool && r.answer == ""
      && r.clock.active && r.clock.timer == s.clock.initial
      && r.played == s.played + [r.question.value.pregunta]
  {
    var sel := QuestionPool.SelectNewQuestion(pool, s.played, loading, pick);
    match sel.question
    case None => s
    case Some(q) => ClassicRound(Some(q), "", Start(Reset(s.clock)), sel.played)
  }

  /** One run of the clock's effect; when it runs out, `handleClassicTimeout` reports. */
  datatype ClassicTick = ClassicTick(round: ClassicRound, report: Option<RoundReport>)

  function ClassicStep(s: ClassicRound): (t: ClassicTick)
    ensures t.report.Some? <==> s.clock.active && s.clock.timer == 0
    ensures t.report.Some? ==> t.report.value == ClassicTimeoutReport()
    ensures t.round.question == s.question && t.round.answer == s.answer && t.round.played == s.played
  {
    var tick := Step(s.clock);
    ClassicTick(s.(clock := tick.next), if tick.timedOut then Some(ClassicTimeoutReport()) else None)
  }

  /** With the clock between 0 and 30, a classic report is worth between -25 and
      180 points and uses between 0 and 30 seconds. */
  lemma ClassicReportBounds(q: Question, answer: string, timer: int)
    requires 0 <= timer <= ClassicSeconds
    ensures -25 <= ScoreClassicAnswer(q, answer, timer).points <= 180
    ensures 0 <= ScoreClassicAnswer(q, answer, timer).timeUsed <= ClassicSeconds
    ensures ScoreClassicAnswer(q, answer, timer).points == 180 <==>
      ParseAnswer(answer) == Some(q.respuesta) && timer == ClassicSeconds
  {
  }

  /** Outside the range, a closer answer never earns a lower tier than a farther one:
      the distance tiers are monotone. */
  lemma CloserTierNeverLower(q: Question, m: int, n: int)
    requires m != q.respuesta && !(q.rangoMin <= m <= q.rangoMax)
    requires !(q.rangoMin <= n <= q.rangoMax)
    requires Distance(m, q.respuesta) <= Distance(n, q.respuesta)
    ensures ClassicTier(q, m).base >= ClassicTier(q, n).base
  {
  }

  /** At the same clock, a closer answer outside the range never scores less than a
      farther one. */
  lemma CloserNeverScoresLess(q: Question, a: string, b: string, timer: int)
    requires timer >= 0
    requires ParseAnswer(a).Some? && ParseAnswer(b).Some?
    requires ParseAnswer(a).value != q.respuesta
    requires !(q.rangoMin <= ParseAnswer(a).value <= q.rangoMax)
    requires !(q.rangoMin <= ParseAnswer(b).value <= q.rangoMax)
    requires Distance(ParseAnswer(a).value, q.respuesta) <= Distance(ParseAnswer(b).value, q.respuesta)
    ensures ScoreClassicAnswer(q, a, timer).points >= ScoreClassicAnswer(q, b, timer).points
  {
    CloserTierNeverLower(q, ParseAnswer(a).value, ParseAnswer(b).value);
  }

  /** What the numeric inputs display for a typed number reads back as that number. */
  lemma ParseAnswerOfFormatted(n: nat)
    ensures ParseAnswer(FormatNumber(ShowNat(n))) == Some(n)
  {
    KeepDigitsOfDigits(ShowNat(n));
    assert ShowNat(n) + "" == ShowNat(n);
    ParseIntOfDigits(ShowNat(n), "");
  }

  /** Typing the secret number exactly scores 150 plus every second left, all of
      which count as the bonus. */
  lemma ExactAnswerScores(q: Question, timer: int)
    requires q.respuesta >= 0
    ensures ScoreClassicAnswer(q, FormatNumber(ShowNat(q.respuesta)), timer)
      == RoundReport(150 + timer, ExactHits, ClassicSeconds - timer, timer)
  {
    ParseAnswerOfFormatted(q.respuesta);
  }
}

=== FILE: countdown.dfy ===
/** The one-second countdown hook (src/hooks/useCountdown.ts) as a discrete
    machine. A step is one run of its effect: while active with time left, the
    interval takes one second off; when active at zero, the effect stops the
    clock and calls `onTimeout` at once. */
module Countdown {

  datatype Clock = Clock(initial: nat, timer: int, active: bool)

  /** `useCountdown(initial, ...)`: the clock shows `initial` and is stopped. */
  function New(initial: nat): (c: Clock)
    ensures Valid(c) && !c.active && c.timer == initial
  {
    Clock(initial, initial, false)
  }

  /** The clock never shows less than zero nor more than its initial value. */
  predicate Valid(c: Clock) {
    0 <= c.timer <= c.initial
  }

  /** `start`: back to the initial value, running. */
  function Start(c: Clock): (r: Clock)
    ensures r.active && r.timer == r.initial == c.initial
  {
    c.(timer := c.initial, active := true)
  }

  /** `pause`: stopped, showing the same time. */
  function Pause(c: Clock): (r: Clock)
    ensures !r.active && r.timer == c.timer && r.initial == c.initial
  {
    c.(active := false)
  }

  /** `reset`: stopped, back to the initial value. */
  function Reset(c: Clock): (r: Clock)
    ensures !r.active && r.timer == r.initial == c.initial
  {
    c.(active := false, timer := c.initial)
  }

  /** The clock after one effect run, and whether `onTimeout` was called. */
  datatype Tick = Tick(next: Clock, timedOut: bool)

  function Step(c: Clock): (t: Tick)
    ensures Valid(c) ==> Valid(t.next)
    ensures t.next.initial == c.initial
    ensures t.timedOut <==> c.active && c.timer == 0
    ensures t.timedOut ==> !t.next.active
    ensures t.next.timer == c.timer || (c.active && t.next.timer == c.timer - 1 >= 0)
    ensures !c.active ==> t.next == c
  {
    if c.active && c.timer > 0 then Tick(c.(timer := c.timer - 1), false)
    else if c.active && c.timer == 0 then Tick(c.(active := false), true)
    else Tick(c, false)
  }

  /** `n` effect runs: the final clock and how many times `onTimeout` fired. */
  function Run(c: Clock, n: nat): (r: (Clock, nat))
    ensures r.0.initial == c.initial
    ensures Valid(c) ==> Valid(r.0)
    ensures !c.active ==> r == (c, 0)
    ensures r.1 <= 1
    ensures r.1 == 1 ==> !r.0.active
    decreases n
  {
    if n == 0 then (c, 0)
    else
      var t := Step(c);
      var (last, fired) := Run(t.next, n - 1);
      (last, fired + (if t.timedOut then 1 else 0))
  }

  /** After `start`, the clock counts down one per step, fires `onTimeout` exactly
      once, at step `initial + 1`, and then stays stopped at zero. */
  lemma {:induction false} RunAfterStart(c: Clock, n: nat)
    ensures Run(Start(c), n).0.timer == if n <= c.initial then c.initial - n else 0
    ensures Run(Start(c), n).0.active <==> n <= c.initial
    ensures Run(Start(c), n).1 == if n <= c.initial then 0 else 1
  {
    RunFrom(Start(c), n);
  }

  lemma {:induction false} RunFrom(c: Clock, n: nat)
    requires c.active && c.timer >= 0
    ensures Run(c, n).0.timer == if n <= c.timer then c.timer - n else 0
    ensures Run(c, n).0.active <==> n <= c.timer
    ensures Run(c, n).1 == if n <= c.timer then 0 else 1
    decreases n
  {
    if n > 0 {
      if c.timer > 0 {
        RunFrom(c.(timer := c.timer - 1), n - 1);
      } else {
        RunStopped(c.(active := false), n - 1);
      }
    }
  }

  /** A stopped clock never changes and never fires. */
  lemma {:induction false} RunStopped(c: Clock, n: nat)
    requires !c.active
    ensures Run(c, n) == (c, 0)
    decreases n
  {
    if n > 0 {
      RunStopped(c, n - 1);
    }
  }
}

=== FILE: game_engine.dfy ===
/** The earlier, single-hook engine (src/hooks/useGameEngine.ts). It differs from the
    modular hooks in its constants, forces one plus/minus "wildcard" round per turn
    in classic mode, and runs its follow-up steps from timers.

    Each handler is one atomic transition. A timer callback runs with the values of
    the render that scheduled it: a handler's delayed `advanceGame` reads the state
    the handler saw (`snap`), while functional updates (`prev => ...`) apply to the
    state as it is by then (`cur`) and plain sets overwrite it. */
module GameEngine {
  import opened Wrappers
  import opened GameTypes
  import opened Players
  import QuestionPool
  import ClassicRound
  import Orchestrator
  import opened PlusminusRound

  type Screen = Orchestrator.Screen
  type HighScore = Orchestrator.HighScore

  datatype Engine = Engine(
    players: seq<Player>,
    numberOfRounds: int,
    mode: Mode,
    pool: seq<Question>,
    played: seq<string>,
    question: Option<Question>,
    answer: string,
    timer: int,
    screen: Screen,
    current: nat,
    round: int,
    lastRoundScore: Option<int>,
    highScore: Option<HighScore>,
    wildcardPlayed: bool,
    guessesLeft: int,
    hint: Hint,
    plusminusTimer: int)

  /** The random draws one transition may use: two question picks (a plus/minus
      start after a draw picks twice) and two dice. */
  datatype Luck = Luck(pick1: nat, pick2: nat, die1: nat, die2: nat)

  const ClassicSeconds := 30
  const GuessSeconds := 10
  const WildcardWin := 250
  const ClassicLoss := -50
  const PlusminusLoss := -10

  /** What a handler does at once, and whether it scheduled `advanceGame`. */
  datatype Handled = Handled(next: Engine, schedulesAdvance: bool)

  /** The engine's first render, with the fetched pool already in place. */
  function NewEngine(pool: seq<Question>, saved: Option<HighScore>): (e: Engine)
    ensures e.screen == Orchestrator.Setup && e.numberOfRounds == 5 && e.mode == Classic
    ensures e.pool == pool && e.played == [] && e.question.None? && !e.wildcardPlayed
  {
    Engine([], 5, Classic, pool, [], None, "", ClassicSeconds, Orchestrator.Setup, 0, 0, None, saved,
           false, 0, NoHint, GuessSeconds)
  }

  /** `Math.floor(Math.random() * 6) + 1`. */
  function Die(roll: nat): (d: int)
    ensures 1 <= d <= 6
  {
    1 + roll % 6
  }

  /** `selectNewQuestion` of the render `snap`, applied to `cur`: candidates come from
      the snapshot's pool and played list; the question is set and its text appended
      to the played list as it is by then. */
  function Draw(snap: Engine, cur: Engine, pick: nat): (r: (Engine, Option<Question>))
    ensures r.1.None? <==> |snap.pool| == 0
    ensures r.1.None? ==> r.0 == cur
    ensures r.1.Some? ==>
      r.1 == QuestionPool.SelectNewQuestion(snap.pool, snap.played, false, pick).question
      && r.0 == cur.(question := r.1, played := cur.played + [r.1.value.pregunta])
  {
    var sel := QuestionPool.SelectNewQuestion(snap.pool, snap.played, false, pick);
    match sel.question
    case None => (cur, None)
    case Some(q) => (cur.(question := Some(q), played := cur.played + [q.pregunta]), Some(q))
  }

  /** `startPlusminusRound`: a question, a budget of two dice, and the wildcard marked
      as played. */
  function StartPlusminusRound(snap: Engine, cur: Engine, luck: Luck): (r: Engine)
    ensures |snap.pool| == 0 ==> r == cur
    ensures |snap.pool| > 0 ==>
      r.screen == Orchestrator.PlusminusScreen && r.wildcardPlayed && 2 <= r.guessesLeft <= 12
      && r.hint == NoHint && r.answer == "" && r.plusminusTimer == GuessSeconds
      && r.question.Some? && r.question.value in snap.pool
      && r.players == cur.players && r.current == cur.current && r.round == cur.round
    ensures r.lastRoundScore == cur.lastRoundScore
  {
    var (drawn, q) := Draw(snap, cur, luck.pick1);
    if q.None? then cur
    else drawn.(guessesLeft := Die(luck.die1) + Die(luck.die2), hint := NoHint, answer := "",
                plusminusTimer := GuessSeconds, wildcardPlayed := true, screen := Orchestrator.PlusminusScreen)
  }

  /** `nextQuestion`: draw, clear the answer, reset the clock; in plus/minus mode it
      then starts a plus/minus round, which draws again. */
  function NextQuestion(snap: Engine, cur: Engine, luck: Luck): (r: Engine)
    ensures |snap.pool| == 0 ==> r == cur
    ensures |snap.pool| > 0 && snap.mode == Classic ==>
      r.screen == Orchestrator.Playing && r.timer == ClassicSeconds && r.answer == "" && r.question.Some?
    ensures |snap.pool| > 0 && snap.mode == Plusminus ==> r.screen == Orchestrator.PlusminusScreen
    ensures r.players == cur.players && r.current == cur.current && r.round == cur.round
    ensures |snap.pool| > 0 ==>
      r.question.Some? && r.question.value in snap.pool && |cur.played| < |r.played| <= |cur.played| + 2
    ensures snap.mode == Classic ==> r.wildcardPlayed == cur.wildcardPlayed
    ensures r.lastRoundScore == cur.lastRoundScore
  {
    var (drawn, q) := Draw(snap, cur, luck.pick1);
    if q.None? then cur
    else
      var ready := drawn.(answer := "", timer := ClassicSeconds);
      if snap.mode == Plusminus then StartPlusminusRound(snap, ready, luck.(pick1 := luck.pick2))
      else ready.(screen := Orchestrator.Playing)
  }

  /** The legacy tiers: `diff` within 10%, 20% or 30% of the answer, read over the
      rationals as `10 * diff <= respuesta`, `5 * diff <= respuesta`,
      `10 * diff <= 3 * respuesta`. */
  function LegacyTier(q: Question, n: int): (t: ClassicRound.Tier)
    ensures t.category == ExactHits <==> n == q.respuesta
    ensures t.category == CorrectHits <==> n != q.respuesta && q.rangoMin <= n <= q.rangoMax
    ensures t.base in {150, 50, 15, 10, 5, 0}
    ensures t.earnsBonus <==> t.base > 0
    ensures t.base == 150 <==> t.category == ExactHits
    ensures t.category == CorrectHits ==> t.base == 50
    ensures t.category == WrongHits && 10 * ClassicRound.Distance(n, q.respuesta) <= q.respuesta ==> t.base == 15
    ensures (t.category == WrongHits && q.respuesta < 10 * ClassicRound.Distance(n, q.respuesta)
             && 5 * ClassicRound.Distance(n, q.respuesta) <= q.respuesta) ==> t.base == 10
    ensures (t.category == WrongHits && q.respuesta < 5 * ClassicRound.Distance(n, q.respuesta)
             && 10 * ClassicRound.Distance(n, q.respuesta) <= 3 * q.respuesta) ==> t.base == 5
    ensures t.category == WrongHits && 3 * q.respuesta < 10 * ClassicRound.Distance(n, q.respuesta) ==>
      t.base == 0 && !t.earnsBonus
  {
    var diff := ClassicRound.Distance(n, q.respuesta);
    if n == q.respuesta then ClassicRound.Tier(150, ExactHits, true)
    else if q.rangoMin <= n <= q.rangoMax then ClassicRound.Tier(50, CorrectHits, true)
    else if 10 * diff <= q.respuesta then ClassicRound.Tier(15, WrongHits, true)
    else if 5 * diff <= q.respuesta then ClassicRound.Tier(10, WrongHits, true)
    else if 10 * diff <= 3 * q.respuesta then ClassicRound.Tier(5, WrongHits, true)
    else ClassicRound.Tier(0, WrongHits, false)
  }

  /** The result `handleAnswer` computes: a timeout costs 20, an unreadable answer 25,
      otherwise the legacy tiers plus the seconds left as bonus. */
  function LegacyReport(q: Question, answer: string, timer: int, isTimeout: bool): (r: RoundReport)
    ensures r.timeUsed == ClassicSeconds - timer
    ensures isTimeout ==> r.points == -20 && r.category == WrongHits && r.timeBonus == 0
    ensures !isTimeout && ClassicRound.ParseAnswer(answer).None? ==>
      r.points == -25 && r.category == WrongHits && r.timeBonus == 0
    ensures r.category == ExactHits <==> !isTimeout && ClassicRound.ParseAnswer(answer) == Some(q.respuesta)
    ensures r.timeBonus == 0 || r.timeBonus == timer
    ensures !isTimeout && ClassicRound.ParseAnswer(answer).Some? ==>
      var t := LegacyTier(q, ClassicRound.ParseAnswer(answer).value);
      r.category == t.category && r.timeBonus == (if t.earnsBonus then timer else 0)
      && r.points == t.base + r.timeBonus
  {
    if isTimeout then RoundReport(-20, WrongHits, ClassicSeconds - timer, 0)
    else
      match ClassicRound.ParseAnswer(answer)
      case None => RoundReport(-25, WrongHits, ClassicSeconds - timer, 0)
      case Some(n) =>
        var t := LegacyTier(q, n);
        var bonus := if t.earnsBonus then timer else 0;
        RoundReport(t.base + bonus, t.category, ClassicSeconds - timer, bonus)
  }

  /** The legacy tiers are narrower than the modular hook's: for the same answer and
      clock the legacy engine never awards more, and awards the same whenever the
      answer is unreadable, exact or within the range. */
  lemma LegacyNeverAwardsMore(q: Question, answer: string, timer: int)
    requires timer >= 0
    ensures LegacyReport(q, answer, timer, false).points <= ClassicRound.ScoreClassicAnswer(q, answer, timer).points
    ensures LegacyReport(q, answer, timer, false).category == ClassicRound.ScoreClassicAnswer(q, answer, timer).category
    ensures ClassicRound.ParseAnswer(answer).None? || ClassicRound.ScoreClassicAnswer(q, answer, timer).category != WrongHits ==>
      LegacyReport(q, answer, timer, false) == ClassicRound.ScoreClassicAnswer(q, answer, timer)
  {
    match ClassicRound.ParseAnswer(answer)
    case None =>
    case Some(n) =>
      LegacyTierNarrower(q, n);
  }

  /** Tier by tier: the legacy bands are inside the modular hook's, and both agree
      on exact and in-range answers. */
  lemma LegacyTierNarrower(q: Question, n: int)
    ensures LegacyTier(q, n).base <= ClassicRound.ClassicTier(q, n).base
    ensures LegacyTier(q, n).category == ClassicRound.ClassicTier(q, n).category
    ensures LegacyTier(q, n).category != WrongHits ==> LegacyTier(q, n) == ClassicRound.ClassicTier(q, n)
  {
    var diff := ClassicRound.Distance(n, q.respuesta);
    if n != q.respuesta && !(q.rangoMin <= n <= q.rangoMax) {
      assert 10 * diff <= q.respuesta ==> 5 * diff <= q.respuesta;
      assert 5 * diff <= q.respuesta ==> 10 * diff <= 3 * q.respuesta;
      assert 10 * diff <= 3 * q.respuesta ==> 5 * diff <= 2 * q.respuesta;
    }
  }

  /** `handleAnswer`: only on the playing screen with a question; scores the current
      player like `updatePlayerStats` and schedules the advance. */
  function HandleAnswer(e: Engine, isTimeout: bool): (h: Handled)
    requires e.screen == Orchestrator.Playing && e.question.Some? ==> e.current < |e.players|
    ensures !(e.screen == Orchestrator.Playing && e.question.Some?) ==> h == Handled(e, false)
    ensures e.screen == Orchestrator.Playing && e.question.Some? ==>
      var r := LegacyReport(e.question.value, e.answer, e.timer, isTimeout);
      h.schedulesAdvance && h.next.screen == Orchestrator.ShowingAnswer
      && h.next.lastRoundScore == Some(r.points)
      && |h.next.players| == |e.players|
      && h.next.players[e.current] == ApplyResult(e.players[e.current], r.points, r.category, r.timeUsed)
      && (forall i :: 0 <= i < |e.players| && i != e.current ==> h.next.players[i] == e.players[i])
  {
    if e.screen != Orchestrator.Playing || e.question.None? then Handled(e, false)
    else
      var r := LegacyReport(e.question.value, e.answer, e.timer, isTimeout);
      var p := ApplyResult(e.players[e.current], r.points, r.category, r.timeUsed);
      Handled(e.(screen := Orchestrator.ShowingAnswer, lastRoundScore := Some(r.points),
                 players := e.players[e.current := p]), true)
  }

  /** `losePlusminus`: the wildcard loss costs 50, a plus/minus game loss 10, floored
      at zero; no counter moves. */
  function LosePlusminus(e: Engine): (h: Handled)
    requires e.current < |e.players|
    ensures h.schedulesAdvance && h.next.screen == Orchestrator.ShowingAnswer
    ensures |h.next.players| == |e.players|
    ensures var change := if e.mode == Classic then ClassicLoss else PlusminusLoss;
      var p := e.players[e.current];
      h.next.players[e.current] == p.(score := ClampScore(p.score + change), totalTimeUsed := p.totalTimeUsed + GuessSeconds - e.plusminusTimer)
      && h.next.lastRoundScore == Some(change)
    ensures forall i :: 0 <= i < |e.players| && i != e.current ==> h.next.players[i] == e.players[i]
  {
    var change := if e.mode == Classic then ClassicLoss else PlusminusLoss;
    var p := e.players[e.current];
    var lost := p.(score := ClampScore(p.score + change), totalTimeUsed := p.totalTimeUsed + GuessSeconds - e.plusminusTimer);
    Handled(e.(lastRoundScore := Some(change), players := e.players[e.current := lost],
               screen := Orchestrator.ShowingAnswer), true)
  }

  /** The points a plus/minus win is worth: 250 for the classic wildcard, otherwise
      75 plus 5 per guess left. */
  function WinPoints(mode: Mode, guessesLeft: int): (w: int)
    ensures mode == Classic ==> w == WildcardWin
    ensures mode == Plusminus ==> w == 75 + 5 * guessesLeft
  {
    if mode == Classic then WildcardWin else 75 + 5 * guessesLeft
  }

  /** A right plus/minus guess: the win is credited and the advance scheduled. */
  function WinPlusminus(e: Engine): (h: Handled)
    requires e.current < |e.players|
    ensures h.schedulesAdvance && h.next.screen == Orchestrator.ShowingAnswer
    ensures h.next.lastRoundScore == Some(WinPoints(e.mode, e.guessesLeft))
    ensures h.next.players == e.players[e.current := e.players[e.current].(
      score := e.players[e.current].score + WinPoints(e.mode, e.guessesLeft),
      totalTimeUsed := e.players[e.current].totalTimeUsed + GuessSeconds - e.plusminusTimer)]
  {
    var change := WinPoints(e.mode, e.guessesLeft);
    var p := e.players[e.current];
    var won := p.(score := p.score + change, totalTimeUsed := p.totalTimeUsed + GuessSeconds - e.plusminusTimer);
    Handled(e.(lastRoundScore := Some(change), players := e.players[e.current := won],
               screen := Orchestrator.ShowingAnswer), true)
  }

  /** A wrong or unreadable plus/minus guess: the last guess loses the round,
      otherwise a guess is spent, the clock restarts and `hint` is shown. */
  function MissPlusminus(e: Engine, hint: Hint): (h: Handled)
    requires e.current < |e.players|
    ensures h.schedulesAdvance <==> e.guessesLeft - 1 <= 0
    ensures h.schedulesAdvance ==> h == LosePlusminus(e)
    ensures !h.schedulesAdvance ==>
      h.next == e.(hint := hint, guessesLeft := e.guessesLeft - 1, answer := "", plusminusTimer := GuessSeconds)
  {
    if e.guessesLeft - 1 <= 0 then LosePlusminus(e)
    else Handled(e.(hint := hint, guessesLeft := e.guessesLeft - 1, answer := "", plusminusTimer := GuessSeconds), false)
  }

  /** `handlePlusminusGuess` (it has no screen guard): a right guess wins; a wrong
      one points up or down, an unreadable one keeps the hint. */
  function HandlePlusminusGuess(e: Engine): (h: Handled)
    requires e.question.Some? ==> e.current < |e.players|
    ensures e.question.None? ==> h == Handled(e, false)
    ensures e.question.Some? && ClassicRound.ParseAnswer(e.answer) == Some(e.question.value.respuesta) ==>
      h == WinPlusminus(e)
    ensures e.question.Some? && ClassicRound.ParseAnswer(e.answer).None? ==> h == MissPlusminus(e, e.hint)
    ensures e.question.Some? && ClassicRound.ParseAnswer(e.answer).Some?
            && ClassicRound.ParseAnswer(e.answer).value < e.question.value.respuesta ==>
      h == MissPlusminus(e, Plus)
    ensures e.question.Some? && ClassicRound.ParseAnswer(e.answer).Some?
            && ClassicRound.ParseAnswer(e.answer).value > e.question.value.respuesta ==>
      h == MissPlusminus(e, Minus)
  {
    match e.question
    case None => Handled(e, false)
    case Some(q) =>
      match ClassicRound.ParseAnswer(e.answer)
      case None => MissPlusminus(e, e.hint)
      case Some(g) =>
        if g == q.respuesta then WinPlusminus(e)
        else MissPlusminus(e, if g < q.respuesta then Plus else Minus)
  }

  /** `handlePlusminusTimeout`: only on the plus/minus screen; a guess is spent and the
      hint cleared, or the round is lost on the last guess. */
  function HandlePlusminusTimeout(e: Engine): (h: Handled)
    requires e.screen == Orchestrator.PlusminusScreen ==> e.current < |e.players|
    ensures e.screen != Orchestrator.PlusminusScreen ==> h == Handled(e, false)
    ensures e.screen == Orchestrator.PlusminusScreen ==>
      (h.schedulesAdvance <==> e.guessesLeft - 1 <= 0)
      && (!h.schedulesAdvance ==> h.next == e.(guessesLeft := e.guessesLeft - 1, plusminusTimer := GuessSeconds, hint := NoHint))
    ensures h.schedulesAdvance ==> e.screen == Orchestrator.PlusminusScreen && h == LosePlusminus(e)
  {
    if e.screen != Orchestrator.PlusminusScreen then Handled(e, false)
    else if e.guessesLeft - 1 <= 0 then LosePlusminus(e)
    else Handled(e.(guessesLeft := e.guessesLeft - 1, plusminusTimer := GuessSeconds, hint := NoHint), false)
  }

  /** One second of the two timer effects: count down on the playing and plus/minus
      screens, and at zero call the matching timeout. */
  function Tick(e: Engine): (h: Handled)
    requires e.screen == Orchestrator.Playing && e.question.Some? ==> e.current < |e.players|
    requires e.screen == Orchestrator.PlusminusScreen ==> e.current < |e.players|
    ensures e.screen == Orchestrator.Playing && e.timer > 0 ==> h == Handled(e.(timer := e.timer - 1), false)
    ensures e.screen == Orchestrator.Playing && e.timer <= 0 ==> h == HandleAnswer(e, true)
    ensures e.screen == Orchestrator.PlusminusScreen && e.plusminusTimer > 0 ==>
      h == Handled(e.(plusminusTimer := e.plusminusTimer - 1), false)
    ensures e.screen == Orchestrator.PlusminusScreen && e.plusminusTimer <= 0 ==> h == HandlePlusminusTimeout(e)
    ensures e.screen !in {Orchestrator.Playing, Orchestrator.PlusminusScreen} ==> h == Handled(e, false)
  {
    if e.screen == Orchestrator.Playing then
      if e.timer > 0 then Handled(e.(timer := e.timer - 1), false) else HandleAnswer(e, true)
    else if e.screen == Orchestrator.PlusminusScreen then
      if e.plusminusTimer > 0 then Handled(e.(plusminusTimer := e.plusminusTimer - 1), false)
      else HandlePlusminusTimeout(e)
    else Handled(e, false)
  }

  /** The plus/minus events of one turn, in order: `None` is a clock running out,
      `Some(a)` a guess typed as `a`. The turn stops at the first event that
      schedules the advance. */
  function PlusminusTurn(e: Engine, events: seq<Option<string>>): (h: Handled)
    requires e.screen == Orchestrator.PlusminusScreen && e.question.Some? && e.current < |e.players|
    decreases |events|
  {
    if |events| == 0 then Handled(e, false)
    else
      var h := if events[0].None? then HandlePlusminusTimeout(e) else HandlePlusminusGuess(e.(answer := events[0].value));
      if h.schedulesAdvance then h
      else
        assert h.next.screen == e.screen && h.next.question == e.question && h.next.players == e.players;
        PlusminusTurn(h.next, events[1..])
  }

  /** The guesses a plus/minus budget allows: the last one spent (a budget of
      at most one ends at the first miss) loses the round. */
  function Budget(guessesLeft: int): (n: int)
    ensures n >= 1 && n >= guessesLeft
    ensures guessesLeft >= 1 ==> n == guessesLeft
  {
    if guessesLeft < 1 then 1 else guessesLeft
  }

  /** A turn of misses and timeouts ends exactly when the budget is spent; until
      then only guesses are spent, and at the end only the loss is applied: 50 in
      the classic wildcard, 10 in a plus/minus game, floored at zero. */
  lemma {:induction false} MissesSpendBudget(e: Engine, events: seq<Option<string>>)
    requires e.screen == Orchestrator.PlusminusScreen && e.question.Some? && e.current < |e.players|
    requires forall k :: 0 <= k < |events| && events[k].Some? ==>
      ClassicRound.ParseAnswer(events[k].value) != Some(e.question.value.respuesta)
    ensures PlusminusTurn(e, events).schedulesAdvance <==> |events| >= Budget(e.guessesLeft)
    ensures !PlusminusTurn(e, events).schedulesAdvance ==>
      PlusminusTurn(e, events).next.players == e.players
      && PlusminusTurn(e, events).next.guessesLeft == e.guessesLeft - |events|
    ensures PlusminusTurn(e, events).schedulesAdvance ==>
      var change := if e.mode == Classic then ClassicLoss else PlusminusLoss;
      var r := PlusminusTurn(e, events).next;
      r.screen == Orchestrator.ShowingAnswer && r.lastRoundScore == Some(change)
      && |r.players| == |e.players|
      && r.players[e.current].score == ClampScore(e.players[e.current].score + change)
      && forall i :: 0 <= i < |e.players| && i != e.current ==> r.players[i] == e.players[i]
    decreases |events|
  {
    if |events| > 0 {
      var h := if events[0].None? then HandlePlusminusTimeout(e) else HandlePlusminusGuess(e.(answer := events[0].value));
      MissStep(e, events[0]);
      if !h.schedulesAdvance {
        var rest := events[1..];
        assert forall k :: 0 <= k < |rest| ==> rest[k] == events[k + 1];
        MissesSpendBudget(h.next, rest);
      }
    }
  }

  /** One timeout or miss: it ends the turn exactly when it spends the last guess
      of the budget, with the loss applied; otherwise it spends one guess and
      changes no player. */
  lemma MissStep(e: Engine, event: Option<string>)
    requires e.screen == Orchestrator.PlusminusScreen && e.question.Some? && e.current < |e.players|
    requires event.Some? ==> ClassicRound.ParseAnswer(event.value) != Some(e.question.value.respuesta)
    ensures var h := if event.None? then HandlePlusminusTimeout(e) else HandlePlusminusGuess(e.(answer := event.value));
      && (h.schedulesAdvance <==> Budget(e.guessesLeft) == 1)
      && (!h.schedulesAdvance ==>
        && h.next.screen == e.screen && h.next.question == e.question && h.next.mode == e.mode
        && h.next.current == e.current && h.next.players == e.players
        && h.next.guessesLeft == e.guessesLeft - 1)
      && (h.schedulesAdvance ==> h == LosePlusminus(e.(answer := h.next.answer)))
  {
    if event.Some? {
      var g := e.(answer := event.value);
      assert HandlePlusminusGuess(g).schedulesAdvance ==> HandlePlusminusGuess(g) == LosePlusminus(g);
    }
  }

  /** `advanceGame` as run by the timer a handler scheduled: decisions and the final
      bonus read the handler's snapshot `snap`, updates land on `cur`. `finalBase` is
      the list the closing bonus is added to: the snapshot's players in the code
      (`AdvanceGameAsWritten`), the current ones in `AdvanceGame`. The switch to the
      next player folds in its three-second timer. */
  function AdvanceGameWith(snap: Engine, cur: Engine, luck: Luck, finalBase: seq<Player>): (r: Engine)
    ensures snap.mode == Classic && !snap.wildcardPlayed && snap.round + 1 == snap.numberOfRounds ==>
      r == StartPlusminusRound(snap, cur, luck)
    ensures !(snap.mode == Classic && !snap.wildcardPlayed && snap.round + 1 == snap.numberOfRounds)
            && snap.round + 1 >= snap.numberOfRounds && snap.current + 1 >= |snap.players| ==>
      r.screen == Orchestrator.GameOver && r.players == Orchestrator.AddFinalBonus(finalBase)
      && r.current == cur.current && r.round == cur.round
    ensures !(snap.mode == Classic && !snap.wildcardPlayed && snap.round + 1 == snap.numberOfRounds)
            && snap.round + 1 >= snap.numberOfRounds && snap.current + 1 < |snap.players| ==>
      r.current == cur.current + 1 && r.round == 0 && r.players == cur.players
      && (snap.mode == Classic ==> !r.wildcardPlayed)
      && (|snap.pool| > 0 ==> 1 <= |r.played| <= 2)
    ensures snap.round + 1 < snap.numberOfRounds ==>
      r.current == cur.current && r.round == cur.round + 1 && r.players == cur.players
    ensures !EndsGame(snap) ==> r.players == cur.players
    ensures r.lastRoundScore == cur.lastRoundScore
  {
    if snap.mode == Classic && !snap.wildcardPlayed && snap.round + 1 == snap.numberOfRounds then
      StartPlusminusRound(snap, cur, luck)
    else if snap.round + 1 >= snap.numberOfRounds then
      if snap.current + 1 >= |snap.players| then
        var finalPlayers := Orchestrator.AddFinalBonus(finalBase);
        var best :=
          if |finalPlayers| == 0 then cur.highScore
          else if snap.highScore.None? || Orchestrator.MaxScore(finalPlayers) > snap.highScore.value.score
          then Orchestrator.RecordHighScore(snap.highScore, finalPlayers)
          else cur.highScore;
        cur.(players := finalPlayers, highScore := best, screen := Orchestrator.GameOver)
      else
        var switched := cur.(screen := Orchestrator.TurnSwitching, current := cur.current + 1, round := 0,
                             played := [], wildcardPlayed := false);
        NextQuestion(snap, switched, luck)
    else
      NextQuestion(snap, cur.(round := cur.round + 1), luck)
  }

  /** The snapshot is at the last round of the last player with no wildcard owed:
      the advance ends the game. */
  predicate EndsGame(snap: Engine) {
    && !(snap.mode == Classic && !snap.wildcardPlayed && snap.round + 1 == snap.numberOfRounds)
    && snap.round + 1 >= snap.numberOfRounds
    && snap.current + 1 >= |snap.players|
  }

  /** `advanceGame` as the code runs it: the closing bonus goes to the snapshot's
      players, so a result scored since the snapshot is overwritten. */
  function AdvanceGameAsWritten(snap: Engine, cur: Engine, luck: Luck): (r: Engine)
    ensures EndsGame(snap) ==> r.screen == Orchestrator.GameOver && r.players == Orchestrator.AddFinalBonus(snap.players)
    ensures !EndsGame(snap) ==> r.players == cur.players && r == AdvanceGame(snap, cur, luck)
    ensures r.lastRoundScore == cur.lastRoundScore
  {
    AdvanceGameWith(snap, cur, luck, snap.players)
  }

  /** `advanceGame` with the closing bonus added to the players as they are by then. */
  function AdvanceGame(snap: Engine, cur: Engine, luck: Luck): (r: Engine)
    ensures EndsGame(snap) ==> r.screen == Orchestrator.GameOver && r.players == Orchestrator.AddFinalBonus(cur.players)
    ensures !EndsGame(snap) ==> r.players == cur.players
    ensures r.lastRoundScore == cur.lastRoundScore
  {
    AdvanceGameWith(snap, cur, luck, cur.players)
  }

  /** A handler followed by the callback it scheduled, as the code runs it: the
      callback clears the last round's score, then advances. */
  function ThenAdvanceAsWritten(e: Engine, h: Handled, luck: Luck): (r: Engine)
    ensures !h.schedulesAdvance ==> r == h.next
    ensures h.schedulesAdvance ==> r.lastRoundScore.None?
    ensures h.schedulesAdvance && EndsGame(e) ==>
      r.screen == Orchestrator.GameOver && r.players == Orchestrator.AddFinalBonus(e.players)
    ensures h.schedulesAdvance && !EndsGame(e) ==> r.players == h.next.players
  {
    if h.schedulesAdvance then AdvanceGameAsWritten(e, h.next.(lastRoundScore := None), luck) else h.next
  }

  /** A handler followed by the callback it scheduled, with the bonus added to the
      players as they are by then. */
  function ThenAdvance(e: Engine, h: Handled, luck: Luck): (r: Engine)
    ensures !h.schedulesAdvance ==> r == h.next
    ensures h.schedulesAdvance ==> r.lastRoundScore.None?
    ensures h.schedulesAdvance && EndsGame(e) ==>
      r.screen == Orchestrator.GameOver && r.players == Orchestrator.AddFinalBonus(h.next.players)
    ensures h.schedulesAdvance && !EndsGame(e) ==> r.players == h.next.players
  {
    if h.schedulesAdvance then AdvanceGame(e, h.next.(lastRoundScore := None), luck) else h.next
  }

  /** As written, the last result of a game is lost: the closing bonus is added to the
      players the handler saw, and that list overwrites the one the handler had just
      scored. A single player who guesses the secret of the last plus/minus round
      ends with the score they had before it plus 100. */
  lemma LastResultLost(e: Engine, luck: Luck)
    requires |e.players| == 1 && e.current == 0 && e.mode == Plusminus
    requires e.round + 1 >= e.numberOfRounds && e.question.Some?
    requires ClassicRound.ParseAnswer(e.answer) == Some(e.question.value.respuesta)
    ensures ThenAdvanceAsWritten(e, HandlePlusminusGuess(e), luck).players[0].score == e.players[0].score + 100
  {
  }

  /** With the bonus added to the players as they are by then, the last result counts:
      the winner of the last plus/minus round keeps the win and gets the bonus. */
  lemma LastResultKept(e: Engine, luck: Luck)
    requires |e.players| == 1 && e.current == 0 && e.mode == Plusminus
    requires e.round + 1 >= e.numberOfRounds && e.question.Some?
    requires ClassicRound.ParseAnswer(e.answer) == Some(e.question.value.respuesta)
    ensures ThenAdvance(e, HandlePlusminusGuess(e), luck).players[0].score
              == e.players[0].score + 75 + 5 * e.guessesLeft + 100
  {
  }

  /** In classic mode the wildcard comes before the turn ends: at the last round with
      the wildcard unplayed, advancing opens a plus/minus round for the same player,
      and the advance after it (the wildcard now played) ends the turn. */
  lemma WildcardBeforeTurnEnds(e: Engine, cur: Engine, luck: Luck)
    requires e.mode == Classic && !e.wildcardPlayed && e.round + 1 == e.numberOfRounds
    requires |e.pool| > 0
    ensures AdvanceGame(e, cur, luck).screen == Orchestrator.PlusminusScreen
    ensures AdvanceGame(e, cur, luck).wildcardPlayed
    ensures AdvanceGame(e, cur, luck).current == cur.current && AdvanceGame(e, cur, luck).round == cur.round
    ensures var w := AdvanceGame(e, cur, luck);
      w.round + 1 == w.numberOfRounds && w.mode == Classic ==>
        AdvanceGame(w, w, luck).screen == Orchestrator.GameOver || AdvanceGame(w, w, luck).current == w.current + 1
  {
  }

  /** The five avatar images of the legacy engine. */
  const LegacyAvatars: seq<string> := [
    "https://moroarte.com/wp-content/uploads/2025/08/3d_chibi_anime_sty_image.jpeg",
    "https://moroarte.com/wp-content/uploads/2025/08/61d93795518eba9635e84f473f435d2b7e2a6a169a79acd33a5c21f6f17ba991.png",
    "https://moroarte.com/wp-content/uploads/2025/08/chibify-1747941995219.jpg",
    "https://moroarte.com/wp-content/uploads/2025/08/chibify-1747941999584.jpg",
    "https://moroarte.com/wp-content/uploads/2025/08/chibify-1747942008333.jpg"]

  /** Players at 100 points with avatars dealt cyclically from `shuffled`. */
  function DealAvatars(ps: seq<Player>, shuffled: seq<string>, from: nat): (r: seq<Player>)
    requires |shuffled| > 0
    ensures |r| == |ps|
    ensures forall i :: 0 <= i < |ps| ==>
      r[i] == ps[i].(score := Orchestrator.StartingScore, avatar := shuffled[(from + i) % |shuffled|])
    decreases |ps|
  {
    if |ps| == 0 then []
    else [ps[0].(score := Orchestrator.StartingScore, avatar := shuffled[from % |shuffled|])]
         + DealAvatars(ps[1..], shuffled, from + 1)
  }

  /** `initializeGame`: `shuffled` is the order the random sort left the avatars in.
      Every player starts at 100 (their time is not reset), at round 0 with the
      wildcard unplayed. The first question comes from the timer this call
      schedules, which draws with the values of the render that called it: the
      played list and the mode from before the new game. */
  function InitializeGame(e: Engine, newPlayers: seq<Player>, rounds: int, mode: Mode, shuffled: seq<string>, luck: Luck): (r: Engine)
    requires multiset(shuffled) == multiset(LegacyAvatars)
    ensures |r.players| == |newPlayers|
    ensures forall i :: 0 <= i < |newPlayers| ==>
      r.players[i].score == Orchestrator.StartingScore && r.players[i].avatar in LegacyAvatars
      && r.players[i].name == newPlayers[i].name && r.players[i].totalTimeUsed == newPlayers[i].totalTimeUsed
    ensures r.current == 0 && r.round == 0 && r.numberOfRounds == rounds && r.mode == mode
    ensures |e.pool| > 0 ==> r.question.Some? && r.question.value in e.pool && 1 <= |r.played| <= 2
    ensures |e.pool| == 0 ==> r.played == [] && r.screen == Orchestrator.TurnSwitching
  {
    ShuffleKeepsAvatars(shuffled);
    var dealt := DealAvatars(newPlayers, shuffled, 0);
    DealtAvatarsListed(newPlayers, shuffled);
    var started := e.(players := dealt, numberOfRounds := rounds, mode := mode, current := 0, round := 0,
                      played := [], wildcardPlayed := false, screen := Orchestrator.TurnSwitching);
    NextQuestion(e, started, luck)
  }

  /** A shuffle of the avatars holds the same five avatars. */
  lemma ShuffleKeepsAvatars(shuffled: seq<string>)
    requires multiset(shuffled) == multiset(LegacyAvatars)
    ensures |shuffled| == |LegacyAvatars|
    ensures forall i :: 0 <= i < |shuffled| ==> shuffled[i] in LegacyAvatars
  {
    assert |multiset(shuffled)| == |multiset(LegacyAvatars)|;
    forall i | 0 <= i < |shuffled|
      ensures shuffled[i] in LegacyAvatars
    {
      assert shuffled[i] in multiset(shuffled);
    }
  }

  /** Every avatar dealt from a shuffle of the avatars is one of them. */
  lemma DealtAvatarsListed(ps: seq<Player>, shuffled: seq<string>)
    requires |shuffled| > 0
    requires forall i :: 0 <= i < |shuffled| ==> shuffled[i] in LegacyAvatars
    ensures forall i :: 0 <= i < |ps| ==> DealAvatars(ps, shuffled, 0)[i].avatar in LegacyAvatars
  {
    forall i | 0 <= i < |ps|
      ensures DealAvatars(ps, shuffled, 0)[i].avatar in LegacyAvatars
    {
      assert DealAvatars(ps, shuffled, 0)[i].avatar == shuffled[i % |shuffled|];
    }
  }

  /** `handleReset`. The played list is left as it was. */
  function HandleReset(e: Engine): (r: Engine)
    ensures r.screen == Orchestrator.Setup && r.players == [] && r.current == 0 && r.round == 0
    ensures !r.wildcardPlayed && r.played == e.played && r.highScore == e.highScore
  {
    e.(screen := Orchestrator.Setup, players := [], current := 0, round := 0, wildcardPlayed := false)
  }
}

=== FILE: game_types.dfy ===
/** The records shared by the local game (src/types/index.ts). */
module GameTypes {

  /** A trivia item. `respuesta` is the secret number; `[rangoMin, rangoMax]` is the
      band that earns the classic mode's "correct" tier. */
  datatype Question = Question(
    categoria: string,
    pregunta: string,
    respuesta: int,
    rangoMin: int,
    rangoMax: int,
    informacion: string,
    fuente: string,
    activa: string)

  /** The three hit counters of a player; the code names them by `keyof Player`. */
  datatype Category = ExactHits | CorrectHits | WrongHits

  /** A local player with running statistics (the online-only `id` and `isHost`
      fields live in the server's own record). */
  datatype Player = Player(
    name: string,
    avatar: string,
    score: int,
    exactHits: int,
    correctHits: int,
    wrongHits: int,
    totalTimeUsed: int)
  {
    /** The counter `category` names. */
    function Hits(category: Category): int {
      match category
      case ExactHits => exactHits
      case CorrectHits => correctHits
      case WrongHits => wrongHits
    }
  }

  /** What a finished round hands to `onRoundEnd`: total points (time bonus
      included), the counter to bump, seconds used and the time bonus. */
  datatype RoundReport = RoundReport(points: int, category: Category, timeUsed: int, timeBonus: int)

  datatype Mode = Classic | Plusminus
}

=== FILE: js_object.dfy ===
/** The two features of a plain JavaScript object (`{}`) that a room registry
    kept in one depends on: the order `for...in` visits its keys (section 10.1.11.1
    of ECMA-262, OrdinaryOwnPropertyKeys) and the properties every object inherits
    from `Object.prototype`. */
module JsObject {
  import opened JsText

  /** The largest array index is 2^32 - 2. */
  const MaxArrayIndex: nat := 0xFFFF_FFFE

  /** A key that is an array index: the canonical decimal form of a number up to
      `MaxArrayIndex` (no sign, no leading zero). */
  predicate IsIndexKey(k: string) {
    && |k| > 0
    && AllDigits(k)
    && (|k| == 1 || k[0] != '0')
    && KeyValue(k) <= MaxArrayIndex
  }

  /** The number a key of digits denotes (0 for any other key). */
  function KeyValue(k: string): nat {
    if AllDigits(k) then DigitsValue(k) else 0
  }

  /** The keys of `ks` that `keep` selects, in their order in `ks`. */
  function Filter(ks: seq<string>, keep: string -> bool): seq<string> {
    if |ks| == 0 then []
    else (if keep(ks[0]) then [ks[0]] else []) + Filter(ks[1..], keep)
  }

  /** `Filter` keeps exactly the selected keys. */
  lemma {:induction false} FilterKeeps(ks: seq<string>, keep: string -> bool)
    ensures forall k :: k in Filter(ks, keep) <==> k in ks && keep(k)
    ensures forall i :: 0 <= i < |Filter(ks, keep)| ==> keep(Filter(ks, keep)[i])
  {
    if |ks| > 0 {
      FilterKeeps(ks[1..], keep);
      assert ks == [ks[0]] + ks[1..];
    }
  }

  /** The test `IsIndexKey(k) == index`. */
  function HasKind(index: bool): string -> bool {
    k => IsIndexKey(k) == index
  }

  /** The keys of `ks` that satisfy `IsIndexKey` (`index == true`) or fail it. */
  function KeysWhere(ks: seq<string>, index: bool): (r: seq<string>)
    ensures forall k :: k in r <==> k in ks && IsIndexKey(k) == index
    ensures forall i :: 0 <= i < |r| ==> IsIndexKey(r[i]) == index
  {
    FilterKeeps(ks, HasKind(index));
    Filter(ks, HasKind(index))
  }

  /** Index keys in ascending numeric order. */
  predicate Ascending(ks: seq<string>) {
    forall i, j :: 0 <= i < j < |ks| ==> KeyValue(ks[i]) <= KeyValue(ks[j])
  }

  /** `k` placed into an ascending run of index keys. */
  function Insert(k: string, ks: seq<string>): (r: seq<string>)
    requires IsIndexKey(k)
    requires forall i :: 0 <= i < |ks| ==> IsIndexKey(ks[i])
    requires Ascending(ks)
    ensures forall i :: 0 <= i < |r| ==> IsIndexKey(r[i])
    ensures Ascending(r)
    ensures forall x :: x in r <==> x == k || x in ks
    ensures |r| == |ks| + 1
  {
    if |ks| == 0 || KeyValue(k) <= KeyValue(ks[0]) then [k] + ks
    else
      var rest := Insert(k, ks[1..]);
      assert forall x :: x in rest ==> KeyValue(ks[0]) <= KeyValue(x);
      assert forall j :: 0 < j < |rest| + 1 ==> ([ks[0]] + rest)[j] == rest[j - 1];
      [ks[0]] + rest
  }

  /** Insertion adds exactly the one key. */
  lemma {:induction false} InsertAddsOne(k: string, ks: seq<string>)
    requires IsIndexKey(k)
    requires forall i :: 0 <= i < |ks| ==> IsIndexKey(ks[i])
    requires Ascending(ks)
    ensures multiset(Insert(k, ks)) == multiset{k} + multiset(ks)
  {
    if |ks| > 0 && KeyValue(k) > KeyValue(ks[0]) {
      InsertAddsOne(k, ks[1..]);
      assert ks == [ks[0]] + ks[1..];
    }
  }

  /** Index keys sorted by their numeric value. */
  function Sort(ks: seq<string>): (r: seq<string>)
    requires forall i :: 0 <= i < |ks| ==> IsIndexKey(ks[i])
    ensures forall i :: 0 <= i < |r| ==> IsIndexKey(r[i])
    ensures Ascending(r)
    ensures forall x :: x in r <==> x in ks
    ensures |r| == |ks|
    ensures multiset(r) == multiset(ks)
  {
    if |ks| == 0 then [] else
    assert ks == [ks[0]] + ks[1..];
    InsertAddsOne(ks[0], Sort(ks[1..]));
    Insert(ks[0], Sort(ks[1..]))
  }

  /** The order `for...in` visits the own keys of an object whose keys were
      created in the order `inserted`: array indices first, ascending, then the
      other keys in creation order. */
  function IterationOrder(inserted: seq<string>): (r: seq<string>)
    ensures forall k :: k in r <==> k in inserted
    ensures |r| == |KeysWhere(inserted, true)| + |KeysWhere(inserted, false)|
    ensures r[|KeysWhere(inserted, true)|..] == KeysWhere(inserted, false)
  {
    Sort(KeysWhere(inserted, true)) + KeysWhere(inserted, false)
  }

  /** Visiting order, stated pairwise: an index key comes before every other key,
      and two index keys come in numeric order. */
  lemma IndexKeysComeFirst(inserted: seq<string>, i: int, j: int)
    requires 0 <= i < j < |IterationOrder(inserted)|
    ensures IsIndexKey(IterationOrder(inserted)[j]) ==> IsIndexKey(IterationOrder(inserted)[i])
    ensures IsIndexKey(IterationOrder(inserted)[j]) ==>
      KeyValue(IterationOrder(inserted)[i]) <= KeyValue(IterationOrder(inserted)[j])
  {
    var a := Sort(KeysWhere(inserted, true));
    var b := KeysWhere(inserted, false);
    assert IterationOrder(inserted) == a + b;
    if j < |a| {
      assert IterationOrder(inserted)[i] == a[i] && IterationOrder(inserted)[j] == a[j];
    } else {
      assert IterationOrder(inserted)[j] == b[j - |a|];
    }
  }

  /** Filtering splits over concatenation: the kept keys of each part stay in order. */
  lemma {:induction false} FilterConcat(a: seq<string>, b: seq<string>, keep: string -> bool)
    ensures Filter(a + b, keep) == Filter(a, keep) + Filter(b, keep)
  {
    if |a| == 0 {
      assert a + b == b;
    } else {
      var head := if keep(a[0]) then [a[0]] else [];
      assert (a + b)[0] == a[0] && (a + b)[1..] == a[1..] + b;
      calc {
        Filter(a + b, keep);
        head + Filter(a[1..] + b, keep);
        { FilterConcat(a[1..], b, keep); }
        head + (Filter(a[1..], keep) + Filter(b, keep));
        (head + Filter(a[1..], keep)) + Filter(b, keep);
        Filter(a, keep) + Filter(b, keep);
      }
    }
  }

  /** `KeysWhere` splits over concatenation. */
  lemma KeysWhereConcat(a: seq<string>, b: seq<string>, index: bool)
    ensures KeysWhere(a + b, index) == KeysWhere(a, index) + KeysWhere(b, index)
  {
    FilterConcat(a, b, HasKind(index));
  }

  /** A selected key sits in the filtered keys right after the selected keys that
      precede it. */
  lemma KeptKeyPosition(ks: seq<string>, i: int, keep: string -> bool)
    requires 0 <= i < |ks| && keep(ks[i])
    ensures |Filter(ks[..i], keep)| < |Filter(ks, keep)|
    ensures Filter(ks, keep)[|Filter(ks[..i], keep)|] == ks[i]
  {
    assert ks == ks[..i] + ks[i..];
    FilterConcat(ks[..i], ks[i..], keep);
    assert ks[i..][0] == ks[i] && ks[i..][1..] == ks[i + 1..];
  }

  /** Two selected keys keep their relative order in the filtered keys. */
  lemma FilterKeepsOrder(ks: seq<string>, i: int, j: int, keep: string -> bool)
    requires 0 <= i < j < |ks| && keep(ks[i]) && keep(ks[j])
    ensures |Filter(ks[..i], keep)| < |Filter(ks[..j], keep)| < |Filter(ks, keep)|
    ensures Filter(ks, keep)[|Filter(ks[..i], keep)|] == ks[i]
    ensures Filter(ks, keep)[|Filter(ks[..j], keep)|] == ks[j]
  {
    KeptKeyPosition(ks, i, keep);
    KeptKeyPosition(ks, j, keep);
    KeptKeyPosition(ks[..j], i, keep);
    assert ks[..j][..i] == ks[..i];
  }

  /** Visiting order of the other keys, stated pairwise: two keys that are not
      array indices are visited in the order they were created, after all the
      index keys. */
  lemma NonIndexKeysKeepOrder(inserted: seq<string>, i: int, j: int)
    requires 0 <= i < j < |inserted|
    requires !IsIndexKey(inserted[i]) && !IsIndexKey(inserted[j])
    ensures var p := |KeysWhere(inserted, true)| + |KeysWhere(inserted[..i], false)|;
      var q := |KeysWhere(inserted, true)| + |KeysWhere(inserted[..j], false)|;
      && |KeysWhere(inserted, true)| <= p < q < |IterationOrder(inserted)|
      && IterationOrder(inserted)[p] == inserted[i]
      && IterationOrder(inserted)[q] == inserted[j]
  {
    var other := HasKind(false);
    var back := IterationOrder(inserted)[|KeysWhere(inserted, true)|..];
    assert back == Filter(inserted, other);
    assert other(inserted[i]) && other(inserted[j]);
    FilterKeepsOrder(inserted, i, j, other);
  }

  /** The names every plain object inherits from `Object.prototype`. Each reads as
      a function, or, for `__proto__`, as `Object.prototype` itself: a truthy value
      with no `players` and no `gameState` property. */
  const InheritedNames: set<string> := {
    "constructor", "__proto__", "hasOwnProperty", "isPrototypeOf",
    "propertyIsEnumerable", "toString", "toLocaleString", "valueOf",
    "__defineGetter__", "__defineSetter__", "__lookupGetter__", "__lookupSetter__"}
}

=== FILE: js_text.dfy ===
/** The slices of ECMAScript string and number semantics the game code relies on:
    `parseInt(s, 10)` (section 19.2.5 of ECMA-262), the decimal rendering of an
    integral Number (section 6.1.6.1.20 of ECMA-262), `String.prototype.trim`
    and `String.prototype.toUpperCase` restricted to the Latin-1 range. */
module JsText {
  import opened Wrappers

  /** A decimal digit as radix-10 `parseInt` and the regex class `\d` see it: ASCII only. */
  predicate IsDigit(c: char) {
    '0' <= c <= '9'
  }

  predicate AllDigits(s: string) {
    forall i :: 0 <= i < |s| ==> IsDigit(s[i])
  }

  /** WhiteSpace and LineTerminator code points (sections 12.2 and 12.3 of ECMA-262):
      what `parseInt` skips and `trim` removes. */
  predicate IsJsWhiteSpace(c: char) {
    || ('\t' <= c <= '\r')    // TAB, LF, VT, FF, CR
    || c == ' ' || c == '\U{00A0}' || c == '\U{1680}' || ('\U{2000}' <= c <= '\U{200A}')
    || c == '\U{2028}' || c == '\U{2029}' || c == '\U{202F}' || c == '\U{205F}'
    || c == '\U{3000}' || c == '\U{FEFF}'
  }

  predicate AllWhiteSpace(s: string) {
    forall i :: 0 <= i < |s| ==> IsJsWhiteSpace(s[i])
  }

  /** How many white-space characters `s` starts with. */
  function LeadingSpace(s: string): (n: nat)
    ensures n <= |s|
    ensures AllWhiteSpace(s[..n])
    ensures n < |s| ==> !IsJsWhiteSpace(s[n])
  {
    if |s| > 0 && IsJsWhiteSpace(s[0]) then
      var n := LeadingSpace(s[1..]);
      assert forall i :: 1 <= i <= n ==> s[i] == s[1..][i - 1];
      1 + n
    else 0
  }

  /** `s` without its leading white space. */
  function TrimStart(s: string): (r: string)
    ensures |r| <= |s|
    ensures r == s[|s| - |r|..]
    ensures AllWhiteSpace(s[..|s| - |r|])
    ensures |r| > 0 ==> !IsJsWhiteSpace(r[0])
  {
    s[LeadingSpace(s)..]
  }

  /** `s` without its trailing white space. */
  function TrimEnd(s: string): (r: string)
    ensures |r| <= |s|
    ensures r == s[..|r|]
    ensures AllWhiteSpace(s[|r|..])
    ensures |r| > 0 ==> !IsJsWhiteSpace(r[|r| - 1])
  {
    if |s| > 0 && IsJsWhiteSpace(s[|s| - 1]) then
      var r := TrimEnd(s[..|s| - 1]);
      assert s[|r|..] == s[..|s| - 1][|r|..] + [s[|s| - 1]];
      r
    else s
  }

  /** `String.prototype.trim`. */
  function Trim(s: string): (r: string)
    ensures LeadingSpace(s) + |r| <= |s|
    ensures r == s[LeadingSpace(s)..LeadingSpace(s) + |r|]
    ensures AllWhiteSpace(s[LeadingSpace(s) + |r|..])
    ensures |r| > 0 ==> !IsJsWhiteSpace(r[0]) && !IsJsWhiteSpace(r[|r| - 1])
  {
    var t := TrimStart(s);
    var r := TrimEnd(t);
    assert t[..|r|] == s[LeadingSpace(s)..LeadingSpace(s) + |r|];
    assert t[|r|..] == s[LeadingSpace(s) + |r|..];
    r
  }

  /** A string trims to the empty string exactly when all of it is white space. */
  lemma TrimEmptyIff(s: string)
    ensures Trim(s) == "" <==> AllWhiteSpace(s)
  {
    var t := TrimStart(s);
    if Trim(s) == "" {
      assert t[0..] == t;
      assert s == s[..|s| - |t|] + t;
    } else {
      var r := Trim(s);
      assert r[0] == t[0];
      assert s[|s| - |t|] == t[0];
    }
  }

  /** The longest prefix of `s` made of decimal digits. */
  function DigitPrefix(s: string): (r: string)
    ensures AllDigits(r) && r <= s
    ensures |r| < |s| ==> !IsDigit(s[|r|])
  {
    if |s| > 0 && IsDigit(s[0]) then [s[0]] + DigitPrefix(s[1..]) else ""
  }

  function DigitValue(c: char): nat
    requires IsDigit(c)
  {
    (c as int) - ('0' as int)
  }

  function DigitChar(n: nat): (c: char)
    requires n < 10
    ensures IsDigit(c) && DigitValue(c) == n
  {
    ('0' as int + n) as char
  }

  /** The number a string of decimal digits denotes, most significant digit first. */
  function DigitsValue(ds: string): nat
    requires AllDigits(ds)
  {
    if |ds| == 0 then 0 else 10 * DigitsValue(ds[..|ds| - 1]) + DigitValue(ds[|ds| - 1])
  }

  /** The text after an optional leading sign character. */
  function DropSign(t: string): string {
    if |t| > 0 && (t[0] == '-' || t[0] == '+') then t[1..] else t
  }

  /** `parseInt(s, 10)`, with `None` standing for NaN: skip leading white space,
      then read what `ParseTrimmed` reads. */
  function ParseInt(s: string): (r: Option<int>)
    ensures r.None? <==> var u := DropSign(TrimStart(s)); |u| == 0 || !IsDigit(u[0])
    ensures r.Some? && r.value < 0 ==> TrimStart(s)[0] == '-'
    ensures r.Some? && TrimStart(s)[0] != '-' ==> r.value >= 0
    ensures r.Some? ==> exists i :: 0 <= i < |s| && IsDigit(s[i])
  {
    var t := TrimStart(s);
    var u := DropSign(t);
    assert |u| <= |t| && u == t[|t| - |u|..];
    assert |u| > 0 ==> s[|s| - |u|] == u[0];
    ParseTrimmed(t)
  }

  /** The part of `parseInt` after white space: one optional sign, then the longest
      run of decimal digits; no digits means NaN. Negative zero is identified with zero. */
  function ParseTrimmed(t: string): Option<int> {
    var z := DigitPrefix(DropSign(t));
    if |z| == 0 then None
    else if |t| > 0 && t[0] == '-' then Some(0 - DigitsValue(z))
    else Some(DigitsValue(z) as int)
  }

  /** The decimal rendering of a natural number, without leading zeros. */
  function ShowNat(n: nat): (r: string)
    ensures |r| > 0 && AllDigits(r)
    ensures DigitsValue(r) == n
    ensures r[0] == '0' ==> n == 0
  {
    if n < 10 then [DigitChar(n)]
    else
      var r := ShowNat(n / 10) + [DigitChar(n % 10)];
      assert r[..|r| - 1] == ShowNat(n / 10);
      r
  }

  /** `String(n)` for an integral Number `n`. */
  function Show(n: int): string {
    if n < 0 then "-" + ShowNat(-n) else ShowNat(n)
  }

  lemma TrimStartKeeps(s: string)
    requires |s| > 0 && !IsJsWhiteSpace(s[0])
    ensures TrimStart(s) == s
  {
  }

  /** Reading a string that starts with a digit. */
  lemma ParseIntUnsigned(s: string)
    requires |s| > 0 && IsDigit(s[0])
    ensures ParseInt(s) == Some(DigitsValue(DigitPrefix(s)) as int)
  {
    TrimStartKeeps(s);
    assert DropSign(s) == s;
    var z := DigitPrefix(s);
    assert |z| > 0;
    assert ParseTrimmed(s) == Some(DigitsValue(z) as int);
  }

  /** Reading a string that starts with a minus sign and a digit. */
  lemma ParseIntNegative(s: string)
    requires |s| > 1 && s[0] == '-' && IsDigit(s[1])
    ensures ParseInt(s) == Some(0 - DigitsValue(DigitPrefix(s[1..])))
  {
    TrimStartKeeps(s);
  }

  /** A whole run of digits parses to the number it denotes. */
  lemma ParseIntOfDigits(ds: string, rest: string)
    requires AllDigits(ds) && |ds| > 0
    requires rest == "" || !IsDigit(rest[0])
    ensures ParseInt(ds + rest) == Some(DigitsValue(ds) as int)
  {
    DigitPrefixOfDigits(ds, rest);
    ParseIntUnsigned(ds + rest);
  }

  lemma {:induction false} DigitPrefixOfDigits(ds: string, rest: string)
    requires AllDigits(ds)
    requires rest == "" || !IsDigit(rest[0])
    ensures DigitPrefix(ds + rest) == ds
  {
    if |ds| == 0 {
      assert ds + rest == rest;
    } else {
      assert (ds + rest)[1..] == ds[1..] + rest;
      DigitPrefixOfDigits(ds[1..], rest);
      assert ds == [ds[0]] + ds[1..];
    }
  }

  /** Round trip: `parseInt(String(n), 10) === n`, also when the rendering is
      preceded by white space and followed by a non-digit. */
  lemma ParseIntShow(ws: string, n: int, rest: string)
    requires AllWhiteSpace(ws)
    requires rest == "" || !IsDigit(rest[0])
    ensures ParseInt(ws + Show(n) + rest) == Some(n)
  {
    if n < 0 {
      ParseIntShowNegative(ws, n, rest);
    } else {
      ParseIntShowNat(ws, n, rest);
    }
  }

  lemma ParseIntShowNat(ws: string, n: int, rest: string)
    requires AllWhiteSpace(ws) && n >= 0
    requires rest == "" || !IsDigit(rest[0])
    ensures ParseInt(ws + Show(n) + rest) == Some(n)
  {
    var t := ShowNat(n) + rest;
    assert ws + Show(n) + rest == ws + t;
    assert t[0] == ShowNat(n)[0];
    ParseIntSkipsWhiteSpace(ws, t);
    DigitPrefixOfDigits(ShowNat(n), rest);
    ParseIntUnsigned(t);
  }

  lemma ParseIntShowNegative(ws: string, n: int, rest: string)
    requires AllWhiteSpace(ws) && n < 0
    requires rest == "" || !IsDigit(rest[0])
    ensures ParseInt(ws + Show(n) + rest) == Some(n)
  {
    var u := ShowNat(-n) + rest;
    var t := "-" + u;
    assert ws + Show(n) + rest == ws + t;
    assert t[0] == '-' && t[1..] == u && t[1] == ShowNat(-n)[0];
    ParseIntSkipsWhiteSpace(ws, t);
    DigitPrefixOfDigits(ShowNat(-n), rest);
    ParseIntNegative(t);
  }

  /** Leading white space does not change what `parseInt` reads. */
  lemma ParseIntSkipsWhiteSpace(ws: string, t: string)
    requires AllWhiteSpace(ws)
    requires |t| > 0 && !IsJsWhiteSpace(t[0])
    ensures ParseInt(ws + t) == ParseInt(t)
  {
    TrimStartSkips(ws, t);
    assert TrimStart(t) == t;
  }

  lemma TrimStartSkips(ws: string, t: string)
    requires AllWhiteSpace(ws)
    requires |t| > 0 && !IsJsWhiteSpace(t[0])
    ensures TrimStart(ws + t) == t
  {
    LeadingSpaceSkips(ws, t);
    assert (ws + t)[|ws|..] == t;
  }

  lemma {:induction false} LeadingSpaceSkips(ws: string, t: string)
    requires AllWhiteSpace(ws)
    requires |t| > 0 && !IsJsWhiteSpace(t[0])
    ensures LeadingSpace(ws + t) == |ws|
  {
    if |ws| > 0 {
      assert (ws + t)[1..] == ws[1..] + t;
      LeadingSpaceSkips(ws[1..], t);
    } else {
      assert ws + t == t;
    }
  }

  /** A thousands separator ends the number: `parseInt("1.234", 10)` is 1. */
  lemma ParseIntStopsAtSeparator()
    ensures ParseInt("1.234") == Some(1)
  {
    assert "1.234" == "1" + ".234";
    ParseIntOfDigits("1", ".234");
    assert DigitsValue("1") == 1 by {
      assert "1"[..0] == "";
    }
  }

  /** Text with no digit after the optional sign is NaN. */
  lemma ParseIntNaN(s: string)
    requires |s| > 0 && !IsJsWhiteSpace(s[0]) && !IsDigit(s[0])
    requires s[0] in "+-" ==> |s| == 1 || !IsDigit(s[1])
    ensures ParseInt(s) == None
  {
    TrimStartKeeps(s);
    var u := DropSign(s);
    assert u == "" || !IsDigit(u[0]);
    assert DigitPrefix(u) == "";
  }

  /** Upper-case mapping of one character (Unicode full case mapping, Latin-1 range). */
  function UpperChar(c: char): (r: string)
    ensures |r| == 1 || r == "SS"
    ensures 'a' <= c <= 'z' ==> |r| == 1 && 'A' <= r[0] <= 'Z' && r[0] as int + 32 == c as int
    ensures (c as int < 128 && !('a' <= c <= 'z')) || c as int > 0xFF ==> r == [c]
    ensures r == "SS" <==> c == '\U{00DF}'
    ensures c == '\U{00B5}' ==> r == "\U{039C}"
    ensures c == '\U{00FF}' ==> r == "\U{0178}"
    ensures '\U{00E0}' <= c <= '\U{00FE}' && c != '\U{00F7}' ==>
      |r| == 1 && r[0] as int + 32 == c as int
    ensures 128 <= c as int < 0xE0 && c != '\U{00B5}' && c != '\U{00DF}' ==> r == [c]
    ensures c == '\U{00F7}' ==> r == [c]
  {
    if 'a' <= c <= 'z' then [((c as int) - 32) as char]
    else if c == '\U{00DF}' then "SS"
    else if c == '\U{00B5}' then "\U{039C}"
    else if c == '\U{00FF}' then "\U{0178}"
    else if '\U{00E0}' <= c <= '\U{00FE}' && c != '\U{00F7}' then [((c as int) - 32) as char]
    else [c]
  }

  /** A character `toUpperCase` maps to itself. */
  predicate IsUpperFixed(c: char) {
    UpperChar(c) == [c]
  }

  /** `String.prototype.toUpperCase`. */
  function ToUpper(s: string): (r: string)
    ensures forall i :: 0 <= i < |r| ==> IsUpperFixed(r[i])
    ensures |r| >= |s|
  {
    if |s| == 0 then "" else UpperChar(s[0]) + ToUpper(s[1..])
  }

  /** Upper-casing one character is `UpperChar`. */
  lemma ToUpperSingle(c: char)
    ensures ToUpper([c]) == UpperChar(c)
  {
    assert [c][1..] == "";
  }

  /** Upper-casing works character by character: it distributes over concatenation. */
  lemma {:induction false} ToUpperConcat(a: string, b: string)
    ensures ToUpper(a + b) == ToUpper(a) + ToUpper(b)
  {
    if |a| == 0 {
      assert a + b == b;
    } else {
      assert (a + b)[0] == a[0] && (a + b)[1..] == a[1..] + b;
      ToUpperConcat(a[1..], b);
      assert UpperChar(a[0]) + (ToUpper(a[1..]) + ToUpper(b))
        == (UpperChar(a[0]) + ToUpper(a[1..])) + ToUpper(b);
    }
  }

  /** Upper-casing twice is upper-casing once. */
  lemma {:induction false} ToUpperIdempotent(s: string)
    ensures ToUpper(ToUpper(s)) == ToUpper(s)
  {
    FixedUpper(ToUpper(s));
  }

  lemma {:induction false} FixedUpper(s: string)
    requires forall i :: 0 <= i < |s| ==> IsUpperFixed(s[i])
    ensures ToUpper(s) == s
  {
    if |s| > 0 {
      FixedUpper(s[1..]);
      assert s == [s[0]] + s[1..];
    }
  }
}

=== FILE: number_format.dfy ===
/** The numeric answer field of the local game (src/hooks/useNumpadInput.ts, and
    its older copy in src/components/PlayerInput.tsx): every non-digit is dropped
    and a `.` is put between groups of three digits counted from the right. */
module NumberFormat {
  import opened Wrappers
  import opened JsText

  /** `s.replace(/\D/g, '')`: the ASCII digits of `s`, in order. */
  function KeepDigits(s: string): (r: string)
    ensures AllDigits(r)
    ensures |r| <= |s|
  {
    if |s| == 0 then "" else (if IsDigit(s[0]) then [s[0]] else "") + KeepDigits(s[1..])
  }

  /** `s.replace(/c/g, '')` for a single character `c`. */
  function Without(s: string, c: char): (r: string)
    ensures c !in r
    ensures |r| <= |s|
    ensures forall x :: x in r <==> x in s && x != c
  {
    if |s| == 0 then "" else (if s[0] == c then "" else [s[0]]) + Without(s[1..], c)
  }

  lemma {:induction false} KeepDigitsConcat(a: string, b: string)
    ensures KeepDigits(a + b) == KeepDigits(a) + KeepDigits(b)
  {
    if |a| == 0 {
      assert a + b == b;
      assert "" + KeepDigits(b) == KeepDigits(b);
    } else {
      assert (a + b)[1..] == a[1..] + b;
      KeepDigitsConcat(a[1..], b);
      var p := if IsDigit(a[0]) then [a[0]] else "";
      assert p + (KeepDigits(a[1..]) + KeepDigits(b)) == (p + KeepDigits(a[1..])) + KeepDigits(b);
    }
  }

  lemma {:induction false} WithoutConcat(a: string, b: string, c: char)
    ensures Without(a + b, c) == Without(a, c) + Without(b, c)
  {
    if |a| == 0 {
      assert a + b == b;
      assert "" + Without(b, c) == Without(b, c);
    } else {
      assert (a + b)[1..] == a[1..] + b;
      WithoutConcat(a[1..], b, c);
      var p := if a[0] == c then "" else [a[0]];
      assert p + (Without(a[1..], c) + Without(b, c)) == (p + Without(a[1..], c)) + Without(b, c);
    }
  }

  /** Dropping non-digits leaves a run of digits unchanged. */
  lemma {:induction false} KeepDigitsOfDigits(s: string)
    requires AllDigits(s)
    ensures KeepDigits(s) == s
  {
    if |s| > 0 {
      KeepDigitsOfDigits(s[1..]);
      assert s == [s[0]] + s[1..];
    }
  }

  /** Removing a character that does not occur changes nothing. */
  lemma {:induction false} WithoutAbsent(s: string, c: char)
    requires c !in s
    ensures Without(s, c) == s
  {
    if |s| > 0 {
      WithoutAbsent(s[1..], c);
      assert s == [s[0]] + s[1..];
    }
  }

  /** On text made of digits and dots, dropping the non-digits is dropping the dots. */
  lemma {:induction false} KeepDigitsIsWithoutDots(t: string)
    requires DigitsAndDots(t)
    ensures KeepDigits(t) == Without(t, '.')
  {
    if |t| > 0 {
      KeepDigitsIsWithoutDots(t[1..]);
    }
  }

  predicate DigitsAndDots(t: string) {
    forall i :: 0 <= i < |t| ==> IsDigit(t[i]) || t[i] == '.'
  }

  /** Digits in groups separated by single dots: the first group has one to three
      digits and every later group exactly three (the empty field qualifies too). */
  predicate WellGrouped(t: string) {
    t == "" || Groups(t)
  }

  predicate Groups(t: string)
    decreases |t|
  {
    if |t| <= 3 then |t| > 0 && AllDigits(t)
    else |t| >= 5 && t[|t| - 4] == '.' && AllDigits(t[|t| - 3..]) && Groups(t[..|t| - 4])
  }

  /** Thousands grouping of a run of digits, built from the right. */
  function Group(d: string): string
    decreases |d|
  {
    if |d| <= 3 then d else Group(d[..|d| - 3]) + "." + d[|d| - 3..]
  }

  /** Grouping keeps the digits, in order. */
  lemma {:induction false} GroupKeepsDigits(d: string)
    requires AllDigits(d)
    ensures Without(Group(d), '.') == d
    decreases |d|
  {
    if |d| <= 3 {
      WithoutAbsent(d, '.');
    } else {
      var h, t := d[..|d| - 3], d[|d| - 3..];
      GroupKeepsDigits(h);
      assert Group(d) == Group(h) + "." + t;
      WithoutDotJoin(Group(h), t);
      assert h + t == d;
    }
  }

  /** Grouping adds nothing but dots. */
  lemma {:induction false} GroupDigitsAndDots(d: string)
    requires AllDigits(d)
    ensures DigitsAndDots(Group(d))
    decreases |d|
  {
    if |d| > 3 {
      GroupDigitsAndDots(d[..|d| - 3]);
    }
  }

  /** Grouping produces one to three leading digits and then dot-led groups of three. */
  lemma {:induction false} GroupIsWellGrouped(d: string)
    requires AllDigits(d)
    ensures WellGrouped(Group(d))
    decreases |d|
  {
    if |d| > 3 {
      var h, t := d[..|d| - 3], d[|d| - 3..];
      GroupIsWellGrouped(h);
      GroupLength(h);
      assert Group(d) == Group(h) + "." + t;
      GroupsExtend(Group(h), t);
    }
  }

  /** A dot and three more digits extend grouped text. */
  lemma GroupsExtend(g: string, t: string)
    requires Groups(g) && |t| == 3 && AllDigits(t)
    ensures Groups(g + "." + t)
  {
    var r := g + "." + t;
    assert r[..|r| - 4] == g;
    assert r[|r| - 3..] == t;
    assert r[|r| - 4] == '.';
  }

  /** One dot per full group of three after the first digit; the last digit stays last. */
  lemma {:induction false} GroupLength(d: string)
    requires |d| > 0
    ensures |Group(d)| == |d| + (|d| - 1) / 3
    ensures Group(d)[|Group(d)| - 1] == d[|d| - 1]
    decreases |d|
  {
    if |d| > 3 {
      GroupLength(d[..|d| - 3]);
    }
  }

  lemma GroupFacts(d: string)
    requires AllDigits(d)
    ensures Without(Group(d), '.') == d
    ensures DigitsAndDots(Group(d))
    ensures WellGrouped(Group(d))
    ensures |d| > 0 ==> |Group(d)| == |d| + (|d| - 1) / 3
    ensures |d| > 0 ==> Group(d)[|Group(d)| - 1] == d[|d| - 1]
  {
    GroupKeepsDigits(d);
    GroupDigitsAndDots(d);
    GroupIsWellGrouped(d);
    if |d| > 0 { GroupLength(d); }
  }

  /** `formatNumber` (useNumpadInput.ts, and the identical PlayerInput.tsx copy):
      keep the digits, then insert the thousands separators. */
  function FormatNumber(s: string): (r: string)
    ensures DigitsAndDots(r)
    ensures Without(r, '.') == KeepDigits(s)
    ensures WellGrouped(r)
  {
    GroupFacts(KeepDigits(s));
    Group(KeepDigits(s))
  }

  lemma {:induction false} GroupsDigitCount(t: string)
    requires Groups(t)
    ensures DigitsAndDots(t)
    ensures |Without(t, '.')| >= 1
    ensures |t| <= 3 <==> |Without(t, '.')| <= 3
    ensures |t| <= 3 ==> Without(t, '.') == t
    ensures |t| > 3 ==> Without(t, '.') == Without(t[..|t| - 4], '.') + t[|t| - 3..]
    decreases |t|
  {
    if |t| <= 3 {
      WithoutAbsent(t, '.');
    } else {
      var h, g := t[..|t| - 4], t[|t| - 3..];
      assert Groups(h) && AllDigits(g) && t[|t| - 4] == '.';
      GroupsDigitCount(h);
      assert t == h + "." + g;
      WithoutDotJoin(h, g);
      DigitsAndDotsJoin(h, g);
    }
  }

  /** Dropping the dots of `h.g`, where `g` has none. */
  lemma WithoutDotJoin(h: string, g: string)
    requires AllDigits(g)
    ensures Without(h + "." + g, '.') == Without(h, '.') + g
  {
    var wh := Without(h, '.');
    WithoutConcat(h, ".", '.');
    assert Without(".", '.') == "";
    assert wh + "" == wh;
    assert Without(h + ".", '.') == wh;
    WithoutConcat(h + ".", g, '.');
    WithoutAbsent(g, '.');
  }

  lemma DigitsAndDotsJoin(h: string, g: string)
    requires DigitsAndDots(h) && AllDigits(g)
    ensures DigitsAndDots(h + "." + g)
  {
    var t := h + "." + g;
    forall i | 0 <= i < |t|
      ensures IsDigit(t[i]) || t[i] == '.'
    {
      if i < |h| { assert t[i] == h[i]; }
      else if i > |h| { assert t[i] == g[i - |h| - 1]; }
    }
  }

  /** The last three characters of `a + b`, for `b` of length three, are `b`. */
  lemma SplitLastThree(a: string, b: string)
    requires |b| == 3
    ensures (a + b)[|a + b| - 3..] == b
    ensures (a + b)[..|a + b| - 3] == a
  {
  }

  /** In a well-grouped text the digits are what remains without the dots. */
  lemma WellGroupedDigits(t: string)
    ensures WellGrouped(t) ==> DigitsAndDots(t) && KeepDigits(t) == Without(t, '.')
  {
    if WellGrouped(t) {
      if t != "" { GroupsDigitCount(t); }
      KeepDigitsIsWithoutDots(t);
    }
  }

  /** Only one well-grouped text shows a given run of digits. */
  lemma {:induction false} WellGroupedUnique(t: string, u: string)
    requires WellGrouped(t) && WellGrouped(u)
    requires Without(t, '.') == Without(u, '.')
    ensures t == u
    decreases |t|
  {
    if t == "" || u == "" {
      assert Without("", '.') == "";
      if t != "" { GroupsDigitCount(t); }
      if u != "" { GroupsDigitCount(u); }
    } else {
      GroupsDigitCount(t);
      GroupsDigitCount(u);
      if |t| > 3 {
        var th, tg := t[..|t| - 4], t[|t| - 3..];
        var uh, ug := u[..|u| - 4], u[|u| - 3..];
        SplitLastThree(Without(th, '.'), tg);
        SplitLastThree(Without(uh, '.'), ug);
        assert tg == ug && Without(th, '.') == Without(uh, '.');
        WellGroupedUnique(th, uh);
        GroupsSplit(t);
        GroupsSplit(u);
      }
    }
  }

  /** Text with a dot fourth from the end is its head, the dot and its last three characters. */
  lemma GroupsSplit(t: string)
    requires |t| > 3 && t[|t| - 4] == '.'
    ensures t == t[..|t| - 4] + "." + t[|t| - 3..]
  {
    var h, g := t[..|t| - 4], t[|t| - 3..];
    assert |h + "." + g| == |t|;
    forall i | 0 <= i < |t|
      ensures (h + "." + g)[i] == t[i]
    {
    }
  }

  /** `FormatNumber(s)` is exactly the well-grouped text whose digits are those of `s`. */
  lemma FormatNumberCharacterised(s: string, t: string)
    ensures t == FormatNumber(s) <==> WellGrouped(t) && Without(t, '.') == KeepDigits(s)
  {
    if WellGrouped(t) && Without(t, '.') == KeepDigits(s) {
      WellGroupedUnique(t, FormatNumber(s));
    }
  }

  /** Formatting an already formatted field changes nothing. */
  lemma FormatNumberIdempotent(s: string)
    ensures FormatNumber(FormatNumber(s)) == FormatNumber(s)
  {
    var f := FormatNumber(s);
    KeepDigitsIsWithoutDots(f);
  }

  /** The field text is at most 12 characters long exactly when it shows at most
      nine digits. */
  lemma FormatNumberLength(s: string)
    ensures |FormatNumber(s)| <= 12 <==> |KeepDigits(s)| <= 9
  {
    GroupFacts(KeepDigits(s));
  }

  /** Where the regex `\B(?=(\d{3})+(?!\d))` matches in a run of `n` digits: strictly
      inside the run (`\B`), with a positive multiple of three digits up to its end. */
  predicate DotBefore(n: nat, p: int) {
    0 < p < n && (n - p) % 3 == 0
  }

  /** The global regex replacement read left to right: position `i` onwards of `d`,
      with a `.` inserted at every matching position. */
  function Scan(d: string, i: nat): string
    requires i <= |d|
    decreases |d| - i
  {
    if i == |d| then ""
    else (if DotBefore(|d|, i) then "." else "") + [d[i]] + Scan(d, i + 1)
  }

  lemma {:induction false} ScanNoDots(d: string, i: nat)
    requires i <= |d|
    requires (i > 0 && |d| - i < 3) || |d| <= 3
    ensures Scan(d, i) == d[i..]
    decreases |d| - i
  {
    if i < |d| {
      ScanNoDots(d, i + 1);
    }
  }

  lemma {:induction false} ScanSplit(d: string, i: nat)
    requires |d| > 3 && i <= |d| - 3
    ensures Scan(d, i) == Scan(d[..|d| - 3], i) + "." + d[|d| - 3..]
    decreases |d| - i
  {
    var m := |d| - 3;
    if i == m {
      ScanLastGroup(d);
    } else {
      ScanSplit(d, i + 1);
      var h := d[..m];
      DotBeforeShift(|d|, i);
      assert h[i] == d[i];
      ScanStep(d, i);
      ScanStep(h, i);
      var p := (if DotBefore(|d|, i) then "." else "") + [d[i]];
      Regroup(p, Scan(h, i + 1), ".", d[m..]);
    }
  }

  lemma Regroup(p: string, x: string, y: string, z: string)
    ensures p + (x + y + z) == (p + x) + y + z
  {
  }

  /** One step of the scan. */
  lemma ScanStep(d: string, i: nat)
    requires i < |d|
    ensures Scan(d, i) == (if DotBefore(|d|, i) then "." else "") + [d[i]] + Scan(d, i + 1)
  {
  }

  /** A dot goes before position `i` of `n` digits exactly when it goes there in the
      first `n - 3` of them (away from their end). */
  lemma DotBeforeShift(n: nat, i: nat)
    requires n > 3 && i < n - 3
    ensures DotBefore(n, i) == DotBefore(n - 3, i)
  {
    assert n - i == (n - 3 - i) + 3;
  }

  /** The scan of the last three digits of a long run starts with a dot. */
  lemma ScanLastGroup(d: string)
    requires |d| > 3
    ensures Scan(d, |d| - 3) == Scan(d[..|d| - 3], |d| - 3) + "." + d[|d| - 3..]
  {
    var m := |d| - 3;
    ScanNoDots(d, m + 1);
    assert DotBefore(|d|, m);
    ScanStep(d, m);
    assert d[m..] == [d[m]] + d[m + 1..];
  }

  /** The recursive grouping is the regex replacement. */
  lemma {:induction false} GroupIsRegexReplace(d: string)
    ensures Group(d) == Scan(d, 0)
    decreases |d|
  {
    if |d| <= 3 {
      ScanNoDots(d, 0);
    } else {
      GroupIsRegexReplace(d[..|d| - 3]);
      ScanSplit(d, 0);
    }
  }

  /** `handleInputChange`: the formatted text replaces the field only if it fits in
      12 characters. */
  function NumpadInputChange(newValue: string): (r: Option<string>)
    ensures r.Some? <==> |KeepDigits(newValue)| <= 9
    ensures r.Some? ==> r.value == FormatNumber(newValue)
  {
    FormatNumberLength(newValue);
    var f := FormatNumber(newValue);
    if |f| <= 12 then Some(f) else None
  }

  /** `handleDigit` of useNumpadInput.ts: a key press is appended while the field
      shows fewer than 12 digits, and the result is re-formatted. */
  function NumpadDigit(current: string, digit: string): (r: Option<string>)
    ensures WellGrouped(current) ==> (r.Some? <==> |KeepDigits(current)| < 12)
    ensures r.Some? ==> WellGrouped(r.value)
    ensures r.Some? ==> Without(r.value, '.') == KeepDigits(current) + KeepDigits(digit)
  {
    var raw := Without(current, '.');
    WellGroupedDigits(current);
    KeepDigitsWithout(current, '.');
    KeepDigitsConcat(raw, digit);
    if |raw| < 12 then Some(FormatNumber(raw + digit)) else None
  }

  /** A single key of the numpad. */
  predicate IsDigit1(s: string) {
    |s| == 1 && IsDigit(s[0])
  }

  /** `handleDelete`: the field loses its last character (nothing happens to an
      empty field, as `"".slice(0, -1)` is `""`). */
  function NumpadDelete(current: string): (r: string)
    ensures |current| > 0 ==> |r| == |current| - 1
    ensures r <= current
  {
    if |current| == 0 then "" else current[..|current| - 1]
  }

  /** Deleting the last digit and pressing another key is the same as having typed
      the other key in the first place: a formatted field always ends in a digit. */
  lemma DeleteThenDigit(d: string, x: string, y: string)
    requires AllDigits(d) && |d| < 12
    requires IsDigit1(x) && IsDigit1(y)
    ensures NumpadDigit(NumpadDelete(FormatNumber(d + x)), y) == Some(FormatNumber(d + y))
  {
    var e := d + x;
    assert AllDigits(e);
    KeepDigitsOfDigits(e);
    GroupFacts(e);
    var f := FormatNumber(d + x);
    assert f == Group(e);
    var p := NumpadDelete(f);
    assert f == p + x;
    WithoutConcat(p, x, '.');
    WithoutAbsent(x, '.');
    assert Without(f, '.') == Without(p, '.') + x;
    assert Without(p, '.') == d by {
      assert Without(p, '.') == (Without(p, '.') + x)[..|d|];
      assert e[..|d|] == d;
    }
    assert NumpadDigit(p, y) == Some(FormatNumber(Without(p, '.') + y));
  }

  /** Pressing keys never makes the numpad show more than 12 digits. */
  lemma NumpadDigitBound(current: string, digit: string)
    requires WellGrouped(current) && |KeepDigits(current)| <= 12
    requires IsDigit1(digit)
    requires NumpadDigit(current, digit).Some?
    ensures |KeepDigits(NumpadDigit(current, digit).value)| <= 12
  {
    var r := NumpadDigit(current, digit).value;
    KeepDigitsIsWithoutDots(r);
    KeepDigitsOfDigits(digit);
  }

  /** `handleDigit` of PlayerInput.tsx as written: it removes `,` rather than the `.`
      separator, so its nine-character cap counts the separators too. */
  function PlayerInputDigit(value: string, digit: string): (r: Option<string>)
    ensures r.Some? <==> |Without(value, ',')| < 9
    ensures r.Some? ==> r.value == FormatNumber(value + digit)
  {
    var raw := Without(value, ',');
    if |raw| < 9 then
      KeepDigitsConcat(raw, digit);
      KeepDigitsConcat(value, digit);
      KeepDigitsWithout(value, ',');
      Some(FormatNumber(raw + digit))
    else None
  }

  /** Dropping a non-digit character first does not change the digits kept. */
  lemma {:induction false} KeepDigitsWithout(s: string, c: char)
    requires !IsDigit(c)
    ensures KeepDigits(Without(s, c)) == KeepDigits(s)
  {
    if |s| > 0 {
      KeepDigitsWithout(s[1..], c);
      assert Without(s, c) == (if s[0] == c then "" else [s[0]]) + Without(s[1..], c);
      KeepDigitsConcat(if s[0] == c then "" else [s[0]], Without(s[1..], c));
    }
  }

  /** The evidently intended PlayerInput `handleDigit`: remove the `.` separators
      before counting, so the cap is on digits, as the code comment says. */
  function PlayerInputDigitIntended(value: string, digit: string): (r: Option<string>)
    ensures r.Some? ==> r.value == FormatNumber(value + digit)
  {
    var raw := Without(value, '.');
    if |raw| < 9 then
      KeepDigitsConcat(raw, digit);
      KeepDigitsConcat(value, digit);
      KeepDigitsWithout(value, '.');
      Some(FormatNumber(raw + digit))
    else None
  }

  /** As written, a formatted field with seven digits or more has at least nine
      characters, so the numpad of PlayerInput stops at seven digits although the
      cap is meant for nine; "1.234.567" is refused another digit. */
  lemma PlayerInputDigitStopsAtSeven(d: string, digit: string)
    requires AllDigits(d)
    ensures PlayerInputDigit(FormatNumber(d), digit).Some? <==> |d| <= 6
    ensures PlayerInputDigit("1.234.567", "8") == None
  {
    KeepDigitsOfDigits(d);
    GroupFacts(d);
    FormatHasNoComma(d);
    WithoutAbsent(FormatNumber(d), ',');
    WithoutAbsent("1.234.567", ',');
  }

  lemma FormatHasNoComma(d: string)
    ensures ',' !in FormatNumber(d)
  {
    var f := FormatNumber(d);
    assert forall i :: 0 <= i < |f| ==> f[i] != ',';
  }

  /** With the intended guard, a formatted field accepts a key exactly while it
      shows fewer than nine digits, so it reaches nine digits and no more. */
  lemma PlayerInputDigitIntendedCap(d: string, digit: string)
    requires AllDigits(d)
    requires IsDigit1(digit)
    ensures PlayerInputDigitIntended(FormatNumber(d), digit).Some? <==> |d| < 9
    ensures PlayerInputDigitIntended(FormatNumber(d), digit).Some? ==>
              Without(PlayerInputDigitIntended(FormatNumber(d), digit).value, '.') == d + digit
  {
    KeepDigitsOfDigits(d);
    KeepDigitsOfDigits(d + digit);
    GroupFacts(d);
    GroupFacts(d + digit);
  }
}

=== FILE: orchestrator.dfy ===
/** Turn and round flow of the local game (src/hooks/useGameOrchestrator.ts): each
    player answers all their rounds before the next one starts, and after the last
    player's last round everyone gets a closing bonus and the high score is kept. */
module Orchestrator {
  import opened Wrappers
  import opened GameTypes
  import opened Players
  import Arith

  datatype Screen = Setup | Playing | ShowingAnswer | TurnSwitching | GameOver | PlusminusScreen

  datatype HighScore = HighScore(score: int, name: string)

  /** The orchestrator's state. `played` is the list of its own question hook; the
      round hooks draw from their own lists (see the round modules). */
  datatype Game = Game(
    screen: Screen,
    roster: Roster,
    round: int,
    numberOfRounds: int,
    mode: Mode,
    highScore: Option<HighScore>,
    played: seq<string>,
    last: Option<RoundReport>)

  const DefaultRounds := 10
  const FinalBonus := 100
  const StartingScore := 100

  /** The first render: setup screen, ten rounds, classic mode, and whatever high
      score was saved before. */
  function NewGame(saved: Option<HighScore>): (g: Game)
    ensures g.screen == Setup && |g.roster.players| == 0 && g.round == 0
    ensures g.numberOfRounds == DefaultRounds && g.mode == Classic && g.highScore == saved
  {
    Game(Setup, NoPlayers(), 0, DefaultRounds, Classic, saved, [], None)
  }

  /** `onRoundEnd`: show the answer, remember the report, and score the current
      player. */
  function OnRoundEnd(g: Game, report: RoundReport): (r: Game)
    requires g.roster.current < |g.roster.players|
    ensures r.screen == ShowingAnswer && r.last == Some(report)
    ensures r.roster == UpdatePlayerStats(g.roster, report.points, report.category, report.timeUsed)
    ensures r.round == g.round && r.numberOfRounds == g.numberOfRounds && r.highScore == g.highScore
  {
    g.(screen := ShowingAnswer, last := Some(report),
       roster := UpdatePlayerStats(g.roster, report.points, report.category, report.timeUsed))
  }

  /** The report of `onPlusminusLose`. */
  const LoseReport := RoundReport(0, WrongHits, 10, 0)

  /** `onPlusminusLose`: the round ends with nothing won, as a wrong answer that used
      the whole ten seconds. */
  function OnPlusminusLose(g: Game): (r: Game)
    requires g.roster.current < |g.roster.players|
    ensures r.screen == ShowingAnswer && r.last == Some(LoseReport)
    ensures |r.roster.players| == |g.roster.players|
    ensures r.roster.players[g.roster.current].score == g.roster.players[g.roster.current].score
              || (g.roster.players[g.roster.current].score < 0 && r.roster.players[g.roster.current].score == 0)
    ensures r.roster.players[g.roster.current].wrongHits == g.roster.players[g.roster.current].wrongHits + 1
  {
    OnRoundEnd(g, LoseReport)
  }

  /** `Math.max(...scores)`. */
  function MaxScore(ps: seq<Player>): (m: int)
    requires |ps| > 0
    ensures forall i :: 0 <= i < |ps| ==> ps[i].score <= m
    ensures exists i :: 0 <= i < |ps| && ps[i].score == m
  {
    if |ps| == 1 then ps[0].score
    else
      var m := MaxScore(ps[1..]);
      assert forall i :: 1 <= i < |ps| ==> ps[i] == ps[1..][i - 1];
      if ps[0].score >= m then ps[0].score else m
  }

  /** The index `find` lands on: the first player with the given score. */
  function FirstWithScore(ps: seq<Player>, score: int): (i: nat)
    requires exists j :: 0 <= j < |ps| && ps[j].score == score
    ensures i < |ps| && ps[i].score == score
    ensures forall j :: 0 <= j < i ==> ps[j].score != score
  {
    if ps[0].score == score then 0
    else
      assert exists j :: 0 <= j < |ps[1..]| && ps[1..][j].score == score by {
        var j :| 0 <= j < |ps| && ps[j].score == score;
        assert ps[1..][j - 1] == ps[j];
      }
      1 + FirstWithScore(ps[1..], score)
  }

  /** The high score after a game: replaced, by the best final score and the first
      player who reached it, only when there was none or the best is strictly higher. */
  function RecordHighScore(hs: Option<HighScore>, ps: seq<Player>): (r: Option<HighScore>)
    requires |ps| > 0
    ensures (hs.None? || MaxScore(ps) > hs.value.score) ==>
      r.Some? && r.value.score == MaxScore(ps)
      && exists i :: 0 <= i < |ps| && ps[i].score == r.value.score && ps[i].name == r.value.name
    ensures !(hs.None? || MaxScore(ps) > hs.value.score) ==> r == hs
    ensures r.Some? && hs.Some? ==> r.value.score >= hs.value.score
  {
    var m := MaxScore(ps);
    if hs.None? || m > hs.value.score then
      var i := FirstWithScore(ps, m);
      Some(HighScore(m, ps[i].name))
    else hs
  }

  /** Every player's score raised by the closing bonus, with no floor. */
  function AddFinalBonus(ps: seq<Player>): (r: seq<Player>)
    ensures |r| == |ps|
    ensures forall i :: 0 <= i < |ps| ==> r[i] == ps[i].(score := ps[i].score + FinalBonus)
  {
    if |ps| == 0 then [] else [ps[0].(score := ps[0].score + FinalBonus)] + AddFinalBonus(ps[1..])
  }

  /** What `advanceGame` leaves behind, and whether it asked the current round hook
      for its next question. */
  datatype Advance = Advance(game: Game, drawsQuestion: bool)

  /** `advanceGame`, with `first` the round a new player's turn starts at. The code
      sets round 1 there (`AdvanceGameAsWritten`); `AdvanceGame` starts it at 0. */
  function AdvanceGameFrom(g: Game, first: int): (a: Advance)
    ensures g.round + 1 < g.numberOfRounds ==>
      a.game == g.(round := g.round + 1, screen := Playing) && a.drawsQuestion
    ensures g.round + 1 >= g.numberOfRounds && |g.roster.players| > 0 && g.roster.current + 1 >= |g.roster.players| ==>
      a.game.screen == GameOver && !a.drawsQuestion
      && a.game.roster.players == AddFinalBonus(g.roster.players)
      && a.game.roster.current == g.roster.current && a.game.round == g.round
      && a.game.highScore == RecordHighScore(g.highScore, AddFinalBonus(g.roster.players))
    ensures g.round + 1 >= g.numberOfRounds && !(|g.roster.players| > 0 && g.roster.current + 1 >= |g.roster.players|) ==>
      a.game == g.(roster := AdvanceToNextPlayer(g.roster), round := first, played := [], screen := Playing)
      && a.drawsQuestion
  {
    if g.round + 1 >= g.numberOfRounds then
      if |g.roster.players| > 0 && g.roster.current + 1 >= |g.roster.players| then
        var finalPlayers := AddFinalBonus(g.roster.players);
        Advance(g.(roster := g.roster.(players := finalPlayers),
                   highScore := RecordHighScore(g.highScore, finalPlayers),
                   screen := GameOver), false)
      else
        Advance(g.(roster := AdvanceToNextPlayer(g.roster), round := first, played := [], screen := Playing), true)
    else
      Advance(g.(round := g.round + 1, screen := Playing), true)
  }

  /** `advanceGame` as the code has it: a new turn starts at round 1. */
  function AdvanceGameAsWritten(g: Game): (a: Advance)
    ensures a.drawsQuestion == AdvanceGame(g).drawsQuestion
    ensures a.game.(round := 0) == AdvanceGame(g).game.(round := 0)
    ensures a.game.round != AdvanceGame(g).game.round ==> a.game.round == 1 && AdvanceGame(g).game.round == 0
  {
    AdvanceGameFrom(g, 1)
  }

  /** `advanceGame` with turns starting at round 0, so that a turn has
      `numberOfRounds` questions. */
  function AdvanceGame(g: Game): (a: Advance)
    ensures a.game.screen == GameOver <==>
      g.round + 1 >= g.numberOfRounds && |g.roster.players| > 0 && g.roster.current + 1 >= |g.roster.players|
    ensures a.game.screen == GameOver ==> a.game.roster.players == AddFinalBonus(g.roster.players) && !a.drawsQuestion
    ensures a.game.screen != GameOver ==> a.drawsQuestion && a.game.screen == Playing
    ensures g.round + 1 < g.numberOfRounds ==> a.game.round == g.round + 1 && a.game.roster == g.roster
    ensures a.game.screen != GameOver && g.round + 1 >= g.numberOfRounds ==>
      a.game.round == 0 && a.game.roster == AdvanceToNextPlayer(g.roster) && a.game.played == []
  {
    AdvanceGameFrom(g, 0)
  }

  /** `initializeGame`, with `first` the round the first turn starts at (1 in the
      code, 0 in `InitializeGame`). Scores start at 100 and time at 0; the
      avatars chosen in setup are kept. */
  function InitializeGameFrom(g: Game, newPlayers: seq<Player>, rounds: int, mode: Mode, first: int): (r: Game)
    ensures r.screen == TurnSwitching && r.round == first && r.numberOfRounds == rounds && r.mode == mode
    ensures r.roster.current == 0 && |r.roster.players| == |newPlayers| && r.played == []
    ensures forall i :: 0 <= i < |newPlayers| ==>
      r.roster.players[i] == newPlayers[i].(score := StartingScore, totalTimeUsed := 0)
    ensures r.highScore == g.highScore
  {
    g.(roster := SetInitialPlayers(StartScores(newPlayers)), numberOfRounds := rounds, mode := mode, round := first,
       played := [], screen := TurnSwitching)
  }

  /** Every player at the starting score with no time used. */
  function StartScores(ps: seq<Player>): (r: seq<Player>)
    ensures |r| == |ps|
    ensures forall i :: 0 <= i < |ps| ==> r[i] == ps[i].(score := StartingScore, totalTimeUsed := 0)
  {
    if |ps| == 0 then [] else [ps[0].(score := StartingScore, totalTimeUsed := 0)] + StartScores(ps[1..])
  }

  function InitializeGameAsWritten(g: Game, newPlayers: seq<Player>, rounds: int, mode: Mode): (r: Game)
    ensures r.round == 1
    ensures r == InitializeGame(g, newPlayers, rounds, mode).(round := 1)
  {
    InitializeGameFrom(g, newPlayers, rounds, mode, 1)
  }

  function InitializeGame(g: Game, newPlayers: seq<Player>, rounds: int, mode: Mode): (r: Game)
    ensures r.round == 0 && r.screen == TurnSwitching && r.roster.current == 0 && r.played == []
    ensures |r.roster.players| == |newPlayers|
    ensures forall i :: 0 <= i < |newPlayers| ==>
      r.roster.players[i].score == StartingScore && r.roster.players[i].totalTimeUsed == 0
      && r.roster.players[i].name == newPlayers[i].name && r.roster.players[i].avatar == newPlayers[i].avatar
  {
    InitializeGameFrom(g, newPlayers, rounds, mode, 0)
  }

  /** `handleReset`: back to setup with no players; the round count, the mode and the
      high score survive. */
  function HandleReset(g: Game): (r: Game)
    ensures r.screen == Setup && |r.roster.players| == 0 && r.roster.current == 0 && r.round == 0
    ensures r.played == [] && r.highScore == g.highScore
    ensures r.numberOfRounds == g.numberOfRounds && r.mode == g.mode
  {
    g.(screen := Setup, roster := ResetPlayers(), round := 0, played := [])
  }

  /** `k` advances in a row, each on the game the previous one left. */
  function AdvanceTimes(g: Game, first: int, k: nat): Game
    decreases k
  {
    if k == 0 then g else AdvanceTimes(AdvanceGameFrom(g, first).game, first, k - 1)
  }

  /** A question of the current turn, or its answer, is on show: neither the setup,
      the turn-switch nor the game-over screen. */
  predicate OnQuestion(g: Game) {
    g.screen != Setup && g.screen != TurnSwitching && g.screen != GameOver
  }

  /** Mid-game: a player whose turn it is, and a round inside the turn whose
      question is on show. */
  predicate InTurn(g: Game, first: int) {
    |g.roster.players| > 0 && g.roster.current < |g.roster.players|
    && first <= g.round < g.numberOfRounds && OnQuestion(g)
  }

  /** How many questions have been answered before the current one. */
  function Progress(g: Game, first: int): int {
    g.roster.current * (g.numberOfRounds - first) + (g.round - first)
  }

  /** Questions in the whole game. */
  function TotalQuestions(g: Game, first: int): int {
    |g.roster.players| * (g.numberOfRounds - first)
  }

  /** Each advance moves exactly one question forward in the order "all of player 0's
      rounds, then all of player 1's, ...", and the game ends exactly after the last
      player's last question. */
  lemma AdvanceMovesOneQuestion(g: Game, first: int)
    requires InTurn(g, first)
    ensures Progress(g, first) < TotalQuestions(g, first)
    ensures Progress(g, first) + 1 < TotalQuestions(g, first) ==>
      InTurn(AdvanceGameFrom(g, first).game, first)
      && Progress(AdvanceGameFrom(g, first).game, first) == Progress(g, first) + 1
      && AdvanceGameFrom(g, first).game.roster.players == g.roster.players
    ensures Progress(g, first) + 1 == TotalQuestions(g, first) ==>
      AdvanceGameFrom(g, first).game.screen == GameOver
  {
    var c := g.roster.current;
    var w := g.numberOfRounds - first;
    var p := |g.roster.players|;
    assert c + 1 <= p;
    Arith.MulMono(c + 1, p, w);
    assert (c + 1) * w == c * w + w;
    if g.round + 1 >= g.numberOfRounds && c + 1 < p {
      Arith.MulMono(c + 2, p, w);
      assert (c + 2) * w == c * w + 2 * w;
    }
    if g.round + 1 < g.numberOfRounds {
      Arith.MulMono(c + 1, p, w);
    }
  }

  /** From the first question of a game, the game is over after exactly as many
      advances as there are questions, and not before. */
  lemma {:induction false} GameEndsAfterEveryQuestion(g: Game, first: int, k: nat)
    requires InTurn(g, first)
    requires Progress(g, first) + k < TotalQuestions(g, first)
    ensures k + 1 + Progress(g, first) < TotalQuestions(g, first) ==>
      InTurn(AdvanceTimes(g, first, k + 1), first)
    ensures k + 1 + Progress(g, first) == TotalQuestions(g, first) ==>
      AdvanceTimes(g, first, k + 1).screen == GameOver
    decreases k
  {
    AdvanceMovesOneQuestion(g, first);
    if k > 0 {
      var h := AdvanceGameFrom(g, first).game;
      assert AdvanceTimes(g, first, k + 1) == AdvanceTimes(h, first, k);
      GameEndsAfterEveryQuestion(h, first, k - 1);
    } else {
      assert AdvanceTimes(g, first, 1) == AdvanceTimes(AdvanceGameFrom(g, first).game, first, 0);
    }
  }

  /** While the round count is not reached, advancing keeps the player and counts up. */
  lemma {:induction false} AdvancesWithinTurn(g: Game, first: int, k: nat)
    requires g.round + k < g.numberOfRounds
    ensures AdvanceTimes(g, first, k).roster == g.roster
    ensures AdvanceTimes(g, first, k).round == g.round + k
    ensures AdvanceTimes(g, first, k).numberOfRounds == g.numberOfRounds
    decreases k
  {
    if k > 0 {
      AdvancesWithinTurn(AdvanceGameFrom(g, first).game, first, k - 1);
    }
  }

  /** As written, a turn that the player switch starts at round 1 holds
      `numberOfRounds - 1` questions: the one drawn at the switch and
      `numberOfRounds - 2` more, after which the next advance hands over to the next
      player. With the default of 10 rounds every player after the first answers 9
      questions. */
  lemma TurnHasOneQuestionLess(g: Game)
    requires g.round == 1 && g.numberOfRounds >= 2
    requires g.roster.current + 1 < |g.roster.players|
    ensures AdvanceTimes(g, 1, g.numberOfRounds - 2).roster.current == g.roster.current
    ensures AdvanceGameAsWritten(AdvanceTimes(g, 1, g.numberOfRounds - 2)).game.roster.current
              == g.roster.current + 1
  {
    AdvancesWithinTurn(g, 1, g.numberOfRounds - 2);
  }

  /** With turns starting at round 0, a turn whose first question is on show holds
      exactly `numberOfRounds` questions. */
  lemma TurnHasEveryQuestion(g: Game)
    requires g.round == 0 && g.numberOfRounds >= 1 && OnQuestion(g)
    requires g.roster.current + 1 < |g.roster.players|
    ensures AdvanceTimes(g, 0, g.numberOfRounds - 1).roster.current == g.roster.current
    ensures AdvanceGame(AdvanceTimes(g, 0, g.numberOfRounds - 1)).game.roster.current
              == g.roster.current + 1
  {
    AdvancesWithinTurn(g, 0, g.numberOfRounds - 1);
  }

  /** Leaving the turn-switch screen for the turn's first question, as the
      first-question effect expects (it draws once the screen is `Playing`): no
      round is used up. The code has no such step, because the turn-switch screen
      never calls the callback it is given. */
  function LeaveTurnSwitch(g: Game): (r: Game)
    ensures g.screen == TurnSwitching ==> r.screen == Playing
    ensures g.screen != TurnSwitching ==> r.screen == g.screen
    ensures r.(screen := g.screen) == g
  {
    if g.screen == TurnSwitching then g.(screen := Playing) else g
  }

  /** The first turn, started by `InitializeGame` and the turn-switch exit, holds
      exactly `numberOfRounds` questions too, and the game then ends after exactly
      one advance per question of every player. */
  lemma FirstTurnHasEveryQuestion(g: Game, newPlayers: seq<Player>, rounds: int, mode: Mode)
    requires |newPlayers| >= 1 && rounds >= 1
    ensures var s := LeaveTurnSwitch(InitializeGame(g, newPlayers, rounds, mode));
      && InTurn(s, 0) && s.round == 0 && s.roster.current == 0 && Progress(s, 0) == 0
      && AdvanceTimes(s, 0, rounds - 1).roster.current == 0
      && (|newPlayers| >= 2 ==> AdvanceGame(AdvanceTimes(s, 0, rounds - 1)).game.roster.current == 1)
      && AdvanceTimes(s, 0, |newPlayers| * rounds).screen == GameOver
  {
    var s := LeaveTurnSwitch(InitializeGame(g, newPlayers, rounds, mode));
    var total := |newPlayers| * rounds;
    assert Progress(s, 0) == 0;
    AdvancesWithinTurn(s, 0, rounds - 1);
    if |newPlayers| >= 2 {
      TurnHasEveryQuestion(s);
    }
    Arith.MulMono(1, |newPlayers|, rounds);
    assert TotalQuestions(s, 0) == total;
    GameEndsAfterEveryQuestion(s, 0, total - 1);
  }

  /** Were the turn-switch exit `advanceGame`, as the app passes it, the first turn
      would go from round 1 to round 2 before showing a question and hand over after
      `numberOfRounds - 2` questions: 8 with the default of 10 rounds. */
  lemma FirstTurnSkipsARound(g: Game, newPlayers: seq<Player>, rounds: int, mode: Mode)
    requires |newPlayers| >= 2 && rounds >= 3
    ensures var shown := AdvanceGameAsWritten(InitializeGameAsWritten(g, newPlayers, rounds, mode)).game;
      && shown.screen == Playing && shown.round == 2 && shown.roster.current == 0
      && AdvanceTimes(shown, 1, rounds - 3).roster.current == 0
      && AdvanceGameAsWritten(AdvanceTimes(shown, 1, rounds - 3)).game.roster.current == 1
  {
    var shown := AdvanceGameAsWritten(InitializeGameAsWritten(g, newPlayers, rounds, mode)).game;
    AdvancesWithinTurn(shown, 1, rounds - 3);
  }
}

=== FILE: pagination.dfy ===
/** Page controls of the question database's browser (db/static/script.js): 25 rows
    a page, and a window of at most five page buttons around the current page,
    flanked by the first and last page and "..." where pages are skipped. */
module Pagination {

  const RecordsPerPage := 25
  const MaxPageButtons := 5

  /** `Math.ceil(totalRecords / recordsPerPage)`. */
  function TotalPages(records: nat): (t: nat)
    ensures t * RecordsPerPage >= records
    ensures t > 0 ==> (t - 1) * RecordsPerPage < records
  {
    (records + RecordsPerPage - 1) / RecordsPerPage
  }

  /** `(currentPage - 1) * recordsPerPage + index`: the position of a row of the
      current page in the whole table. */
  function RowIndex(page: int, index: int): (r: int)
    requires page >= 1 && 0 <= index < RecordsPerPage
    ensures r >= 0
    ensures r / RecordsPerPage == page - 1 && r % RecordsPerPage == index
  {
    (page - 1) * RecordsPerPage + index
  }

  /** Rows of different pages or positions never share an index. */
  lemma RowIndexInjective(p1: int, i1: int, p2: int, i2: int)
    requires p1 >= 1 && 0 <= i1 < RecordsPerPage && p2 >= 1 && 0 <= i2 < RecordsPerPage
    ensures RowIndex(p1, i1) == RowIndex(p2, i2) <==> p1 == p2 && i1 == i2
  {
  }

  /** The first and last page of the button window. */
  datatype Window = Window(start: int, end: int)

  /** The window around `current`. A current page past the last one (the page a
      refetch keeps after rows were deleted) gets the last pages. */
  function PageWindow(current: int, total: int): (w: Window)
    requires total >= 1
    ensures 1 <= w.start <= w.end <= total
    ensures w.end - w.start + 1 == if total < MaxPageButtons then total else MaxPageButtons
    ensures 1 <= current <= total ==> w.start <= current <= w.end
    ensures current > total ==> w.end == total
    ensures current < 1 ==> w.start == 1
  {
    var start := if current - MaxPageButtons / 2 > 1 then current - MaxPageButtons / 2 else 1;
    var end := if start + MaxPageButtons - 1 < total then start + MaxPageButtons - 1 else total;
    if end - start + 1 < MaxPageButtons then
      Window(if end - MaxPageButtons + 1 > 1 then end - MaxPageButtons + 1 else 1, end)
    else Window(start, end)
  }

  datatype Button = Button(target: int, disabled: bool)

  /** A page button (disabled on the current page) or a "..." gap. */
  datatype Item = PageItem(page: int, disabled: bool) | Gap

  /** Nothing when there is at most one page; otherwise Previous, the items, Next. */
  datatype Pager = Hidden | Shown(previous: Button, items: seq<Item>, next: Button)

  /** The window's buttons, pages `lo` to `hi`. */
  function PageRange(lo: int, hi: int, current: int): (r: seq<Item>)
    decreases if hi >= lo then hi - lo + 1 else 0
    ensures |r| == if hi >= lo then hi - lo + 1 else 0
    ensures forall k :: 0 <= k < |r| ==> r[k] == PageItem(lo + k, lo + k == current)
  {
    if lo > hi then [] else [PageItem(lo, lo == current)] + PageRange(lo + 1, hi, current)
  }

  /** The items before the window: page 1, and "..." if page 2 is not shown either. */
  function Leading(start: int): (r: seq<Item>)
    ensures |r| > 0 <==> start > 1
    ensures Gap in r <==> start > 2
  {
    if start > 1 then [PageItem(1, false)] + (if start > 2 then [Gap] else []) else []
  }

  /** The items after the window: "..." if the next-to-last page is not shown, then
      the last page. */
  function Trailing(end: int, total: int): (r: seq<Item>)
    ensures |r| > 0 <==> end < total
    ensures Gap in r <==> end < total - 1
  {
    if end < total then (if end < total - 1 then [Gap] else []) + [PageItem(total, false)] else []
  }

  /** `renderPagination` for a current page and a record count. */
  function RenderPagination(current: int, records: nat): (p: Pager)
    ensures p.Hidden? <==> TotalPages(records) <= 1
    ensures p.Shown? ==>
      p.previous == Button(current - 1, current == 1)
      && p.next == Button(current + 1, current == TotalPages(records))
  {
    var total := TotalPages(records);
    if total <= 1 then Hidden
    else
      var w := PageWindow(current, total);
      Shown(Button(current - 1, current == 1),
            Leading(w.start) + PageRange(w.start, w.end, current) + Trailing(w.end, total),
            Button(current + 1, current == total))
  }

  /** The row runs from page 1 to the last page. */
  predicate Ends(items: seq<Item>, total: int) {
    && |items| >= 1
    && items[0].PageItem? && items[0].page == 1
    && items[|items| - 1].PageItem? && items[|items| - 1].page == total
  }

  /** Neighbouring buttons are neighbouring pages. */
  predicate Consecutive(items: seq<Item>) {
    forall k :: 0 <= k < |items| - 1 && items[k].PageItem? && items[k + 1].PageItem? ==>
      items[k + 1].page == items[k].page + 1
  }

  /** A "..." sits between two buttons and stands for at least one page. */
  predicate GapsSkip(items: seq<Item>) {
    forall k :: 0 <= k < |items| && items[k].Gap? ==>
      0 < k < |items| - 1 && items[k - 1].PageItem? && items[k + 1].PageItem?
      && items[k + 1].page >= items[k - 1].page + 2
  }

  /** The one disabled button is the current page. */
  predicate DisabledIsCurrent(items: seq<Item>, current: int) {
    forall k :: 0 <= k < |items| && items[k].PageItem? ==> (items[k].disabled <==> items[k].page == current)
  }

  /** What the items promise a reader: every page from 1 to the last is either a
      button or inside a "...", in increasing order, and the current page is the
      disabled one. */
  predicate ReadsAsAllPages(items: seq<Item>, current: int, total: int) {
    Ends(items, total) && Consecutive(items) && GapsSkip(items) && DisabledIsCurrent(items, current)
  }

  /** The row's items, with the window they are built around. */
  lemma RowParts(current: int, records: nat) returns (lead: seq<Item>, mid: seq<Item>, trail: seq<Item>, w: Window)
    requires TotalPages(records) > 1
    ensures w == PageWindow(current, TotalPages(records))
    ensures lead == Leading(w.start) && trail == Trailing(w.end, TotalPages(records))
    ensures mid == PageRange(w.start, w.end, current) && |mid| >= 1
    ensures RenderPagination(current, records).items == lead + mid + trail
  {
    w := PageWindow(current, TotalPages(records));
    lead := Leading(w.start);
    mid := PageRange(w.start, w.end, current);
    trail := Trailing(w.end, TotalPages(records));
  }

  lemma RowEnds(current: int, records: nat)
    requires TotalPages(records) > 1
    ensures Ends(RenderPagination(current, records).items, TotalPages(records))
  {
    var lead, mid, trail, w := RowParts(current, records);
    var items := lead + mid + trail;
    if |lead| == 0 {
      assert items[0] == mid[0];
    }
    if |trail| == 0 {
      assert items[|items| - 1] == mid[|mid| - 1];
    }
  }

  lemma RowConsecutive(current: int, records: nat)
    requires TotalPages(records) > 1
    ensures Consecutive(RenderPagination(current, records).items)
  {
    var lead, mid, trail, w := RowParts(current, records);
    var items := lead + mid + trail;
    forall k | 0 <= k < |items| - 1 && items[k].PageItem? && items[k + 1].PageItem?
      ensures items[k + 1].page == items[k].page + 1
    {
      if k + 1 < |lead| {
        assert false;
      } else if k < |lead| {
        assert items[k + 1] == mid[0];
      } else if k + 1 < |lead| + |mid| {
        assert items[k] == mid[k - |lead|] && items[k + 1] == mid[k + 1 - |lead|];
      } else if k < |lead| + |mid| {
        assert items[k] == mid[|mid| - 1] && items[k + 1] == trail[0];
      } else {
        assert false;
      }
    }
  }

  lemma RowGapsSkip(current: int, records: nat)
    requires TotalPages(records) > 1
    ensures GapsSkip(RenderPagination(current, records).items)
  {
    var lead, mid, trail, w := RowParts(current, records);
    var items := lead + mid + trail;
    forall k | 0 <= k < |items| && items[k].Gap?
      ensures 0 < k < |items| - 1 && items[k - 1].PageItem? && items[k + 1].PageItem?
              && items[k + 1].page >= items[k - 1].page + 2
    {
      if k < |lead| {
        assert k == 1 && items[0] == PageItem(1, false) && items[2] == mid[0];
      } else if k < |lead| + |mid| {
        assert false;
      } else {
        assert k == |lead| + |mid| && items[k - 1] == mid[|mid| - 1];
        assert items[k + 1] == PageItem(TotalPages(records), false);
      }
    }
  }

  lemma RowDisabledIsCurrent(current: int, records: nat)
    requires TotalPages(records) > 1
    ensures DisabledIsCurrent(RenderPagination(current, records).items, current)
  {
    var lead, mid, trail, w := RowParts(current, records);
    var items := lead + mid + trail;
    forall k | 0 <= k < |items| && items[k].PageItem?
      ensures items[k].disabled <==> items[k].page == current
    {
      if k < |lead| {
        assert items[k] == PageItem(1, false);
      } else if k < |lead| + |mid| {
        assert items[k] == mid[k - |lead|];
      } else {
        assert items[k] == trail[k - |lead| - |mid|];
      }
    }
  }

  /** The rendered controls list every page, either as a button or inside a "...". */
  lemma RenderedItemsReadAsAllPages(current: int, records: nat)
    requires TotalPages(records) > 1
    ensures ReadsAsAllPages(RenderPagination(current, records).items, current, TotalPages(records))
  {
    RowEnds(current, records);
    RowConsecutive(current, records);
    RowGapsSkip(current, records);
    RowDisabledIsCurrent(current, records);
  }

  /** The window keeps five buttons whenever there are five pages: near the start it
      is pages 1 to 5, near the end the last five. */
  lemma WindowAtEdges(current: int, total: int)
    requires 1 <= current <= total && total >= MaxPageButtons
    ensures current <= 3 ==> PageWindow(current, total) == Window(1, 5)
    ensures current >= total - 2 ==> PageWindow(current, total) == Window(total - 4, total)
    ensures 3 <= current <= total - 2 ==> PageWindow(current, total) == Window(current - 2, current + 2)
  {
  }
  /** A current page past the last one (after deleting the rows of the last page,
      the refetch keeps the old page number) still shows every page, the last
      ones as the window, with no page button disabled and Previous and Next both
      enabled, Next leading further past the end. */
  lemma StalePageDisablesNothing(current: int, records: nat)
    requires TotalPages(records) > 1 && current > TotalPages(records)
    ensures var p := RenderPagination(current, records);
      && p.Shown? && !p.previous.disabled && !p.next.disabled && p.next.target > TotalPages(records)
      && ReadsAsAllPages(p.items, current, TotalPages(records))
      && forall k :: 0 <= k < |p.items| && p.items[k].PageItem? ==> !p.items[k].disabled
  {
    RenderedItemsReadAsAllPages(current, records);
  }
}

=== FILE: players.dfy ===
/** The player list and the index of the player whose turn it is
    (src/hooks/usePlayers.ts). */
module Players {
  import opened GameTypes

  datatype Roster = Roster(players: seq<Player>, current: nat)

  /** The empty roster the hook starts with. */
  function NoPlayers(): (r: Roster)
    ensures |r.players| == 0 && r.current == 0
  {
    Roster([], 0)
  }

  /** `setInitialPlayers`: the given list, first player to move. */
  function SetInitialPlayers(players: seq<Player>): (r: Roster)
    ensures r.players == players && r.current == 0
  {
    Roster(players, 0)
  }

  /** `advanceToNextPlayer`: one more, never wrapping around. */
  function AdvanceToNextPlayer(r: Roster): (s: Roster)
    ensures s.players == r.players && s.current == r.current + 1
  {
    r.(current := r.current + 1)
  }

  /** `resetPlayers`. */
  function ResetPlayers(): (r: Roster)
    ensures |r.players| == 0 && r.current == 0
  {
    NoPlayers()
  }

  /** `Math.max(0, x)`. */
  function ClampScore(x: int): (r: int)
    ensures r >= 0 && r >= x
    ensures r == x || r == 0
  {
    if x < 0 then 0 else x
  }

  /** `player[category]++`. */
  function Bump(p: Player, category: Category): (q: Player)
    ensures q.Hits(category) == p.Hits(category) + 1
    ensures forall c :: c != category ==> q.Hits(c) == p.Hits(c)
    ensures q.name == p.name && q.avatar == p.avatar
    ensures q.score == p.score && q.totalTimeUsed == p.totalTimeUsed
  {
    match category
    case ExactHits => p.(exactHits := p.exactHits + 1)
    case CorrectHits => p.(correctHits := p.correctHits + 1)
    case WrongHits => p.(wrongHits := p.wrongHits + 1)
  }

  /** The change one result makes to a player: score moved by `change` and floored
      at zero, time added, one counter bumped. */
  function ApplyResult(p: Player, change: int, category: Category, timeUsed: int): (q: Player)
    ensures q.score == if p.score + change < 0 then 0 else p.score + change
    ensures q.score >= 0
    ensures q.totalTimeUsed == p.totalTimeUsed + timeUsed
    ensures q.Hits(category) == p.Hits(category) + 1
    ensures forall c :: c != category ==> q.Hits(c) == p.Hits(c)
    ensures q.name == p.name && q.avatar == p.avatar
  {
    Bump(p.(score := ClampScore(p.score + change), totalTimeUsed := p.totalTimeUsed + timeUsed), category)
  }

  /** `updatePlayerStats`: the current player takes the result, everyone else and
      the turn stay as they were. The index must name a player (the hook would
      otherwise spread `undefined` into a new entry past the end). */
  function UpdatePlayerStats(r: Roster, change: int, category: Category, timeUsed: int): (s: Roster)
    requires r.current < |r.players|
    ensures |s.players| == |r.players| && s.current == r.current
    ensures s.players[r.current] == ApplyResult(r.players[r.current], change, category, timeUsed)
    ensures forall i :: 0 <= i < |r.players| && i != r.current ==> s.players[i] == r.players[i]
  {
    r.(players := r.players[r.current := ApplyResult(r.players[r.current], change, category, timeUsed)])
  }

  function SumPoints(reports: seq<RoundReport>): int {
    if |reports| == 0 then 0 else SumPoints(reports[..|reports| - 1]) + reports[|reports| - 1].points
  }

  function SumTime(reports: seq<RoundReport>): int {
    if |reports| == 0 then 0 else SumTime(reports[..|reports| - 1]) + reports[|reports| - 1].timeUsed
  }

  /** A player after a run of results, in order. */
  function ApplyAll(p: Player, reports: seq<RoundReport>): Player {
    if |reports| == 0 then p
    else
      var last := reports[|reports| - 1];
      ApplyResult(ApplyAll(p, reports[..|reports| - 1]), last.points, last.category, last.timeUsed)
  }

  /** Every running total of a run of results that starts from `start`. */
  predicate NeverBelowZero(start: int, reports: seq<RoundReport>) {
    forall k :: 0 <= k <= |reports| ==> start + SumPoints(reports[..k]) >= 0
  }

  /** Over a run of results the floor only ever adds points: the final score is at
      least the start plus every change, exactly that when no running total dips
      below zero, and never negative; the time used adds up exactly and each result
      bumps one counter. */
  lemma {:induction false} ApplyAllTotals(p: Player, reports: seq<RoundReport>)
    requires p.score >= 0
    ensures ApplyAll(p, reports).score >= 0
    ensures ApplyAll(p, reports).score >= p.score + SumPoints(reports)
    ensures NeverBelowZero(p.score, reports) ==> ApplyAll(p, reports).score == p.score + SumPoints(reports)
    ensures ApplyAll(p, reports).totalTimeUsed == p.totalTimeUsed + SumTime(reports)
    ensures HitsTotal(ApplyAll(p, reports)) == HitsTotal(p) + |reports|
    decreases |reports|
  {
    if |reports| > 0 {
      var init := reports[..|reports| - 1];
      assert init == reports[..|reports| - 1];
      ApplyAllTotals(p, init);
      if NeverBelowZero(p.score, reports) {
        forall k | 0 <= k <= |init|
          ensures p.score + SumPoints(init[..k]) >= 0
        {
          assert init[..k] == reports[..k];
        }
        assert reports[..|reports|] == reports;
      }
    }
  }

  function HitsTotal(p: Player): int {
    p.exactHits + p.correctHits + p.wrongHits
  }
}

=== FILE: plusminus_round.dfy ===
/** The plus/minus round (src/hooks/usePlusminusRound.ts): guess a secret number
    with a random budget of guesses, ten seconds per guess, and a `+` or `-` hint
    after each wrong guess. */
module PlusminusRound {
  import opened Wrappers
  import opened GameTypes
  import opened Countdown
  import QuestionPool
  import ClassicRound
  import NumberFormat
  import JsText

  const GuessSeconds: nat := 10

  /** The direction hint: `+` means the secret is larger. */
  datatype Hint = NoHint | Plus | Minus

  datatype PlusminusRound = PlusminusRound(
    question: Option<Question>,
    answer: string,
    wildcardPlayed: bool,
    guessesLeft: int,
    hint: Hint,
    initialGuesses: int,
    clock: Clock,
    played: seq<string>)

  /** What a guess or a timeout leads to: play on, the round's report to
      `onRoundEnd`, or a call to `onPlusminusLose`. */
  datatype Outcome = Continue | RoundEnd(report: RoundReport) | Lose

  datatype PlusminusStep = PlusminusStep(round: PlusminusRound, outcome: Outcome)

  /** The hook's first render. */
  function NewPlusminusRound(): (s: PlusminusRound)
    ensures s.question.None? && s.guessesLeft == 0 && s.initialGuesses == 0 && s.hint == NoHint
    ensures s.clock == Countdown.New(GuessSeconds) && s.played == []
  {
    PlusminusRound(None, "", false, 0, NoHint, 0, Countdown.New(GuessSeconds), [])
  }

  /** `Math.floor(Math.random() * 16) + 5`, with the random draw as `roll`. */
  function GuessBudget(roll: nat): (n: int)
    ensures 5 <= n <= 20
  {
    5 + roll % 16
  }

  /** `startPlusminusRound`: a fresh question and budget, no hint, the clock running.
      With nothing to draw, nothing changes. */
  function StartPlusminusRound(s: PlusminusRound, pool: seq<Question>, loading: bool, pick: nat, roll: nat): (r: PlusminusRound)
    ensures loading || |pool| == 0 ==> r == s
    ensures !loading && |pool| > 0 ==>
      r.question.Some? && r.question.value in pool
      && 5 <= r.guessesLeft <= 20 && r.initialGuesses == r.guessesLeft
      && r.hint == NoHint && r.answer == "" && r.wildcardPlayed
      && r.clock.active && r.clock.timer == s.clock.initial
      && r.played == s.played + [r.question.value.pregunta]
  {
    var sel := QuestionPool.SelectNewQuestion(pool, s.played, loading, pick);
    match sel.question
    case None => s
    case Some(q) =>
      var budget := GuessBudget(roll);
      PlusminusRound(Some(q), "", true, budget, NoHint, budget, Start(s.clock), sel.played)
  }

  /** `nextQuestion`: it draws a question, then calls `startPlusminusRound`, which
      draws again from the same snapshot of the played list. The second draw is
      the question shown; both texts are recorded as played. */
  function PlusminusNextQuestion(s: PlusminusRound, pool: seq<Question>, loading: bool, first: nat, second: nat, roll: nat): (r: PlusminusRound)
    ensures loading || |pool| == 0 ==> r == s
    ensures !loading && |pool| > 0 ==>
      var q1 := QuestionPool.SelectNewQuestion(pool, s.played, false, first).question.value;
      var q2 := QuestionPool.SelectNewQuestion(pool, s.played, false, second).question.value;
      r.question == Some(q2) && r.played == s.played + [q1.pregunta, q2.pregunta]
      && 5 <= r.guessesLeft <= 20 && r.initialGuesses == r.guessesLeft && r.hint == NoHint
  {
    var sel := QuestionPool.SelectNewQuestion(pool, s.played, loading, first);
    match sel.question
    case None => s
    case Some(q1) =>
      var shown := s.(question := Some(q1), answer := "", clock := Reset(s.clock), hint := NoHint);
      var started := StartPlusminusRound(shown, pool, loading, second, roll);
      started.(played := sel.played + [started.question.value.pregunta])
  }

  /** `nextQuestion` as it was evidently meant: one draw, shown and recorded. */
  function PlusminusNextQuestionIntended(s: PlusminusRound, pool: seq<Question>, loading: bool, pick: nat, roll: nat): (r: PlusminusRound)
    ensures loading || |pool| == 0 ==> r == s
    ensures !loading && |pool| > 0 ==>
      r.question.Some? && r.question.value in pool
      && r.played == s.played + [r.question.value.pregunta]
      && (QuestionPool.HasUnplayed(pool, s.played) ==> r.question.value.pregunta !in s.played)
      && 5 <= r.guessesLeft <= 20 && r.initialGuesses == r.guessesLeft && r.hint == NoHint && r.answer == ""
  {
    if loading || |pool| == 0 then s
    else StartPlusminusRound(s.(answer := "", clock := Reset(s.clock), hint := NoHint), pool, loading, pick, roll)
  }

  /** As written, `nextQuestion` records a question as played that is never shown:
      from a two-question pool with nothing played, the first draw takes one and the
      second, from the same snapshot, shows the other. Both are then used up. */
  lemma NextQuestionHidesADraw(s: PlusminusRound, a: Question, b: Question, roll: nat)
    requires s.played == [] && a.pregunta != b.pregunta
    ensures
      var r := PlusminusNextQuestion(s, [a, b], false, 0, 1, roll);
      r.question == Some(b) && a.pregunta in r.played && r.played == [a.pregunta, b.pregunta]
  {
    var pool := [a, b];
    assert QuestionPool.Unplayed(pool, []) == pool by {
      assert QuestionPool.Unplayed(pool[1..], []) == [b];
    }
    assert QuestionPool.Candidates(pool, []) == pool;
  }

  /** After a guess that neither wins nor loses: one guess fewer, answer cleared,
      clock restarted; or the lose callback when that was the last guess. */
  function SpendGuess(s: PlusminusRound, hint: Hint): (t: PlusminusStep)
    ensures t.round.guessesLeft == s.guessesLeft - 1 && t.round.hint == hint && t.round.answer == ""
    ensures t.outcome.Lose? <==> s.guessesLeft - 1 <= 0
    ensures t.outcome.Continue? <==> s.guessesLeft - 1 > 0
    ensures t.outcome.Continue? ==> t.round.clock.active && t.round.clock.timer == s.clock.initial
    ensures t.outcome.Lose? ==> !t.round.clock.active
    ensures t.round.question == s.question && t.round.played == s.played
  {
    var r := s.(hint := hint, answer := "", clock := Reset(s.clock), guessesLeft := s.guessesLeft - 1);
    if s.guessesLeft - 1 <= 0 then PlusminusStep(r, Lose)
    else PlusminusStep(r.(clock := Start(r.clock)), Continue)
  }

  /** `handlePlusminusGuess`. */
  function HandlePlusminusGuess(s: PlusminusRound): (t: PlusminusStep)
    ensures s.question.None? ==> t == PlusminusStep(s, Continue)
    ensures t.round.question == s.question && t.round.played == s.played
    ensures s.question.Some? ==>
      var g := ClassicRound.ParseAnswer(s.answer);
      (t.outcome.RoundEnd? <==> g == Some(s.question.value.respuesta))
      && (t.outcome.RoundEnd? ==>
            t.outcome.report == RoundReport(75 + 25 * s.guessesLeft, ExactHits, GuessSeconds - s.clock.timer, 25 * s.guessesLeft))
      && (!t.outcome.RoundEnd? ==> t.round.guessesLeft == s.guessesLeft - 1 && t.round.answer == "")
      && (!t.outcome.RoundEnd? ==> (t.outcome.Lose? <==> s.guessesLeft <= 1))
      && (g.None? ==> t.round.hint == NoHint)
      && (g.Some? && g.value < s.question.value.respuesta ==> t.round.hint == Plus)
      && (g.Some? && g.value > s.question.value.respuesta ==> t.round.hint == Minus)
  {
    match s.question
    case None => PlusminusStep(s, Continue)
    case Some(q) =>
      var timeUsed := GuessSeconds - s.clock.timer;
      match ClassicRound.ParseAnswer(s.answer)
      case None => SpendGuess(s, NoHint)
      case Some(g) =>
        if g == q.respuesta then
          var bonus := s.guessesLeft * 25;
          PlusminusStep(s.(clock := Reset(s.clock)), RoundEnd(RoundReport(75 + bonus, ExactHits, timeUsed, bonus)))
        else SpendGuess(s, if g < q.respuesta then Plus else Minus)
  }

  /** One run of the guess clock's effect. When it runs out, the timeout callback
      spends a guess and clears the hint, or loses on the last guess. */
  function PlusminusTick(s: PlusminusRound): (t: PlusminusStep)
    ensures !(s.clock.active && s.clock.timer == 0) ==> t.outcome.Continue? && t.round.guessesLeft == s.guessesLeft
    ensures s.clock.active && s.clock.timer == 0 ==>
      (t.outcome.Lose? <==> s.guessesLeft <= 1)
      && (t.outcome.Continue? ==> t.round.guessesLeft == s.guessesLeft - 1 && t.round.hint == NoHint && t.round.clock.active)
    ensures !t.outcome.RoundEnd?
    ensures t.round.question == s.question
  {
    var tick := Step(s.clock);
    var r := s.(clock := tick.next);
    if !tick.timedOut then PlusminusStep(r, Continue)
    else if s.guessesLeft - 1 <= 0 then PlusminusStep(r, Lose)
    else PlusminusStep(r.(guessesLeft := s.guessesLeft - 1, hint := NoHint, answer := "", clock := Start(r.clock)), Continue)
  }

  /** Submit each answer in turn until the round ends or loses. */
  function Play(s: PlusminusRound, answers: seq<string>): (t: PlusminusStep)
    ensures t.round.question == s.question
    ensures s.question.Some? && t.outcome.Continue? ==>
      t.round.guessesLeft == s.guessesLeft - |answers|
      && forall k :: 0 <= k < |answers| ==> ClassicRound.ParseAnswer(answers[k]) != Some(s.question.value.respuesta)
    ensures t.outcome.RoundEnd? ==> t.outcome.report.category == ExactHits
    decreases |answers|
  {
    if |answers| == 0 then PlusminusStep(s, Continue)
    else
      var t := HandlePlusminusGuess(s.(answer := answers[0]));
      if t.outcome.Continue? then
        assert forall k :: 1 <= k < |answers| ==> answers[1..][k - 1] == answers[k];
        Play(t.round, answers[1..])
      else t
  }

  /** A round never outlasts its budget: with a question on screen, as many guesses
      as are left always end it, in a win or a loss. */
  lemma {:induction false} BudgetEndsRound(s: PlusminusRound, answers: seq<string>)
    requires s.question.Some?
    requires |answers| >= s.guessesLeft && |answers| >= 1
    ensures !Play(s, answers).outcome.Continue?
    decreases |answers|
  {
    var t := HandlePlusminusGuess(s.(answer := answers[0]));
    if t.outcome.Continue? {
      BudgetEndsRound(t.round, answers[1..]);
    }
  }

  /** The hook's clock is always the ten-second guess clock. */
  predicate Valid(s: PlusminusRound) {
    s.clock.initial == GuessSeconds && Countdown.Valid(s.clock)
  }

  /** Typing the secret at once, before the clock has moved, wins the whole budget
      as bonus. */
  lemma FirstGuessWins(s: PlusminusRound, pool: seq<Question>, pick: nat, roll: nat)
    requires Valid(s)
    requires |pool| > 0 && forall q :: q in pool ==> q.respuesta >= 0
    ensures
      var r := StartPlusminusRound(s, pool, false, pick, roll);
      var t := HandlePlusminusGuess(r.(answer := NumberFormat.FormatNumber(JsText.ShowNat(r.question.value.respuesta))));
      t.outcome == RoundEnd(RoundReport(75 + 25 * r.initialGuesses, ExactHits, 0, 25 * r.initialGuesses))
  {
    var r := StartPlusminusRound(s, pool, false, pick, roll);
    ClassicRound.ParseAnswerOfFormatted(r.question.value.respuesta);
  }
}

=== FILE: question_pool.dfy ===
/** Picking the next question without repeats (src/hooks/useQuestions.ts). Played
    questions are remembered by their text; once every question has been played
    the whole pool is used again. `Math.random()` becomes the caller's `pick`,
    taken modulo the number of candidates. */
module QuestionPool {
  import opened Wrappers
  import opened GameTypes
  import Arith

  /** The questions whose text has not been played, in pool order. */
  function Unplayed(pool: seq<Question>, played: seq<string>): (r: seq<Question>)
    ensures forall q :: q in r <==> q in pool && q.pregunta !in played
    ensures |r| <= |pool|
  {
    if |pool| == 0 then []
    else (if pool[0].pregunta in played then [] else [pool[0]]) + Unplayed(pool[1..], played)
  }

  /** Whether some question of the pool has not been played yet. */
  predicate HasUnplayed(pool: seq<Question>, played: seq<string>) {
    exists q :: q in pool && q.pregunta !in played
  }

  /** The result of `selectNewQuestion`: the question (`None` for `null`) and the
      played list afterwards. */
  datatype Selection = Selection(question: Option<Question>, played: seq<string>)

  /** The pool a selection draws from: the unplayed questions, or all of them
      when none is left. */
  function Candidates(pool: seq<Question>, played: seq<string>): (r: seq<Question>)
    ensures |pool| > 0 ==> |r| > 0
    ensures forall q :: q in r ==> q in pool
    ensures HasUnplayed(pool, played) ==> forall q :: q in r ==> q.pregunta !in played
    ensures !HasUnplayed(pool, played) ==> r == pool
  {
    var available := Unplayed(pool, played);
    if |available| > 0 then
      assert available[0] in available;
      available
    else
      pool
  }

  /** `selectNewQuestion`. */
  function SelectNewQuestion(pool: seq<Question>, played: seq<string>, loading: bool, pick: nat): (r: Selection)
    ensures r.question.None? <==> loading || |pool| == 0
    ensures r.question.Some? ==> r.question.value in pool
    ensures r.question.Some? && HasUnplayed(pool, played) ==> r.question.value.pregunta !in played
    ensures r.question.Some? ==> r.played == played + [r.question.value.pregunta]
    ensures r.question.None? ==> r.played == played
  {
    if loading || |pool| == 0 then Selection(None, played)
    else
      var candidates := Candidates(pool, played);
      var q := candidates[pick % |candidates|];
      Selection(Some(q), played + [q.pregunta])
  }

  /** `resetPlayedQuestions`. */
  function ResetPlayedQuestions(): (r: seq<string>)
    ensures |r| == 0
  {
    []
  }

  /** After a reset every question of the pool is a candidate again, in pool order. */
  lemma ResetRestoresPool(pool: seq<Question>)
    ensures Candidates(pool, ResetPlayedQuestions()) == pool
  {
    NothingPlayed(pool);
  }

  /** With nothing played, no question is filtered out. */
  lemma {:induction false} NothingPlayed(pool: seq<Question>)
    ensures Unplayed(pool, []) == pool
  {
    if |pool| > 0 {
      NothingPlayed(pool[1..]);
      assert [pool[0]] + pool[1..] == pool;
    }
  }

  function IndexOf(s: seq<Question>, q: Question): (i: nat)
    requires q in s
    ensures i < |s| && s[i] == q
  {
    if s[0] == q then 0 else 1 + IndexOf(s[1..], q)
  }

  /** Every question not yet played can be the one drawn, and so can every question
      of the pool once all have been played: the choice ranges over exactly the
      candidates. */
  lemma SelectionReachesEveryCandidate(pool: seq<Question>, played: seq<string>, q: Question)
    requires q in pool
    requires q.pregunta !in played || !HasUnplayed(pool, played)
    ensures exists pick: nat :: SelectNewQuestion(pool, played, false, pick).question == Some(q)
  {
    CandidateOf(pool, played, q);
    var candidates := Candidates(pool, played);
    var i := IndexOf(candidates, q);
    Arith.ModSmall(i, |candidates|);
    SelectsCandidate(pool, played, i);
  }

  /** A question of the pool is a candidate when it is unplayed or nothing is. */
  lemma CandidateOf(pool: seq<Question>, played: seq<string>, q: Question)
    requires q in pool
    requires q.pregunta !in played || !HasUnplayed(pool, played)
    ensures q in Candidates(pool, played)
  {
    if q.pregunta !in played {
      assert q in Unplayed(pool, played);
    }
  }

  /** A draw takes the candidate at `pick` modulo their number. */
  lemma SelectsCandidate(pool: seq<Question>, played: seq<string>, pick: nat)
    requires |pool| > 0
    ensures SelectNewQuestion(pool, played, false, pick).question
      == Some(Candidates(pool, played)[pick % |Candidates(pool, played)|])
  {
  }

  /** Drawing without a reset never repeats a question while the pool still has an
      unplayed one: after `k` draws from a pool of distinct texts, the played list
      has no duplicates as long as `k` does not exceed the pool. */
  lemma {:induction false} DrawsAreDistinct(pool: seq<Question>, played: seq<string>, picks: seq<nat>)
    requires NoDuplicates(played)
    requires forall t :: t in played ==> exists q :: q in pool && q.pregunta == t
    requires |picks| + |played| <= |Texts(pool)|
    ensures NoDuplicates(DrawAll(pool, played, picks))
    decreases |picks|
  {
    if |picks| > 0 {
      TextsCount(pool, played);
      var s := SelectNewQuestion(pool, played, false, picks[0]);
      assert |pool| > 0 by {
        assert |Texts(pool)| > 0;
      }
      var q := s.question.value;
      assert q.pregunta !in played;
      forall t | t in s.played
        ensures exists q' :: q' in pool && q'.pregunta == t
      {
        if t == q.pregunta {
          assert q in pool;
        } else {
          assert t in played;
        }
      }
      DrawsAreDistinct(pool, s.played, picks[1..]);
    }
  }

  predicate NoDuplicates(s: seq<string>) {
    forall i, j :: 0 <= i < j < |s| ==> s[i] != s[j]
  }

  /** The distinct texts of a pool. */
  function Texts(pool: seq<Question>): set<string> {
    set q | q in pool :: q.pregunta
  }

  /** While fewer distinct texts have been played than the pool holds, some question
      is still unplayed. */
  lemma TextsCount(pool: seq<Question>, played: seq<string>)
    requires NoDuplicates(played)
    requires |played| < |Texts(pool)|
    ensures HasUnplayed(pool, played)
  {
    var ps := set t | t in played;
    DistinctCard(played);
    if Texts(pool) <= ps {
      SubsetCard(Texts(pool), ps);
      assert false;
    }
    var t :| t in Texts(pool) && t !in ps;
    var q :| q in pool && q.pregunta == t;
  }

  lemma SubsetCard(a: set<string>, b: set<string>)
    requires a <= b
    ensures |a| <= |b|
  {
    assert b == a + (b - a);
  }

  lemma {:induction false} DistinctCard(s: seq<string>)
    requires NoDuplicates(s)
    ensures |set t | t in s| == |s|
  {
    if |s| > 0 {
      var init := s[..|s| - 1];
      DistinctCard(init);
      assert (set t | t in s) == (set t | t in init) + {s[|s| - 1]};
      assert s[|s| - 1] !in init;
    }
  }

  /** Draw once per pick, threading the played list. */
  function DrawAll(pool: seq<Question>, played: seq<string>, picks: seq<nat>): seq<string>
    decreases |picks|
  {
    if |picks| == 0 then played
    else DrawAll(pool, SelectNewQuestion(pool, played, false, picks[0]).played, picks[1..])
  }
}

=== FILE: question_validation.dfy ===
/** `isQuestion` and `coerceQuestion` (src/utils/questionValidation.ts): checking
    and repairing a question record read from a JSON file. */
module QuestionValidation {
  import opened Wrappers
  import opened GameTypes
  import opened JsText

  /** The properties of a question record. An object's other own properties are
      not modelled: an own `toString` or `valueOf` that is not a function would make
      reading the object as text or as a number throw, which this model leaves out. */
  datatype Field = Categoria | Pregunta | Respuesta | RangoMin | RangoMax | Informacion | Fuente | Activa
  {
    /** The property's name in the JSON file. */
    function Key(): string {
      match this
      case Categoria => "categoria"
      case Pregunta => "pregunta"
      case Respuesta => "respuesta"
      case RangoMin => "rango_min"
      case RangoMax => "rango_max"
      case Informacion => "informacion"
      case Fuente => "fuente"
      case Activa => "activa"
    }
  }

  /** A JavaScript value as JSON produces it, numbers restricted to integers. A
      property that is absent reads as `Undefined`; an array has no property a
      question record uses. */
  datatype JsValue =
    | Undefined
    | Null
    | Bool(b: bool)
    | Num(n: int)
    | Str(s: string)
    | Arr(elems: seq<JsValue>)
    | Obj(fields: map<Field, JsValue>)

  /** `obj[key]` on an object; any other value has none of the question's properties. */
  function Get(v: JsValue, f: Field): JsValue {
    if v.Obj? && f in v.fields then v.fields[f] else Undefined
  }

  /** The results of the `typeof` operator. */
  datatype JsType = UndefinedType | ObjectType | BooleanType | NumberType | StringType

  /** The `typeof` operator. */
  function TypeOf(v: JsValue): JsType {
    match v
    case Undefined => UndefinedType
    case Null => ObjectType
    case Bool(_) => BooleanType
    case Num(_) => NumberType
    case Str(_) => StringType
    case Arr(_) => ObjectType
    case Obj(_) => ObjectType
  }

  /** The abstract ToString operation (what `String(v)` and `parseInt` apply first).
      An array reads as `join(",")` of its elements, `null` and `undefined` ones
      as the empty string. */
  function ToString(v: JsValue): string
    decreases v
  {
    match v
    case Undefined => "undefined"
    case Null => "null"
    case Bool(b) => if b then "true" else "false"
    case Num(n) => Show(n)
    case Str(s) => s
    case Arr(es) =>
      Join(seq(|es|, i requires 0 <= i < |es| =>
        if es[i].Undefined? || es[i].Null? then "" else ToString(es[i])))
    case Obj(_) => "[object Object]"
  }

  /** The parts separated by commas. */
  function Join(parts: seq<string>): string {
    if |parts| == 0 then ""
    else if |parts| == 1 then parts[0]
    else parts[0] + "," + Join(parts[1..])
  }

  /** `v?.toString()`: `None` stands for `undefined`, the short circuit on
      `null` or `undefined`. */
  function OptionalString(v: JsValue): (r: Option<string>)
    ensures r.None? <==> v.Undefined? || v.Null?
    ensures v.Str? ==> r == Some(v.s)
  {
    if v.Undefined? || v.Null? then None else Some(ToString(v))
  }

  /** `x || fallback` for an optional string: an absent or empty string yields the fallback. */
  function OrElse(x: Option<string>, fallback: string): (r: string)
    ensures x.Some? && x.value != "" ==> r == x.value
    ensures x.None? || x.value == "" ==> r == fallback
    ensures |r| > 0 || |fallback| == 0
  {
    if x.Some? && x.value != "" then x.value else fallback
  }

  /** `parseInt(v, 10)`, with `None` for NaN, read off case by case; `ParseValueReadsString`
      shows it is `parseInt` of the value's string form. */
  function ParseValue(v: JsValue): Option<int> {
    match v
    case Num(n) => Some(n)
    case Str(s) => ParseInt(s)
    case Arr(_) => ParseInt(ToString(v))
    case _ => None
  }

  /** `isNaN(x) ? fallback : x` for a parsed integer. */
  function OrDefault(x: Option<int>, fallback: int): int {
    if x.Some? then x.value else fallback
  }

  /** JavaScript truthiness over the values modelled here. */
  predicate Truthy(v: JsValue) {
    match v
    case Undefined => false
    case Null => false
    case Bool(b) => b
    case Num(n) => n != 0
    case Str(s) => s != ""
    case Arr(_) => true
    case Obj(_) => true
  }

  /** Each field of a question record with the JavaScript type it must have. */
  function DeclaredType(f: Field): JsType {
    if f in {Respuesta, RangoMin, RangoMax} then NumberType else StringType
  }

  /** `isQuestion`: `None` when reading a property throws (a `null` or `undefined`
      argument), otherwise whether all eight fields have their declared types. */
  function IsQuestion(v: JsValue): (r: Option<bool>)
    ensures r.None? <==> v.Undefined? || v.Null?
  {
    if v.Undefined? || v.Null? then None
    else
      Some(TypeOf(Get(v, Categoria)) == StringType
        && TypeOf(Get(v, Pregunta)) == StringType
        && TypeOf(Get(v, Respuesta)) == NumberType
        && TypeOf(Get(v, RangoMin)) == NumberType
        && TypeOf(Get(v, RangoMax)) == NumberType
        && TypeOf(Get(v, Informacion)) == StringType
        && TypeOf(Get(v, Fuente)) == StringType
        && TypeOf(Get(v, Activa)) == StringType)
  }

  const NoCategory: string := "Sin Categoría"
  const DefaultActive: string := "SI"
  /** How far below and above the answer a missing range bound is placed. */
  const DefaultRangeWidth: int := 10

  /** `coerceQuestion`: a `Question` built from a loosely typed record, or `None`
      (JavaScript's `null`) when the record is not an object, has no question text
      or has no integer answer. */
  function CoerceQuestion(v: JsValue): (r: Option<Question>)
    ensures r.Some? <==>
      Truthy(v) && TypeOf(v) == ObjectType
      && OptionalString(Get(v, Pregunta)).Some? && OptionalString(Get(v, Pregunta)).value != ""
      && ParseValue(Get(v, Respuesta)).Some?
    ensures r.Some? ==> Some(r.value.pregunta) == OptionalString(Get(v, Pregunta))
    ensures r.Some? ==> Some(r.value.respuesta) == ParseValue(Get(v, Respuesta))
    ensures r.Some? ==> r.value.rangoMin == OrDefault(ParseValue(Get(v, RangoMin)), r.value.respuesta - DefaultRangeWidth)
    ensures r.Some? ==> r.value.rangoMax == OrDefault(ParseValue(Get(v, RangoMax)), r.value.respuesta + DefaultRangeWidth)
    ensures r.Some? ==> |r.value.pregunta| > 0 && |r.value.categoria| > 0 && |r.value.activa| > 0
    ensures r.Some? ==> forall i :: 0 <= i < |r.value.activa| ==> IsUpperFixed(r.value.activa[i])
    ensures r.Some? ==> r.value.categoria == OrElse(OptionalString(Get(v, Categoria)), NoCategory)
    ensures r.Some? ==> r.value.informacion == OrElse(OptionalString(Get(v, Informacion)), "")
    ensures r.Some? ==> r.value.fuente == OrElse(OptionalString(Get(v, Fuente)), "")
    ensures r.Some? ==> r.value.activa == Active(OptionalString(Get(v, Activa)))
  {
    if !Truthy(v) || TypeOf(v) != ObjectType then None
    else
      var pregunta := OptionalString(Get(v, Pregunta));
      if pregunta.None? || pregunta.value == "" then None
      else
        var respuesta := ParseValue(Get(v, Respuesta));
        if respuesta.None? then None
        else Some(Fill(v, pregunta.value, respuesta.value))
  }

  /** The question `coerceQuestion` builds once the text and the answer are known:
      the other fields are taken from the record or defaulted. */
  function Fill(v: JsValue, pregunta: string, respuesta: int): (q: Question)
    requires pregunta != ""
    ensures q.pregunta == pregunta && q.respuesta == respuesta
    ensures q.rangoMin == OrDefault(ParseValue(Get(v, RangoMin)), respuesta - DefaultRangeWidth)
    ensures q.rangoMax == OrDefault(ParseValue(Get(v, RangoMax)), respuesta + DefaultRangeWidth)
    ensures |q.categoria| > 0 && |q.activa| > 0
    ensures forall i :: 0 <= i < |q.activa| ==> IsUpperFixed(q.activa[i])
    ensures q.categoria == OrElse(OptionalString(Get(v, Categoria)), NoCategory)
    ensures q.informacion == OrElse(OptionalString(Get(v, Informacion)), "")
    ensures q.fuente == OrElse(OptionalString(Get(v, Fuente)), "")
    ensures q.activa == Active(OptionalString(Get(v, Activa)))
  {
    assert |NoCategory| > 0;
    Question(
      categoria := OrElse(OptionalString(Get(v, Categoria)), NoCategory),
      pregunta := pregunta,
      respuesta := respuesta,
      rangoMin := OrDefault(ParseValue(Get(v, RangoMin)), respuesta - DefaultRangeWidth),
      rangoMax := OrDefault(ParseValue(Get(v, RangoMax)), respuesta + DefaultRangeWidth),
      informacion := OrElse(OptionalString(Get(v, Informacion)), ""),
      fuente := OrElse(OptionalString(Get(v, Fuente)), ""),
      activa := Active(OptionalString(Get(v, Activa))))
  }

  /** `activa?.toString().toUpperCase() || 'SI'`, given `activa?.toString()`. */
  function Active(x: Option<string>): (a: string)
    ensures |a| > 0
    ensures forall i :: 0 <= i < |a| ==> IsUpperFixed(a[i])
    ensures x.Some? && ToUpper(x.value) != "" ==> a == ToUpper(x.value)
    ensures x.None? || ToUpper(x.value) == "" ==> a == DefaultActive
  {
    UpperOrDefault(x);
    assert |DefaultActive| > 0;
    OrElse(if x.None? then None else Some(ToUpper(x.value)), DefaultActive)
  }

  /** A question as its JSON record. */
  function ToJs(q: Question): (r: JsValue)
    ensures r.Obj?
  {
    Obj(map[
      Categoria := Str(q.categoria),
      Pregunta := Str(q.pregunta),
      Respuesta := Num(q.respuesta),
      RangoMin := Num(q.rangoMin),
      RangoMax := Num(q.rangoMax),
      Informacion := Str(q.informacion),
      Fuente := Str(q.fuente),
      Activa := Str(q.activa)])
  }

  /** A question that coercion leaves as it is: question text, category and
      `activa` are non-empty, and `activa` is already upper case. */
  predicate Settled(q: Question) {
    && q.pregunta != ""
    && q.categoria != ""
    && q.activa != ""
    && forall i :: 0 <= i < |q.activa| ==> IsUpperFixed(q.activa[i])
  }

  /** `isQuestion` accepts exactly the objects whose every field has its declared type. */
  lemma IsQuestionIff(v: JsValue)
    ensures IsQuestion(v) == Some(true) <==> v.Obj? && forall f: Field :: TypeOf(Get(v, f)) == DeclaredType(f)
  {
    if IsQuestion(v) == Some(true) {
      forall f: Field
        ensures TypeOf(Get(v, f)) == DeclaredType(f)
      {
        match f
        case Categoria =>
        case Pregunta =>
        case Respuesta =>
        case RangoMin =>
        case RangoMax =>
        case Informacion =>
        case Fuente =>
        case Activa =>
      }
    }
  }

  /** Every record written from a question passes `isQuestion`. */
  lemma WrittenRecordIsQuestion(q: Question)
    ensures IsQuestion(ToJs(q)) == Some(true)
  {
  }

  /** `parseInt` converts its argument to a string first: a number reads back as
      itself, and `undefined`, `null`, a boolean or an object reads as NaN. */
  lemma ParseValueReadsString(v: JsValue)
    ensures ParseValue(v) == ParseInt(ToString(v))
  {
    match v
    case Num(n) =>
      assert AllWhiteSpace("");
      assert "" + Show(n) + "" == Show(n);
      ParseIntShow("", n, "");
    case Str(_) =>
    case Undefined =>
      ParseIntNaN("undefined");
    case Null =>
      ParseIntNaN("null");
    case Bool(b) =>
      if b { ParseIntNaN("true"); } else { ParseIntNaN("false"); }
    case Arr(_) =>
    case Obj(_) =>
      ParseIntNaN("[object Object]");
  }

  /** An array of one element reads as that element: a record whose question text
      and answer are one-element arrays fails `isQuestion` but still coerces, with
      the text and the number inside. */
  lemma SingletonArraysCoerce(v: JsValue, text: string, n: int)
    requires v.Obj?
    requires Get(v, Pregunta) == Arr([Str(text)]) && text != ""
    requires Get(v, Respuesta) == Arr([Num(n)])
    ensures IsQuestion(v) == Some(false)
    ensures CoerceQuestion(v).Some?
    ensures CoerceQuestion(v).value.pregunta == text
    ensures CoerceQuestion(v).value.respuesta == n
  {
    SingletonReadsAsElement(Str(text));
    SingletonReadsAsElement(Num(n));
    assert OptionalString(Get(v, Pregunta)) == Some(text);
    assert ParseValue(Get(v, Respuesta)) == Some(n) by {
      assert AllWhiteSpace("");
      assert "" + Show(n) + "" == Show(n);
      ParseIntShow("", n, "");
    }
    assert TypeOf(Get(v, Pregunta)) == ObjectType;
  }

  /** `[e].toString()` is `e`'s string form when `e` is neither `null` nor `undefined`. */
  lemma SingletonReadsAsElement(e: JsValue)
    requires !e.Undefined? && !e.Null?
    ensures ToString(Arr([e])) == ToString(e)
  {
    var parts := seq(1, i requires 0 <= i < 1 => ToString(e));
    assert parts == [ToString(e)];
  }

  /** `activa` after coercion: upper-cased, or the default, which is upper case too. */
  lemma UpperOrDefault(x: Option<string>)
    ensures var a := OrElse(if x.None? then None else Some(ToUpper(x.value)), DefaultActive);
      forall i :: 0 <= i < |a| ==> IsUpperFixed(a[i])
  {
    if x.None? || ToUpper(x.value) == "" {
      assert IsUpperFixed('S') && IsUpperFixed('I');
      assert forall i :: 0 <= i < |DefaultActive| ==> DefaultActive[i] in {'S', 'I'};
    }
  }

  /** Round trip: coercing the record of a settled question gives the question back. */
  lemma CoerceWritten(q: Question)
    requires Settled(q)
    ensures CoerceQuestion(ToJs(q)) == Some(q)
  {
    var v := ToJs(q);
    RecordFields(q);
    FixedUpper(q.activa);
    assert Active(Some(q.activa)) == q.activa;
  }

  /** Each property of a question's record holds the matching field. */
  lemma RecordFields(q: Question)
    ensures var v := ToJs(q);
      && Get(v, Categoria) == Str(q.categoria)
      && Get(v, Pregunta) == Str(q.pregunta)
      && Get(v, Respuesta) == Num(q.respuesta)
      && Get(v, RangoMin) == Num(q.rangoMin)
      && Get(v, RangoMax) == Num(q.rangoMax)
      && Get(v, Informacion) == Str(q.informacion)
      && Get(v, Fuente) == Str(q.fuente)
      && Get(v, Activa) == Str(q.activa)
  {
  }

  /** Every coerced question is settled. */
  lemma CoercedIsSettled(v: JsValue)
    requires CoerceQuestion(v).Some?
    ensures Settled(CoerceQuestion(v).value)
  {
  }

  /** Coercion is idempotent: writing a coerced question out and coercing it again
      changes nothing. */
  lemma CoerceIdempotent(v: JsValue)
    requires CoerceQuestion(v).Some?
    ensures CoerceQuestion(ToJs(CoerceQuestion(v).value)) == CoerceQuestion(v)
  {
    CoercedIsSettled(v);
    CoerceWritten(CoerceQuestion(v).value);
  }

  /** A record that passes `isQuestion` and has question text keeps its numbers
      through coercion. */
  lemma CoerceKeepsTypedNumbers(v: JsValue)
    requires IsQuestion(v) == Some(true)
    requires Get(v, Pregunta) != Str("")
    ensures CoerceQuestion(v).Some?
    ensures CoerceQuestion(v).value.respuesta == Get(v, Respuesta).n
    ensures CoerceQuestion(v).value.rangoMin == Get(v, RangoMin).n
    ensures CoerceQuestion(v).value.rangoMax == Get(v, RangoMax).n
  {
    assert TypeOf(Get(v, Pregunta)) == DeclaredType(Pregunta);
    assert TypeOf(Get(v, Respuesta)) == DeclaredType(Respuesta);
    assert TypeOf(Get(v, RangoMin)) == DeclaredType(RangoMin);
    assert TypeOf(Get(v, RangoMax)) == DeclaredType(RangoMax);
  }
}

=== FILE: room_server.dfy ===
/** The online room server (server/index.js): a registry of two-player rooms, kept in
    a plain JavaScript object, and the game state each room runs. Every socket event
    is one transition `Step` from server state to server state; randomness arrives
    as the event's `pick`, the socket's id and the generated room id as fields. */
module RoomServer {
  import opened Wrappers
  import opened GameTypes
  import opened JsText
  import opened JsObject
  import Arith

  /** A question's `id` as `includes` compares it; a record without one has the id
      `undefined`, which equals every other missing id. */
  datatype QuestionId = NoId | Id(key: string)

  /** A question of the server's bank together with its id. */
  datatype ServerQuestion = ServerQuestion(id: QuestionId, item: Question)

  datatype ServerPlayer = ServerPlayer(id: string, name: string, isHost: bool, score: int)

  datatype Screen = Playing | AnswerResult | GameOver

  /** `CASI_CASI` (exact), `CASI` (within 10) or `LEJOS`. */
  datatype ResultType = CasiCasi | Casi | Lejos

  datatype LastAnswer = LastAnswer(
    userAnswer: string, scoreAwarded: int, resultType: ResultType, timeUsed: int, timeBonus: int)

  /** A room's game. Its `players` array is the room's own array, so the players
      live in `Room` only. */
  datatype GameState = GameState(
    screen: Screen,
    question: ServerQuestion,
    currentPlayerIndex: nat,
    round: nat,
    numberOfRounds: nat,
    classicTimer: nat,
    usedQuestions: seq<QuestionId>,
    lastAnswer: Option<LastAnswer>)

  datatype Room = Room(players: seq<ServerPlayer>, gameState: Option<GameState>)

  /** The question bank, the `rooms` object, and the order its keys were created in. */
  datatype Server = Server(questions: seq<ServerQuestion>, rooms: map<string, Room>, created: seq<string>)

  /** A socket event. `roomId` of `CreateRoom` is the generated id; `pick` stands for
      `Math.floor(Math.random() * n)`, taken modulo the number of candidates. */
  datatype Event =
    | CreateRoom(socket: string, playerName: string, roomId: string)
    | JoinRoom(socket: string, roomId: string, playerName: string)
    | StartGame(socket: string, roomId: string, pick: nat)
    | SubmitAnswer(socket: string, roomId: string, answer: string)
    | NextState(socket: string, roomId: string, pick: nat)
    | Disconnect(socket: string)

  /** What the acknowledgement callback receives. */
  datatype Ack = NoAck | RoomCreated(roomId: string) | Joined(players: seq<ServerPlayer>) | JoinRefused

  /** The server's state after an event, or `Crash`: a `TypeError` thrown inside a
      socket listener, which nothing catches, so the process ends. */
  datatype Outcome = Next(server: Server, ack: Ack) | Crash

  const MaxRoomPlayers: nat := 2
  const RoundsPerGame: nat := 5
  const TurnSeconds: nat := 30
  const ExactPoints: int := 100
  const NearPoints: int := 50
  const ClosePoints: int := 25
  /** `timeUsed` of every answer; the server does not time turns. */
  const SimulatedTimeUsed: int := 10

  function NewServer(questions: seq<ServerQuestion>): Server {
    Server(questions, map[], [])
  }

  // ---------------------------------------------------------------- questions

  /** The questions whose id is not excluded. */
  function Available(pool: seq<ServerQuestion>, exclude: seq<QuestionId>): (r: seq<ServerQuestion>)
    ensures forall q :: q in r <==> q in pool && q.id !in exclude
  {
    if |pool| == 0 then []
    else (if pool[0].id in exclude then [] else [pool[0]]) + Available(pool[1..], exclude)
  }

  /** `getNewQuestion(excludeIds)`: `None` (JavaScript's `null`) when every question's
      id is excluded, otherwise the `pick`-th available question. */
  function GetNewQuestion(pool: seq<ServerQuestion>, exclude: seq<QuestionId>, pick: nat): (r: Option<ServerQuestion>)
    ensures r.None? <==> forall q :: q in pool ==> q.id in exclude
    ensures r.Some? ==> r.value in pool && r.value.id !in exclude
  {
    var available := Available(pool, exclude);
    if |available| == 0 then None
    else
      assert available[pick % |available|] in available;
      Some(available[pick % |available|])
  }

  /** Every question that is not excluded is drawn by some random value. */
  lemma EveryAvailableQuestionCanBeDrawn(pool: seq<ServerQuestion>, exclude: seq<QuestionId>, q: ServerQuestion)
    requires q in pool && q.id !in exclude
    ensures exists pick: nat :: GetNewQuestion(pool, exclude, pick) == Some(q)
  {
    var available := Available(pool, exclude);
    var i :| 0 <= i < |available| && available[i] == q;
    Arith.ModSmall(i, |available|);
    assert GetNewQuestion(pool, exclude, i) == Some(q);
  }

  /** With no question carrying an id, every question shares the id `undefined`, so
      once one is used no other can be drawn. */
  lemma MissingIdsAllowOneQuestion(pool: seq<ServerQuestion>, pick: nat)
    requires forall q :: q in pool ==> q.id == NoId
    ensures GetNewQuestion(pool, [NoId], pick) == None
  {
  }

  // ---------------------------------------------------------------- lookups

  /** What `rooms[roomId]` reads: an own room, one of the values every object
      inherits (truthy, with no `players` or `gameState`), or `undefined`. */
  datatype Lookup = OwnRoom(room: Room) | InheritedValue | NoRoom

  /** `rooms[roomId]`; `inherits` says whether the names of `Object.prototype` are
      visible, as they are on the server's `{}`. */
  function Find(s: Server, roomId: string, inherits: bool): (r: Lookup)
    ensures r.OwnRoom? <==> roomId in s.rooms
    ensures r.OwnRoom? ==> r.room == s.rooms[roomId]
    ensures r.InheritedValue? <==> inherits && roomId !in s.rooms && roomId in InheritedNames
  {
    if roomId in s.rooms then OwnRoom(s.rooms[roomId])
    else if inherits && roomId in InheritedNames then InheritedValue
    else NoRoom
  }

  /** `players.find(p => p.id === socket)`. */
  function FindPlayer(players: seq<ServerPlayer>, socket: string): (r: Option<ServerPlayer>)
    ensures r.None? <==> forall p :: p in players ==> p.id != socket
    ensures r.Some? ==> exists i :: 0 <= i < |players| && players[i] == r.value && r.value.id == socket
                          && forall j :: 0 <= j < i ==> players[j].id != socket
  {
    if |players| == 0 then None
    else if players[0].id == socket then Some(players[0])
    else
      var r := FindPlayer(players[1..], socket);
      assert forall j :: 1 <= j < |players| ==> players[j] == players[1..][j - 1];
      r
  }

  /** `room.players.find(p => p.id === socket.id)?.isHost`. */
  predicate SentByHost(players: seq<ServerPlayer>, socket: string) {
    FindPlayer(players, socket).Some? && FindPlayer(players, socket).value.isHost
  }

  // ---------------------------------------------------------------- create-room

  /** A room id `Math.random().toString(36).substring(2, 7)` can produce: at most five
      base-36 digits. */
  predicate GeneratedRoomId(roomId: string) {
    |roomId| <= 5 && forall i :: 0 <= i < |roomId| ==> IsDigit(roomId[i]) || 'a' <= roomId[i] <= 'z'
  }

  /** The creator as the room's only player. */
  function Host(socket: string, name: string): ServerPlayer {
    ServerPlayer(socket, name, true, 0)
  }

  /** `create-room`: store a room holding only its host and no game, replacing any
      room already stored under the id (the id keeps its place in key order). */
  function CreateRoomOf(s: Server, socket: string, name: string, roomId: string): (r: Outcome)
    requires roomId != "__proto__"
    ensures r.Next? && r.ack == RoomCreated(roomId) && r.server.questions == s.questions
    ensures r.server.rooms == s.rooms[roomId := Room([Host(socket, name)], None)]
    ensures forall k :: k in r.server.created <==> k in s.created || k == roomId
  {
    Next(Server(s.questions, s.rooms[roomId := Room([Host(socket, name)], None)],
                if roomId in s.created then s.created else s.created + [roomId]),
         RoomCreated(roomId))
  }

  // ---------------------------------------------------------------- join-room

  /** `join-room`: a room that exists and has fewer than two players takes the
      joiner as a non-host with no points; otherwise nothing changes. */
  function JoinRoomOf(s: Server, socket: string, roomId: string, name: string, inherits: bool): (r: Outcome)
    ensures r.Crash? <==> Find(s, roomId, inherits).InheritedValue?
    ensures r.Next? ==> r.server.questions == s.questions && r.server.created == s.created
    ensures r.Next? && r.ack.Joined? <==> roomId in s.rooms && |s.rooms[roomId].players| < MaxRoomPlayers
    ensures r.Next? && r.ack.Joined? ==>
      && r.ack.players == s.rooms[roomId].players + [ServerPlayer(socket, name, false, 0)]
      && r.server.rooms == s.rooms[roomId := s.rooms[roomId].(players := r.ack.players)]
    ensures r.Next? && !r.ack.Joined? ==> r.server == s && r.ack == JoinRefused
  {
    match Find(s, roomId, inherits)
    case InheritedValue => Crash
    case NoRoom => Next(s, JoinRefused)
    case OwnRoom(room) =>
      if |room.players| < MaxRoomPlayers then
        var players := room.players + [ServerPlayer(socket, name, false, 0)];
        Next(s.(rooms := s.rooms[roomId := room.(players := players)]), Joined(players))
      else Next(s, JoinRefused)
  }

  // ---------------------------------------------------------------- start-game

  /** `createInitialGameState`: `None` when no first question can be drawn (the
      source then reads `.id` of `null`). */
  function InitialGameState(pool: seq<ServerQuestion>, pick: nat): (r: Option<GameState>)
    ensures r.None? <==> |pool| == 0
    ensures r.Some? ==>
      var g := r.value;
      && g.screen == Playing && g.question in pool
      && g.currentPlayerIndex == 0 && g.round == 1
      && g.numberOfRounds == RoundsPerGame && g.classicTimer == TurnSeconds
      && g.usedQuestions == [g.question.id] && g.lastAnswer.None?
  {
    match GetNewQuestion(pool, [], pick)
    case None => None
    case Some(q) => Some(GameState(Playing, q, 0, 1, RoundsPerGame, TurnSeconds, [q.id], None))
  }

  /** `start-game`: only the room's host (the first player with the sender's id)
      starts a game; it replaces any game running, and scores are kept. */
  function StartGameOf(s: Server, socket: string, roomId: string, pick: nat, inherits: bool): (r: Outcome)
    ensures r.Crash? <==>
      Find(s, roomId, inherits).InheritedValue?
      || (roomId in s.rooms && SentByHost(s.rooms[roomId].players, socket) && |s.questions| == 0)
    ensures r.Next? ==> r.ack == NoAck
    ensures r.Next? && !(roomId in s.rooms && SentByHost(s.rooms[roomId].players, socket)) ==> r.server == s
    ensures r.Next? && roomId in s.rooms && SentByHost(s.rooms[roomId].players, socket) ==>
      && InitialGameState(s.questions, pick).Some?
      && r.server == s.(rooms := s.rooms[roomId := s.rooms[roomId].(gameState := InitialGameState(s.questions, pick))])
  {
    match Find(s, roomId, inherits)
    case InheritedValue => Crash
    case NoRoom => Next(s, NoAck)
    case OwnRoom(room) =>
      if !SentByHost(room.players, socket) then Next(s, NoAck)
      else
        match InitialGameState(s.questions, pick)
        case None => Crash
        case Some(g) => Next(s.(rooms := s.rooms[roomId := room.(gameState := Some(g))]), NoAck)
  }

  // ---------------------------------------------------------------- submit-answer

  function Abs(x: int): nat {
    if x < 0 then -x else x
  }

  /** The points and result type of an answer; `parsed` is `None` when `parseInt`
      gave NaN, which fails every comparison. */
  datatype Scored = Scored(points: int, result: ResultType)

  function ScoreAnswer(respuesta: int, parsed: Option<int>): (r: Scored)
    ensures r.points == ExactPoints <==> parsed == Some(respuesta)
    ensures r.points > 0 <==> parsed.Some? && Abs(respuesta - parsed.value) <= 10
    ensures r.points == NearPoints <==> parsed.Some? && 0 < Abs(respuesta - parsed.value) <= 5
    ensures r.points == ClosePoints <==> parsed.Some? && 5 < Abs(respuesta - parsed.value) <= 10
    ensures r.points >= 0
    ensures r.result == CasiCasi <==> parsed == Some(respuesta)
    ensures r.result == Casi <==> parsed.Some? && 0 < Abs(respuesta - parsed.value) <= 10
  {
    match parsed
    case None => Scored(0, Lejos)
    case Some(a) =>
      var diff := Abs(respuesta - a);
      var points := if diff == 0 then ExactPoints else if diff <= 5 then NearPoints else if diff <= 10 then ClosePoints else 0;
      Scored(points, if diff == 0 then CasiCasi else if diff <= 10 then Casi else Lejos)
  }

  /** A closer answer never scores less, and an unreadable one scores least. */
  lemma CloserAnswerNeverScoresLess(respuesta: int, a: int, b: int)
    requires Abs(respuesta - a) <= Abs(respuesta - b)
    ensures ScoreAnswer(respuesta, Some(a)).points >= ScoreAnswer(respuesta, Some(b)).points
    ensures ScoreAnswer(respuesta, Some(b)).points >= ScoreAnswer(respuesta, None).points
  {
  }

  /** The server does not strip thousands separators: `"1.234"` reads as 1, so it
      is far from 1234 but exact for 1. */
  lemma SeparatedAnswerReadsAsFirstGroup()
    ensures ScoreAnswer(1234, ParseInt("1.234")) == Scored(0, Lejos)
    ensures ScoreAnswer(1, ParseInt("1.234")) == Scored(ExactPoints, CasiCasi)
  {
    ParseIntStopsAtSeparator();
  }

  /** `submit-answer`: score the answer against the room's question, add the points
      to the current player (there is no check of who sent it or of the screen) and
      show the result. Reading the current player past the end of the list throws. */
  function SubmitAnswerOf(s: Server, roomId: string, answer: string, inherits: bool): (r: Outcome)
    ensures !(roomId in s.rooms && s.rooms[roomId].gameState.Some?) ==> r == Next(s, NoAck)
    ensures roomId in s.rooms && s.rooms[roomId].gameState.Some? ==>
      var room := s.rooms[roomId];
      var g := room.gameState.value;
      var scored := ScoreAnswer(g.question.item.respuesta, ParseInt(answer));
      && (r.Crash? <==> g.currentPlayerIndex >= |room.players|)
      && (r.Next? ==>
            && r.ack == NoAck && r.server.questions == s.questions && r.server.created == s.created
            && r.server.rooms.Keys == s.rooms.Keys
            && (forall k :: k in s.rooms && k != roomId ==> r.server.rooms[k] == s.rooms[k])
            && |r.server.rooms[roomId].players| == |room.players|
            && (forall i :: 0 <= i < |room.players| && i != g.currentPlayerIndex ==>
                  r.server.rooms[roomId].players[i] == room.players[i])
            && r.server.rooms[roomId].players[g.currentPlayerIndex]
                 == room.players[g.currentPlayerIndex].(score := room.players[g.currentPlayerIndex].score + scored.points)
            && r.server.rooms[roomId].gameState == Some(g.(screen := AnswerResult,
                 lastAnswer := Some(LastAnswer(answer, scored.points, scored.result, SimulatedTimeUsed, 0)))))
  {
    match Find(s, roomId, inherits)
    case InheritedValue => Next(s, NoAck)
    case NoRoom => Next(s, NoAck)
    case OwnRoom(room) =>
      if room.gameState.None? then Next(s, NoAck)
      else
        var g := room.gameState.value;
        var scored := ScoreAnswer(g.question.item.respuesta, ParseInt(answer));
        if g.currentPlayerIndex >= |room.players| then Crash
        else
          var p := room.players[g.currentPlayerIndex];
          var players := room.players[g.currentPlayerIndex := p.(score := p.score + scored.points)];
          var g' := g.(screen := AnswerResult,
                       lastAnswer := Some(LastAnswer(answer, scored.points, scored.result, SimulatedTimeUsed, 0)));
          Next(s.(rooms := s.rooms[roomId := Room(players, Some(g'))]), NoAck)
  }

  // ---------------------------------------------------------------- next-state

  /** A game after `next-state`, or `Exhausted` when no unused question is left (the
      source then reads `.id` of `null`). */
  datatype GameStep = Advanced(game: GameState) | Exhausted

  /** `next-state` on a game of `n` players: pass the turn on, counting a round each
      time it returns to the first player; past the last round the game is over and
      nothing else changes, otherwise the next player gets an unused question. */
  function NextGame(g: GameState, n: nat, pool: seq<ServerQuestion>, pick: nat): (r: GameStep)
    requires n > 0
    ensures r.Advanced? ==> r.game.numberOfRounds == g.numberOfRounds && r.game.classicTimer == g.classicTimer
    ensures r.Advanced? ==> r.game.round == if (g.currentPlayerIndex + 1) % n == 0 then g.round + 1 else g.round
    ensures r.Advanced? && r.game.round > g.numberOfRounds ==>
      r.game == g.(screen := GameOver, round := r.game.round)
    ensures r.Exhausted? ==> forall q :: q in pool ==> q.id in g.usedQuestions
    ensures r.Advanced? && r.game.round <= g.numberOfRounds ==>
      && r.game.screen == Playing
      && r.game.currentPlayerIndex == (g.currentPlayerIndex + 1) % n
      && r.game.question in pool && r.game.question.id !in g.usedQuestions
      && r.game.usedQuestions == g.usedQuestions + [r.game.question.id]
      && r.game.lastAnswer == g.lastAnswer
  {
    var next := (g.currentPlayerIndex + 1) % n;
    var round := if next == 0 then g.round + 1 else g.round;
    if round > g.numberOfRounds then Advanced(g.(screen := GameOver, round := round))
    else
      match GetNewQuestion(pool, g.usedQuestions, pick)
      case None => Exhausted
      case Some(q) =>
        Advanced(g.(screen := Playing, currentPlayerIndex := next, round := round,
                    question := q, usedQuestions := g.usedQuestions + [q.id]))
  }

  /** How many turns of a game have been played before the current one. */
  function TurnsPlayed(g: GameState, n: nat): int {
    (g.round - 1) * n + g.currentPlayerIndex
  }

  /** Turn order: each `next-state` of a running game moves on by exactly one turn,
      and the game is over exactly after the last player's turn of the last round,
      so each of the `n` players gets `numberOfRounds` questions. */
  lemma NextStateCountsTurns(g: GameState, n: nat, pool: seq<ServerQuestion>, pick: nat)
    requires n > 0 && g.currentPlayerIndex < n && 1 <= g.round <= g.numberOfRounds
    requires NextGame(g, n, pool, pick).Advanced?
    ensures NextGame(g, n, pool, pick).game.screen == GameOver <==> TurnsPlayed(g, n) + 1 == g.numberOfRounds * n
    ensures NextGame(g, n, pool, pick).game.screen != GameOver ==>
      && NextGame(g, n, pool, pick).game.currentPlayerIndex < n
      && TurnsPlayed(NextGame(g, n, pool, pick).game, n) == TurnsPlayed(g, n) + 1
  {
    var r := NextGame(g, n, pool, pick).game;
    var c := g.currentPlayerIndex;
    if c + 1 < n {
      Arith.ModSmall(c + 1, n);
      assert r.round == g.round;
      TurnArithmetic(g.round - 1, g.numberOfRounds, n, c);
    } else {
      Arith.ModSelf(n);
      assert r.round == g.round + 1;
      RoundEnd(g.round, n);
      if g.round < g.numberOfRounds {
        Arith.StrictMul(g.round, g.numberOfRounds, n);
        assert r.currentPlayerIndex == 0;
      }
    }
  }

  /** The turn after the last player's turn of round `a` opens round `a + 1`. */
  lemma RoundEnd(a: int, n: int)
    ensures (a - 1) * n + n == a * n
  {
  }

  /** Turn `a * n + c` of a game of `b` rounds of `n` turns is not its last while
      `a < b` and `c + 1 < n`. */
  lemma TurnArithmetic(a: int, b: int, n: int, c: int)
    requires 0 <= a < b && 0 <= c && c + 1 < n
    ensures a * n + c + 1 < b * n
  {
    Arith.StrictMul(a, b, n);
    assert (a + 1) * n == a * n + n;
    Arith.MulMono(a + 1, b, n);
  }

  /** `next-state`: as `NextGame` on the room's game, with the room's player count. */
  function NextStateOf(s: Server, roomId: string, pick: nat, inherits: bool): (r: Outcome)
    requires roomId in s.rooms ==> |s.rooms[roomId].players| > 0
    ensures !(roomId in s.rooms && s.rooms[roomId].gameState.Some?) ==> r == Next(s, NoAck)
    ensures roomId in s.rooms && s.rooms[roomId].gameState.Some? ==>
      var room := s.rooms[roomId];
      var step := NextGame(room.gameState.value, |room.players|, s.questions, pick);
      && (r.Crash? <==> step.Exhausted?)
      && (r.Next? ==> r == Next(s.(rooms := s.rooms[roomId := room.(gameState := Some(step.game))]), NoAck))
  {
    match Find(s, roomId, inherits)
    case InheritedValue => Next(s, NoAck)
    case NoRoom => Next(s, NoAck)
    case OwnRoom(room) =>
      if room.gameState.None? then Next(s, NoAck)
      else
        match NextGame(room.gameState.value, |room.players|, s.questions, pick)
        case Exhausted => Crash
        case Advanced(g) => Next(s.(rooms := s.rooms[roomId := room.(gameState := Some(g))]), NoAck)
  }

  // ---------------------------------------------------------------- disconnect

  predicate HasPlayer(room: Room, socket: string) {
    exists p :: p in room.players && p.id == socket
  }

  /** The first key of `keys` naming a room that holds the socket (the loop's `break`). */
  function FirstRoomWith(keys: seq<string>, rooms: map<string, Room>, socket: string): (r: Option<string>)
    ensures r.None? <==> forall k :: k in keys && k in rooms ==> !HasPlayer(rooms[k], socket)
    ensures r.Some? ==> r.value in keys && r.value in rooms && HasPlayer(rooms[r.value], socket)
    ensures r.Some? ==> exists i :: 0 <= i < |keys| && keys[i] == r.value
                          && forall j :: 0 <= j < i ==> !(keys[j] in rooms && HasPlayer(rooms[keys[j]], socket))
  {
    if |keys| == 0 then None
    else if keys[0] in rooms && HasPlayer(rooms[keys[0]], socket) then Some(keys[0])
    else
      var r := FirstRoomWith(keys[1..], rooms, socket);
      assert forall j :: 1 <= j < |keys| ==> keys[j] == keys[1..][j - 1];
      r
  }

  /** `players.findIndex(p => p.id === socket)` for a socket that is present. */
  function PlayerIndex(players: seq<ServerPlayer>, socket: string): (i: nat)
    requires exists p :: p in players && p.id == socket
    ensures i < |players| && players[i].id == socket
    ensures forall j :: 0 <= j < i ==> players[j].id != socket
  {
    if players[0].id == socket then 0
    else
      assert players[1..][0] == players[1] || true;
      assert exists p :: p in players[1..] && p.id == socket by {
        var p :| p in players && p.id == socket;
        assert p != players[0];
      }
      1 + PlayerIndex(players[1..], socket)
  }

  /** `keys` without `k`. */
  function Without(keys: seq<string>, k: string): (r: seq<string>)
    ensures forall x :: x in r <==> x in keys && x != k
  {
    if |keys| == 0 then []
    else (if keys[0] == k then [] else [keys[0]]) + Without(keys[1..], k)
  }

  /** `disconnect`: in `for...in` order, the first room holding the socket loses
      that player (its first entry); a room left empty is deleted. Other rooms are
      untouched, even when they hold the same socket. */
  function DisconnectOf(s: Server, socket: string): (r: Outcome)
    ensures r.Next? && r.ack == NoAck && r.server.questions == s.questions
    ensures (forall k :: k in s.created && k in s.rooms ==> !HasPlayer(s.rooms[k], socket)) ==> r.server == s
    ensures FirstRoomWith(IterationOrder(s.created), s.rooms, socket).Some? ==>
      var k := FirstRoomWith(IterationOrder(s.created), s.rooms, socket).value;
      var players := s.rooms[k].players;
      var i := PlayerIndex(players, socket);
      var rest := players[..i] + players[i + 1..];
      && (forall x :: x in s.rooms && x != k ==> x in r.server.rooms && r.server.rooms[x] == s.rooms[x])
      && (k in r.server.rooms <==> |rest| > 0)
      && (k in r.server.rooms ==> r.server.rooms[k] == s.rooms[k].(players := rest))
      && (forall x :: x in r.server.rooms ==> x in s.rooms)
      && (forall x :: x in r.server.created <==> x in s.created && (x != k || |rest| > 0))
  {
    match FirstRoomWith(IterationOrder(s.created), s.rooms, socket)
    case None =>
      assert forall k :: k in s.created ==> k in IterationOrder(s.created);
      Next(s, NoAck)
    case Some(k) => Next(LeaveRoom(s, k, socket), NoAck)
  }

  /** Room `k` without the socket's first entry, deleted when that leaves it empty. */
  function LeaveRoom(s: Server, k: string, socket: string): (r: Server)
    requires k in s.rooms && HasPlayer(s.rooms[k], socket)
    ensures var players := s.rooms[k].players;
      var i := PlayerIndex(players, socket);
      var rest := players[..i] + players[i + 1..];
      && |rest| == |players| - 1
      && (|rest| == 0 ==> r == Server(s.questions, s.rooms - {k}, Without(s.created, k)))
      && (|rest| > 0 ==> r == s.(rooms := s.rooms[k := s.rooms[k].(players := rest)]))
  {
    var room := s.rooms[k];
    var i := PlayerIndex(room.players, socket);
    var rest := room.players[..i] + room.players[i + 1..];
    if |rest| == 0 then Server(s.questions, s.rooms - {k}, Without(s.created, k))
    else s.(rooms := s.rooms[k := room.(players := rest)])
  }

  // ---------------------------------------------------------------- events

  /** An event the socket layer can deliver: created room ids come from the
      generator. */
  predicate WellFormed(e: Event) {
    e.CreateRoom? ==> GeneratedRoomId(e.roomId)
  }

  /** Every stored room has a player (a room left empty is deleted at once). */
  predicate Occupied(s: Server) {
    forall k :: k in s.rooms ==> |s.rooms[k].players| > 0
  }

  lemma GeneratedIdIsOwnKey(roomId: string)
    requires GeneratedRoomId(roomId)
    ensures roomId != "__proto__"
  {
    assert |"__proto__"| == 9;
  }

  /** One event, with the names of `Object.prototype` visible (`inherits`) or not. */
  function Handle(s: Server, e: Event, inherits: bool): (r: Outcome)
    requires WellFormed(e) && Occupied(s)
    ensures r.Next? ==> r.server.questions == s.questions
    ensures e.CreateRoom? ==> r.Next? && r.ack == RoomCreated(e.roomId)
    ensures e.Disconnect? ==> r.Next? && r.ack == NoAck
    ensures r.Crash? && e.JoinRoom? ==> inherits && e.roomId in InheritedNames && e.roomId !in s.rooms
    ensures r.Crash? && e.StartGame? ==>
      (inherits && e.roomId in InheritedNames && e.roomId !in s.rooms) || |s.questions| == 0
  {
    match e
    case CreateRoom(socket, name, roomId) =>
      GeneratedIdIsOwnKey(roomId);
      CreateRoomOf(s, socket, name, roomId)
    case JoinRoom(socket, roomId, name) => JoinRoomOf(s, socket, roomId, name, inherits)
    case StartGame(socket, roomId, pick) => StartGameOf(s, socket, roomId, pick, inherits)
    case SubmitAnswer(_, roomId, answer) => SubmitAnswerOf(s, roomId, answer, inherits)
    case NextState(_, roomId, pick) => NextStateOf(s, roomId, pick, inherits)
    case Disconnect(socket) => DisconnectOf(s, socket)
  }

  /** The server as written: `rooms` is `{}`. */
  function Step(s: Server, e: Event): (r: Outcome)
    requires WellFormed(e) && Occupied(s)
    ensures (e.JoinRoom? || e.StartGame?) && e.roomId in InheritedNames && e.roomId !in s.rooms ==> r == Crash
    ensures !((e.JoinRoom? || e.StartGame?) && e.roomId in InheritedNames && e.roomId !in s.rooms) ==>
      r == StepIntended(s, e)
  {
    Handle(s, e, true)
  }

  /** The server with an own-property lookup (`Object.hasOwn` or a `Map`). */
  function StepIntended(s: Server, e: Event): (r: Outcome)
    requires WellFormed(e) && Occupied(s)
    ensures e.CreateRoom? || e.JoinRoom? || e.Disconnect? ==> r.Next?
    ensures r.Crash? && e.StartGame? ==> |s.questions| == 0
  {
    Handle(s, e, false)
  }

  /** A room id naming an `Object.prototype` property makes `join-room` read
      `players.length` of `undefined`, which ends the server. */
  lemma InheritedRoomNameCrashes(questions: seq<ServerQuestion>)
    ensures Step(NewServer(questions), JoinRoom("s1", "constructor", "Ana")) == Crash
    ensures Step(NewServer(questions), StartGame("s1", "toString", 0)) == Crash
  {
    assert "constructor" in InheritedNames;
    assert "toString" in InheritedNames;
  }

  /** With own-property lookup, joining or starting never crashes on the room
      lookup: `start-game` crashes only for the host, with an empty question bank. */
  lemma OwnLookupNeverCrashesOnRoomNames(s: Server, e: Event)
    requires Occupied(s)
    requires e.JoinRoom? || e.StartGame?
    ensures e.JoinRoom? ==> StepIntended(s, e).Next?
    ensures e.StartGame? && StepIntended(s, e).Crash? ==>
      e.roomId in s.rooms && SentByHost(s.rooms[e.roomId].players, e.socket) && |s.questions| == 0
  {
  }

  // ---------------------------------------------------------------- invariant

  predicate NoDuplicateKeys(ks: seq<string>) {
    forall i, j :: 0 <= i < j < |ks| ==> ks[i] != ks[j]
  }

  predicate NoRepeatedQuestion(ids: seq<QuestionId>) {
    forall i, j :: 0 <= i < j < |ids| ==> ids[i] != ids[j]
  }

  /** A game's question comes from the bank and is the last one used, and no
      question id is used twice in a game. */
  predicate GameValid(g: GameState, pool: seq<ServerQuestion>) {
    && g.question in pool
    && |g.usedQuestions| > 0
    && g.usedQuestions[|g.usedQuestions| - 1] == g.question.id
    && NoRepeatedQuestion(g.usedQuestions)
  }

  /** A room holds one or two players. */
  predicate RoomValid(room: Room, pool: seq<ServerQuestion>) {
    && 0 < |room.players| <= MaxRoomPlayers
    && (room.gameState.Some? ==> GameValid(room.gameState.value, pool))
  }

  predicate Valid(s: Server) {
    && NoDuplicateKeys(s.created)
    && (forall k :: k in s.rooms ==> k in s.created)
    && (forall k :: k in s.created ==> k in s.rooms)
    && (forall k :: k in s.rooms ==> RoomValid(s.rooms[k], s.questions))
  }

  lemma NewServerValid(questions: seq<ServerQuestion>)
    ensures Valid(NewServer(questions))
  {
  }

  lemma ValidIsOccupied(s: Server)
    requires Valid(s)
    ensures Occupied(s)
  {
  }

  lemma WithoutKeepsNoDuplicates(keys: seq<string>, k: string)
    requires NoDuplicateKeys(keys)
    ensures NoDuplicateKeys(Without(keys, k))
  {
    if |keys| > 0 {
      WithoutKeepsNoDuplicates(keys[1..], k);
      assert NoDuplicateKeys(keys[1..]) by {
        assert forall i :: 0 <= i < |keys| - 1 ==> keys[1..][i] == keys[i + 1];
      }
      var rest := Without(keys[1..], k);
      assert keys[0] !in rest by {
        assert keys[0] !in keys[1..];
      }
    }
  }

  lemma NextGameKeepsValid(g: GameState, n: nat, pool: seq<ServerQuestion>, pick: nat)
    requires n > 0 && GameValid(g, pool)
    requires NextGame(g, n, pool, pick).Advanced?
    ensures GameValid(NextGame(g, n, pool, pick).game, pool)
  {
    var r := NextGame(g, n, pool, pick).game;
    if r.round <= g.numberOfRounds {
      var ids := r.usedQuestions;
      forall i, j | 0 <= i < j < |ids|
        ensures ids[i] != ids[j]
      {
        if j == |ids| - 1 {
          assert ids[i] == g.usedQuestions[i];
        }
      }
    }
  }

  lemma CreateKeepsValid(s: Server, socket: string, name: string, roomId: string)
    requires Valid(s) && GeneratedRoomId(roomId)
    ensures GeneratedRoomId(roomId) && roomId != "__proto__"
    ensures Valid(CreateRoomOf(s, socket, name, roomId).server)
  {
    GeneratedIdIsOwnKey(roomId);
    var t := CreateRoomOf(s, socket, name, roomId).server;
    if roomId !in s.created {
      forall i, j | 0 <= i < j < |t.created|
        ensures t.created[i] != t.created[j]
      {
        if j == |t.created| - 1 {
          assert t.created[i] == s.created[i];
        }
      }
    }
  }

  lemma DisconnectKeepsValid(s: Server, socket: string)
    requires Valid(s)
    ensures Valid(DisconnectOf(s, socket).server)
  {
    var f := FirstRoomWith(IterationOrder(s.created), s.rooms, socket);
    if f.Some? {
      assert DisconnectOf(s, socket).server == LeaveRoom(s, f.value, socket);
      LeaveRoomKeepsValid(s, f.value, socket);
    }
  }

  lemma LeaveRoomKeepsValid(s: Server, k: string, socket: string)
    requires Valid(s) && k in s.rooms && HasPlayer(s.rooms[k], socket)
    ensures Valid(LeaveRoom(s, k, socket))
  {
    var players := s.rooms[k].players;
    var i := PlayerIndex(players, socket);
    var rest := players[..i] + players[i + 1..];
    if |rest| == 0 {
      RemovingRoomKeepsValid(s, k);
    } else {
      ShrinkingRoomKeepsValid(s, k, rest);
    }
  }

  lemma RemovingRoomKeepsValid(s: Server, k: string)
    requires Valid(s)
    ensures Valid(Server(s.questions, s.rooms - {k}, Without(s.created, k)))
  {
    WithoutKeepsNoDuplicates(s.created, k);
  }

  lemma ShrinkingRoomKeepsValid(s: Server, k: string, rest: seq<ServerPlayer>)
    requires Valid(s) && k in s.rooms && 0 < |rest| <= |s.rooms[k].players|
    ensures Valid(s.(rooms := s.rooms[k := s.rooms[k].(players := rest)]))
  {
  }

  /** Replacing one stored room by a valid one keeps the server valid. */
  lemma ReplacingRoomKeepsValid(s: Server, k: string, room: Room)
    requires Valid(s) && k in s.rooms && RoomValid(room, s.questions)
    ensures Valid(s.(rooms := s.rooms[k := room]))
  {
  }

  lemma JoinKeepsValid(s: Server, socket: string, roomId: string, name: string, inherits: bool)
    requires Valid(s) && JoinRoomOf(s, socket, roomId, name, inherits).Next?
    ensures Valid(JoinRoomOf(s, socket, roomId, name, inherits).server)
  {
    var r := JoinRoomOf(s, socket, roomId, name, inherits);
    if r.ack.Joined? {
      ReplacingRoomKeepsValid(s, roomId, s.rooms[roomId].(players := r.ack.players));
    }
  }

  lemma StartKeepsValid(s: Server, socket: string, roomId: string, pick: nat, inherits: bool)
    requires Valid(s) && StartGameOf(s, socket, roomId, pick, inherits).Next?
    ensures Valid(StartGameOf(s, socket, roomId, pick, inherits).server)
  {
    if roomId in s.rooms && SentByHost(s.rooms[roomId].players, socket) {
      var g := InitialGameState(s.questions, pick);
      ReplacingRoomKeepsValid(s, roomId, s.rooms[roomId].(gameState := g));
    }
  }

  lemma SubmitKeepsValid(s: Server, roomId: string, answer: string, inherits: bool)
    requires Valid(s) && SubmitAnswerOf(s, roomId, answer, inherits).Next?
    ensures Valid(SubmitAnswerOf(s, roomId, answer, inherits).server)
  {
    var r := SubmitAnswerOf(s, roomId, answer, inherits);
    if roomId in s.rooms && s.rooms[roomId].gameState.Some? {
      var room := s.rooms[roomId];
      var answered := r.server.rooms[roomId];
      assert r.server == s.(rooms := r.server.rooms);
      assert r.server.rooms == s.rooms[roomId := answered] by {
        assert r.server.rooms.Keys == s.rooms.Keys;
      }
      assert |answered.players| == |room.players|;
      assert answered.gameState.value.question == room.gameState.value.question;
      assert answered.gameState.value.usedQuestions == room.gameState.value.usedQuestions;
      ReplacingRoomKeepsValid(s, roomId, answered);
    }
  }

  lemma NextKeepsValid(s: Server, roomId: string, pick: nat, inherits: bool)
    requires Valid(s) && NextStateOf(s, roomId, pick, inherits).Next?
    ensures Valid(NextStateOf(s, roomId, pick, inherits).server)
  {
    if roomId in s.rooms && s.rooms[roomId].gameState.Some? {
      var room := s.rooms[roomId];
      NextGameKeepsValid(room.gameState.value, |room.players|, s.questions, pick);
      var step := NextGame(room.gameState.value, |room.players|, s.questions, pick);
      ReplacingRoomKeepsValid(s, roomId, room.(gameState := Some(step.game)));
    }
  }

  /** The invariant every reachable server keeps: room keys match the key order,
      every room has one or two players, and no game repeats a question. */
  lemma HandleKeepsValid(s: Server, e: Event, inherits: bool)
    requires Valid(s) && WellFormed(e)
    requires Occupied(s)
    requires Handle(s, e, inherits).Next?
    ensures Valid(Handle(s, e, inherits).server)
  {
    match e
    case CreateRoom(socket, name, roomId) =>
      CreateKeepsValid(s, socket, name, roomId);
    case JoinRoom(socket, roomId, name) =>
      JoinKeepsValid(s, socket, roomId, name, inherits);
    case StartGame(socket, roomId, pick) =>
      StartKeepsValid(s, socket, roomId, pick, inherits);
    case SubmitAnswer(_, roomId, answer) =>
      SubmitKeepsValid(s, roomId, answer, inherits);
    case NextState(_, roomId, pick) =>
      NextKeepsValid(s, roomId, pick, inherits);
    case Disconnect(socket) =>
      DisconnectKeepsValid(s, socket);
  }

  /** Rooms never exceed two players and no game repeats a question, as written
      and with own-property lookup alike. */
  lemma StepKeepsValid(s: Server, e: Event)
    requires Valid(s) && WellFormed(e)
    ensures Occupied(s)
    ensures Step(s, e).Next? ==> Valid(Step(s, e).server)
    ensures StepIntended(s, e).Next? ==> Valid(StepIntended(s, e).server)
  {
    ValidIsOccupied(s);
    if Step(s, e).Next? {
      HandleKeepsValid(s, e, true);
    }
    if StepIntended(s, e).Next? {
      HandleKeepsValid(s, e, false);
    }
  }

  /** A two-player room whose guest leaves while it is the guest's turn keeps its
      game with the turn index at 1; the host's next answer then reads
      `players[1].score` of a one-player room, which ends the server. */
  lemma LeavingOnOwnTurnCrashesNextAnswer(s: Server, k: string, host: ServerPlayer, guest: ServerPlayer,
                                          g: GameState, answer: string)
    requires Occupied(s) && k in s.rooms
    requires s.rooms[k] == Room([host, guest], Some(g)) && g.currentPlayerIndex == 1
    requires host.id != guest.id
    requires FirstRoomWith(IterationOrder(s.created), s.rooms, guest.id) == Some(k)
    ensures k in DisconnectOf(s, guest.id).server.rooms
    ensures DisconnectOf(s, guest.id).server.rooms[k] == Room([host], Some(g))
    ensures Step(DisconnectOf(s, guest.id).server, SubmitAnswer(host.id, k, answer)) == Crash
  {
    GuestLeaves(s, k, host, guest, g);
    var s' := DisconnectOf(s, guest.id).server;
    assert Occupied(s') by {
      forall x | x in s'.rooms
        ensures |s'.rooms[x].players| > 0
      {
        if x != k { assert s'.rooms[x] == s.rooms[x]; }
      }
    }
    OneLeftCrashes(s', k, host, g, answer);
  }

  /** The guest's disconnect leaves the host alone in the room, game unchanged. */
  lemma GuestLeaves(s: Server, k: string, host: ServerPlayer, guest: ServerPlayer, g: GameState)
    requires k in s.rooms && s.rooms[k] == Room([host, guest], Some(g))
    requires host.id != guest.id
    requires FirstRoomWith(IterationOrder(s.created), s.rooms, guest.id) == Some(k)
    ensures k in DisconnectOf(s, guest.id).server.rooms
    ensures DisconnectOf(s, guest.id).server.rooms[k] == Room([host], Some(g))
    ensures forall x :: x in s.rooms && x != k ==>
      x in DisconnectOf(s, guest.id).server.rooms && DisconnectOf(s, guest.id).server.rooms[x] == s.rooms[x]
    ensures forall x :: x in DisconnectOf(s, guest.id).server.rooms ==> x in s.rooms
  {
    assert PlayerIndex([host, guest], guest.id) == 1;
    assert [host, guest][..1] + [host, guest][2..] == [host];
  }

  /** An answer in a one-player room whose turn index is 1 reads past the roster. */
  lemma OneLeftCrashes(s: Server, k: string, host: ServerPlayer, g: GameState, answer: string)
    requires Occupied(s) && k in s.rooms && s.rooms[k] == Room([host], Some(g))
    requires g.currentPlayerIndex == 1
    ensures Step(s, SubmitAnswer(host.id, k, answer)) == Crash
  {
    assert SubmitAnswerOf(s, k, answer, true) == Crash;
  }
}

=== FILE: setup_screen.dfy ===
/** The roster editor of the setup screen (src/components/SetupScreen.tsx): one to
    four players, each with a name and one of ten avatars, and a round count of 5,
    10 or 15. */
module SetupScreen {
  import opened GameTypes
  import JsText
  import Arith

  const Avatars: seq<string> := [
    "/img/Moroarte_OOOhh.jpg",
    "/img/moroarteCRINGE.jpg",
    "/img/MoroarteDea2.jpg",
    "/img/MoroarteNoSe.jpg",
    "/img/MoroarteParodia.jpg",
    "/img/MoroartePiedad.jpeg",
    "/img/MoroarteSabiduria.jpg",
    "/img/MoroarteSpirit.jpg",
    "/img/MoroColombres.jpg",
    "/img/MroarteRockero.jpg"]

  const MaxPlayers := 4
  const RoundChoices: seq<int> := [5, 10, 15]

  datatype Setup = Setup(players: seq<Player>, rounds: int, mode: Mode)

  /** A blank player with the given avatar: 100 points, nothing else. */
  function BlankPlayer(avatar: string): (p: Player)
    ensures p.name == "" && p.avatar == avatar && p.score == 100
    ensures p.exactHits == 0 && p.correctHits == 0 && p.wrongHits == 0 && p.totalTimeUsed == 0
  {
    Player("", avatar, 100, 0, 0, 0, 0)
  }

  /** The screen's first render: one blank player with the first avatar, 10 rounds,
      classic mode. */
  function NewSetup(): (s: Setup)
    ensures |s.players| == 1 && s.players[0] == BlankPlayer(Avatars[0])
    ensures s.rounds == 10 && s.rounds in RoundChoices && s.mode == Classic
  {
    Setup([BlankPlayer(Avatars[0])], 10, Classic)
  }

  /** What the screen keeps true: one to four players and a offered round count. */
  predicate Valid(s: Setup) {
    1 <= |s.players| <= MaxPlayers && s.rounds in RoundChoices
  }

  /** `indexOf`: the first position of `a` in `s`, or -1. */
  function IndexIn(s: seq<string>, a: string): (i: int)
    ensures -1 <= i < |s|
    ensures i >= 0 ==> s[i] == a && forall j :: 0 <= j < i ==> s[j] != a
    ensures i == -1 <==> a !in s
  {
    if |s| == 0 then -1
    else if s[0] == a then 0
    else
      var k := IndexIn(s[1..], a);
      assert forall j :: 1 <= j < |s| ==> s[j] == s[1..][j - 1];
      if k == -1 then -1 else k + 1
  }

  /** The avatar after `a` (or before it, for `next == false`) in the cyclic list
      `av`; an avatar not in the list counts as position -1. */
  function Cycle(av: seq<string>, a: string, next: bool): (r: string)
    requires |av| > 0
    ensures r in av
  {
    av[Step(IndexIn(av, a), |av|, next)]
  }

  /** One step forward or back around a cycle of `len` positions. */
  function Step(k: int, len: int, next: bool): (j: int)
    requires len > 0 && -1 <= k < len
    ensures 0 <= j < len
  {
    if next then (k + 1) % len else (k - 1 + len) % len
  }

  /** `handleAvatarChange`: the next or previous avatar, cyclically, so "next" from
      an unlisted avatar gives the first and "previous" the ninth. */
  function AvatarChange(s: Setup, index: nat, next: bool): (r: Setup)
    requires index < |s.players|
    ensures |r.players| == |s.players| && r.rounds == s.rounds && r.mode == s.mode
    ensures r.players[index] == s.players[index].(avatar := Cycle(Avatars, s.players[index].avatar, next))
    ensures s.players[index].avatar !in Avatars ==>
      r.players[index].avatar == (if next then Avatars[0] else Avatars[8])
    ensures forall i :: 0 <= i < |s.players| && i != index ==> r.players[i] == s.players[i]
  {
    CycleFromUnlisted(Avatars, s.players[index].avatar, next);
    s.(players := s.players[index := s.players[index].(avatar := Cycle(Avatars, s.players[index].avatar, next))])
  }

  /** From an entry not in the list, a step forward reaches the first entry and a
      step back the next-to-last. */
  lemma CycleFromUnlisted(av: seq<string>, a: string, next: bool)
    requires |av| >= 2
    ensures a !in av ==> Cycle(av, a, next) == av[if next then 0 else |av| - 2]
  {
    Arith.ModSmall(0, |av|);
    Arith.ModSmall(|av| - 2, |av|);
  }

  /** `addPlayer`: below four players, a blank player with the avatar at the roster's
      length; otherwise nothing. */
  function AddPlayer(s: Setup): (r: Setup)
    ensures |s.players| < MaxPlayers ==>
      r.players == s.players + [BlankPlayer(Avatars[|s.players| % |Avatars|])]
    ensures |s.players| >= MaxPlayers ==> r == s
    ensures r.rounds == s.rounds && r.mode == s.mode
  {
    if |s.players| < MaxPlayers then
      s.(players := s.players + [BlankPlayer(Avatars[|s.players| % |Avatars|])])
    else s
  }

  /** `players.filter((_, i) => i !== index)`. */
  function RemoveAt(ps: seq<Player>, index: int): (r: seq<Player>)
    ensures 0 <= index < |ps| ==> r == ps[..index] + ps[index + 1..]
    ensures !(0 <= index < |ps|) ==> r == ps
  {
    if 0 <= index < |ps| then ps[..index] + ps[index + 1..] else ps
  }

  /** `removePlayer`: with more than one player, that entry goes; otherwise nothing. */
  function RemovePlayer(s: Setup, index: int): (r: Setup)
    ensures |s.players| > 1 && 0 <= index < |s.players| ==> |r.players| == |s.players| - 1
    ensures |s.players| > 1 && 0 <= index < |s.players| ==>
      forall i :: 0 <= i < |r.players| ==> r.players[i] == s.players[if i < index then i else i + 1]
    ensures |s.players| <= 1 || !(0 <= index < |s.players|) ==> r == s
  {
    if |s.players| > 1 then s.(players := RemoveAt(s.players, index)) else s
  }

  /** `handlePlayerNameChange`. */
  function SetName(s: Setup, index: nat, name: string): (r: Setup)
    requires index < |s.players|
    ensures |r.players| == |s.players| && r.players[index].name == name
    ensures r.players[index].avatar == s.players[index].avatar
    ensures forall i :: 0 <= i < |s.players| && i != index ==> r.players[i] == s.players[i]
  {
    s.(players := s.players[index := s.players[index].(name := name)])
  }

  /** A click on one of the round-count buttons. */
  function ChooseRounds(s: Setup, choice: nat): (r: Setup)
    requires choice < |RoundChoices|
    ensures r.rounds in RoundChoices && r.players == s.players && r.mode == s.mode
  {
    s.(rounds := RoundChoices[choice])
  }

  /** `canStart`: every name has something besides white space. */
  predicate CanStart(s: Setup) {
    forall i :: 0 <= i < |s.players| ==> JsText.Trim(s.players[i].name) != ""
  }

  /** The start guard refuses exactly the rosters with a blank name. */
  lemma CanStartIff(s: Setup)
    ensures CanStart(s) <==> forall i :: 0 <= i < |s.players| ==> !JsText.AllWhiteSpace(s.players[i].name)
  {
    forall i | 0 <= i < |s.players|
      ensures JsText.Trim(s.players[i].name) != "" <==> !JsText.AllWhiteSpace(s.players[i].name)
    {
      JsText.TrimEmptyIff(s.players[i].name);
    }
  }

  /** Every editing step keeps one to four players and an offered round count. */
  lemma EditsKeepValid(s: Setup, index: nat, name: string, next: bool, choice: nat, removed: int)
    requires Valid(s) && index < |s.players| && choice < |RoundChoices|
    ensures Valid(AddPlayer(s))
    ensures Valid(RemovePlayer(s, removed))
    ensures Valid(AvatarChange(s, index, next))
    ensures Valid(SetName(s, index, name))
    ensures Valid(ChooseRounds(s, choice))
  {
  }

  /** The listed avatars are all different: no two agree in both length and
      fifteenth character. */
  lemma AvatarsDistinct()
    ensures forall i, j :: 0 <= i < j < |Avatars| ==> Avatars[i] != Avatars[j]
  {
    var keys := [(23, 'O'), (23, 'R'), (21, 'e'), (21, 'o'), (24, 'a'), (24, 'i'), (26, 'a'), (23, 'p'), (22, 'b'), (23, 'c')];
    assert forall i :: 0 <= i < |Avatars| ==> |Avatars[i]| > 14 && (|Avatars[i]|, Avatars[i][14]) == keys[i];
  }

  /** In a list without repeats, every entry is found at its own position. */
  lemma IndexInDistinct(s: seq<string>, n: nat)
    requires forall i, j :: 0 <= i < j < |s| ==> s[i] != s[j]
    requires n < |s|
    ensures IndexIn(s, s[n]) == n
  {
  }

  /** Stepping forward then back around a cycle of `len` positions returns to the
      start. */
  lemma ForwardThenBack(k: int, len: int)
    requires 0 <= k < len
    ensures ((k + 1) % len - 1 + len) % len == k
  {
    if k + 1 == len {
      Arith.ModSelf(len);
      Arith.ModSmall(len - 1, len);
    } else {
      Arith.ModSmall(k + 1, len);
      Arith.ModPlusLength(k, len);
    }
  }

  /** Stepping back then forward around a cycle of `len` positions returns to the
      start. */
  lemma BackThenForward(k: int, len: int)
    requires 0 <= k < len
    ensures ((k - 1 + len) % len + 1) % len == k
  {
    if k == 0 {
      Arith.ModSmall(len - 1, len);
      Arith.ModSelf(len);
    } else {
      Arith.ModPlusLength(k - 1, len);
      Arith.ModSmall(k, len);
    }
  }

  /** In a list without repeats, a step one way and a step back return to a listed
      entry. */
  lemma CycleRestores(av: seq<string>, a: string, next: bool)
    requires forall i, j :: 0 <= i < j < |av| ==> av[i] != av[j]
    requires a in av
    ensures Cycle(av, Cycle(av, a, next), !next) == a
  {
    var k := IndexIn(av, a);
    var n := Step(k, |av|, next);
    assert Cycle(av, a, next) == av[n];
    IndexInDistinct(av, n);
    assert Cycle(av, av[n], !next) == av[Step(n, |av|, !next)];
    StepBack(k, |av|, next);
  }

  /** A step one way and a step back return to the start. */
  lemma StepBack(k: int, len: int, next: bool)
    requires 0 <= k < len
    ensures Step(Step(k, len, next), len, !next) == k
  {
    if next {
      ForwardThenBack(k, len);
    } else {
      BackThenForward(k, len);
    }
  }

  /** "Next" then "previous", or "previous" then "next", gives a listed avatar back. */
  lemma AvatarStepRestores(s: Setup, index: nat, next: bool)
    requires index < |s.players| && s.players[index].avatar in Avatars
    ensures AvatarChange(AvatarChange(s, index, next), index, !next) == s
  {
    AvatarsDistinct();
    CycleRestores(Avatars, s.players[index].avatar, next);
    var s2 := AvatarChange(AvatarChange(s, index, next), index, !next);
    assert s2.players[index] == s.players[index];
    assert s2.players == s.players;
  }
}

=== FILE: wrappers.dfy ===
/** Optional values, standing in for JavaScript's `null`, `undefined` and `NaN`
    results throughout the model. */
module Wrappers {

  datatype Option<+T> = None | Some(value: T)
}
